=== FILE: README.md ===
# Smart Bill Predictor: a Dafny model of its calculators

This project models the rule-based core of the Smart Bill Predictor, a Python
application that estimates electricity bills and related figures. It covers:

- **Tariff engine** (`tariff_engine.dfy`, `tariff_cache.dfy`). It resolves a
  state/category rate table through a TTL cache and prices units on slab
  tiers. Season and time-of-day multipliers are matched without regard to
  letter case, and a fixed charge is added.
- **Appliance health** (`appliance_health.dfy`). The appliance registry, the
  penalty-based health score, the severity bands, the failure probability and
  the status report.
- **Smart automated system** (`smart_system.dfy`). Property-type keywords, roof
  area, zip-prefix regions and seasonal rates, the solar score, ratings and
  priorities, the payback period, the action lists and the API-key update.
- **Carbon tracker** (`carbon_tracker.dfy`). The emission-factor fallback
  chain, the tracking history the three `add_*` methods append to, the
  per-category summary, and the recommendations and progress bands.
- **Bill simulation** (`bill_simulation.dfy`). Scenario application, last-wins
  tariff selection, the per-month breakdown, seasons, the carbon footprint and
  the simulation recommendations.
- **Data service** (`data_service.dfy`). The five-minute dashboard cache kept in
  two dictionaries, the analytics window and the export section selection.

`wrappers.dfy` holds `Option`, `Result` and the Python exception kinds.
`text.dfy` holds ASCII case mapping, substring search, string ordering and
digit strings.

Some conventions apply throughout:

- Money, units and factors are `real`.
- A Python exception is an `Err` carrying its kind.
- A missing dictionary key is `None`.
- Fixed user-facing messages are represented by tags (enumerations or the
  literal strings where the code compares them).
- The clock, the current month, appliance age, trends, anomaly scores and
  model predictions are parameters.

Where the source mutates an object, the model is a class with `modifies`
clauses:

- the TTL cache store;
- the engine's cache;
- the appliance registry;
- the API keys;
- the tracking history;
- the two dashboard dictionaries.

Each such method is tied to a pure function of the old state, and the
properties are lemmas about those functions. Loops that update variables are
methods with invariants, proved equal to a recursive specification:

- slab parsing and the slab walk;
- the health score and the anomaly count;
- the solar score and the action lists;
- the summary aggregation;
- the scenario and tariff loops;
- the month loop.

## Model

| member | source | states |
|---|---|---|
| TariffCache.ExpiryAfter | app/tariff_cache.py:29-30 | the expiry is `now + max(0, ttl)`: a negative TTL behaves like 0 |
| TariffCache.Lookup | app/tariff_cache.py:19-27 | a read returns a value exactly when the key is present and `now` is strictly before its expiry, and then it is the stored value |
| TariffCache.AfterGet | app/tariff_cache.py:23-26 | a read at or after expiry pops exactly that key; any other read leaves the store as it was |
| TariffCache.AfterSet | app/tariff_cache.py:29-30 | `set` adds or overwrites the one key with the new expiry and value; every other key keeps its entry |
| TariffCache.InMemoryTTLCache.Get | app/tariff_cache.py:19-27 | absent key: None and no change; expired: None and the key removed; live: the value and no change |
| TariffCache.InMemoryTTLCache.Set | app/tariff_cache.py:29-30 | the store becomes the old store with the key mapped to the new expiry and value |
| TariffCache.SetThenLookup | app/tariff_cache.py:19-30 | a value set at `t` is served exactly while `now < t + max(0, ttl)` |
| TariffCache.NonPositiveTtlNeverServed | app/tariff_cache.py:24-30 | an entry set with TTL <= 0 is never returned at or after its set time |
| TariffCache.OtherKeysUntouched | app/tariff_cache.py:19-30 | set and get on one key never change what a read of another key returns |
| TariffCache.EvictionUnobservable | app/tariff_cache.py:19-27 | popping an expired entry changes no later read of that key |
| TariffCache.GetCache | app/tariff_cache.py:56-62 | Redis is chosen exactly when it is preferred and its construction does not fail; otherwise in-memory |
| TariffEngine.ParseRows | app/tariff_engine.py:91-104 | slab parsing fails only with `KeyError`, and yields at most one tier and one recorded bound per row |
| TariffEngine.ParseErrorSticks | app/tariff_engine.py:94-103 | once a row raises, the parse of the whole list raises the same error |
| TariffEngine.ParseInvariant | app/tariff_engine.py:91-104 | a successful parse yields bounded tiers with strictly increasing `upto`, equal to `upper_seen`, and one unbounded tier per "above" row |
| TariffEngine.ParseRowKeepsInvariant | app/tariff_engine.py:95-103 | one row keeps the bounds of the bounded tiers equal to `upper_seen` and strictly increasing |
| TariffEngine.ParseDropsStaleBound | app/tariff_engine.py:97-101 | a bounded row whose `upto` is at most the largest accepted bound leaves the parse unchanged |
| TariffEngine.ParseAboveAndKeyless | app/tariff_engine.py:95-97 | an "above" row appends an unbounded tier with its rate; a row with neither key is dropped |
| TariffEngine.FreshBoundAppended | app/tariff_engine.py:97-103 | a bounded row with a rate whose `upto` exceeds every accepted bound is appended as a tier and its bound recorded |
| TariffEngine.KeptRowWithoutRateRaises | app/tariff_engine.py:95-103 | an "above" row, or a bounded row above every accepted bound, without "rate" raises `KeyError` |
| TariffEngine.ParseSlabs | app/tariff_engine.py:91-104 | the loop succeeds iff the fold succeeds, fails only with `KeyError`, returns the folded tiers, and their bounds strictly increase |
| TariffEngine.ComputeSlabAmount | app/tariff_engine.py:107-125 | the loop's amount equals the specified slab walk plus the overflow fallback |
| TariffEngine.WalkAccounts | app/tariff_engine.py:111-121 | the units placed in tiers plus the units left over equal the units the walk started with |
| TariffEngine.WalkBillsPerTier | app/tariff_engine.py:111-121 | the walk's amount is the units placed in each visited tier times that tier's rate |
| TariffEngine.WalkNonNegative | app/tariff_engine.py:116-118 | from units >= 0 no tier receives negative units and nothing negative is left over |
| TariffEngine.UnitsBilledExactlyOnce | app/tariff_engine.py:107-125 | with tiers and units >= 0, the billed spans plus the fallback remainder sum to exactly the units, and the amount is spans times rates plus the remainder at the last rate |
| TariffEngine.NoUnitsNoCharge | app/tariff_engine.py:107-125 | with no tiers the amount is 0; with units <= 0 it is 0 unless the first tier is unbounded (then units times its rate) |
| TariffEngine.WalkWithinChain | app/tariff_engine.py:116-121 | units that fit within increasing bounded tiers are used up there, whatever tiers follow |
| TariffEngine.WalkFillsChain | app/tariff_engine.py:116-121 | units that fill increasing bounded tiers exactly to the top bound cost each tier its width times its rate |
| TariffEngine.WalkThroughChain | app/tariff_engine.py:116-121 | units beyond increasing bounded tiers fill each to its bound and carry the excess on |
| TariffEngine.UnitsAtBoundStopThere | app/tariff_engine.py:116-121 | units exactly at a bound cost the full cost of the tiers up to it; later tiers are never charged |
| TariffEngine.LaterTiersUnreached | app/tariff_engine.py:116-121 | units within the bounded tiers cost the same whatever tiers follow |
| TariffEngine.UnboundedTierAbsorbs | app/tariff_engine.py:112-115 | an unbounded tier after the bounded ones bills every excess unit at its own rate and ends the walk |
| TariffEngine.OverflowBilledAtLastRate | app/tariff_engine.py:122-124 | without an unbounded tier the excess beyond the last bound is billed at the last tier's rate |
| TariffEngine.SlabExample | app/tariff_engine.py:107-125 | 150 units on 100 at 0, 200 at 2.35 and above at 4.70 cost 117.5 |
| TariffEngine.CaseInsensitiveKey | app/tariff_engine.py:158-164 | the result is the first key equal to the label ignoring case, and None iff no key is |
| TariffEngine.InferSeasonByMonth | app/tariff_engine.py:167-179 | April-June give "summer", July-September "monsoon", October-February "winter", each when that key exists (any case); in every other case the first key of the map, or "default" for an empty map |
| TariffEngine.SeasonFactorRules | app/tariff_engine.py:128-142 | the factor is 1.0 without a map, for the label "default" and for an unmatched label; a matched label gives the first matching key's factor |
| TariffEngine.SeasonInferredFromMonth | app/tariff_engine.py:132-142 | with no label, a summer, monsoon or winter month whose key exists takes that key's factor; any other month takes the first key's factor, or 1.0 when that key is "default" or empty |
| TariffEngine.TodFactorRules | app/tariff_engine.py:145-155 | the factor is 1.0 without a map or a match; a missing label reads as "mid"; a match gives that key's factor |
| TariffEngine.SeasonLabelIgnoresCase | app/tariff_engine.py:139-142 | "Summer" selects the factor stored under "summer" |
| TariffEngine.BillFromTable | app/tariff_engine.py:64-87 | pricing fails exactly when slab parsing fails (`KeyError`); otherwise the bill is `BillFor` on the parsed tiers |
| TariffEngine.BillFor | app/tariff_engine.py:67-79 | the base amount is units x `flat_rate` when no tier parsed and `flat_rate` is present, else the slab amount; both resolved factors; fixed charge defaults to 0; total = base x season x time-of-day + fixed charge |
| TariffEngine.PlainTableBill | app/tariff_engine.py:71-79 | without multiplier maps the total is the base amount plus the fixed charge |
| TariffEngine.FlatRateOnlyWithoutSlabs | app/tariff_engine.py:71-75 | a table whose one slab row is a bounded tier prices on that tier even when it also has a `flat_rate` |
| TariffEngine.ExampleRowsParse | app/tariff_engine.py:91-104 | the three example rows (0-100 at 0, 100-200 at 2.35, above at 4.70) parse to their three tiers and the bounds [100, 200] |
| TariffEngine.BillExample | app/tariff_engine.py:64-87 | 150 units on the three-tier table without multipliers or fixed charge give base and total 117.5, both factors 1 |
| TariffEngine.FirstTruthy | app/tariff_engine.py:53 | the chain `get(a) or get(b) or get(c)` yields the first present, truthy variant, and None iff there is none |
| TariffEngine.ResolveTable | app/tariff_engine.py:52-59 | succeeds iff a truthy state is found trying exact, title, upper case and in it a truthy category trying exact, title, lower case; the result is that first truthy table; otherwise `ValueError`; an exact hit is returned as is; a result is never `{}` (an object with only keys the engine does not read is non-empty) |
| TariffEngine.CacheKeyIgnoresCase | app/tariff_engine.py:47 | requests differing only in letter case share one cache key |
| TariffEngine.CachedForAnHour | app/tariff_engine.py:47-62 | after a load at `t`, the same request is answered from the cache, unchanged, until `t + 3600` |
| TariffEngine.Engine.GetTariffTable | app/tariff_engine.py:46-62 | a hit returns the cached table and loads nothing; a miss resolves the table and caches it for 3600 s, or raises `ValueError` and caches nothing |
| TariffEngine.Engine.ComputeBill | app/tariff_engine.py:64-87 | the bill is the resolved table priced by `BillFromTable`; errors of the table lookup propagate |
| ApplianceHealth.ExpectedLifespan | Pages/appliance_health_prediction.py:46-60 | the category's table entry, 10 years for an unknown category, always within 8-18 |
| ApplianceHealth.HealthThresholds | Pages/appliance_health_prediction.py:62-80 | base thresholds, except refrigerator temperature 0.1, washing-machine vibration 0.15, air-conditioner energy 0.2 |
| ApplianceHealth.PenaltyBounds | Pages/appliance_health_prediction.py:195-232 | the penalties, each applied at most once, add up to between 0 and 95 |
| ApplianceHealth.WorstReadingScoresFive | Pages/appliance_health_prediction.py:195-232 | a reading failing every check has penalty 95, so the score bound 5 is reached |
| ApplianceHealth.SeverityLevel | Pages/appliance_health_prediction.py:257-268 | >= 80 Good, >= 60 Fair, >= 40 Poor, >= 20 Critical, else Emergency, each band exactly |
| ApplianceHealth.SeverityMonotone | Pages/appliance_health_prediction.py:257-268 | a higher score is never more severe |
| ApplianceHealth.CountAnomalies | Pages/appliance_health_prediction.py:309 | the anomaly count never exceeds the number of readings |
| ApplianceHealth.AnomalyCountExtremes | Pages/appliance_health_prediction.py:309 | the count is 0 iff no reading is an anomaly, and equals the number of readings iff every reading is one |
| ApplianceHealth.UncappedBounds | Pages/appliance_health_prediction.py:286-311 | the uncapped probability lies in [0.1, 1.5]; anomalies beyond 3 add nothing more |
| ApplianceHealth.TimeToFailureBands | Pages/appliance_health_prediction.py:314-321 | "1-2 weeks" exactly above 0.7 and "6+ months" exactly at or below 0.3 |
| ApplianceHealth.ApplianceHealthPredictor.AddAppliance | Pages/appliance_health_prediction.py:27-44 | (re)registers the appliance with health 100, no maintenance, the category lifespan and thresholds, and keeps the registry invariant |
| ApplianceHealth.ApplianceHealthPredictor.RecordReading | Pages/appliance_health_prediction.py:82-104 | an unknown id raises `ValueError`, a zero power rating divides by zero; otherwise normalized energy times power rating equals energy use |
| ApplianceHealth.ApplianceHealthPredictor.CalculateHealthScore | Pages/appliance_health_prediction.py:195-232 | missing thresholds or metadata raise `KeyError`, a zero power rating divides by zero; otherwise 100 minus the total penalty, within [5, 100] |
| ApplianceHealth.ApplianceHealthPredictor.PredictFailureProbability | Pages/appliance_health_prediction.py:270-329 | unknown id raises; no readings give 0 and "Unknown"; otherwise min(uncapped, 0.95) in [0.1, 0.95] with the band of the uncapped value |
| ApplianceHealth.ApplianceHealthPredictor.GetApplianceStatus | Pages/appliance_health_prediction.py:374-392 | an unknown id raises `ValueError`; the status is "Active" iff the stored health score exceeds 50 |
| ApplianceHealth.RegisteredAppliancesActive | Pages/appliance_health_prediction.py:27-44 | every registered appliance reports "Active", since nothing lowers its stored score of 100 |
| SmartSystem.PropertyTypeOf | Pages/smart_automated_system.py:150-161 | apartment words win over townhouse words over commercial words; otherwise single_family |
| SmartSystem.ApartmentKeywordWins | Pages/smart_automated_system.py:150-153 | an address containing "apt" in any case is an apartment |
| SmartSystem.RoofMultiplier | Pages/smart_automated_system.py:172-182 | 1.2 for the suburban and 1.5 for the rural state lists, only in the US; 1.0 otherwise; always in [1, 1.5] |
| SmartSystem.ZipInt | Pages/smart_automated_system.py:205 | the decimal value of the first three digits of an all-digit zip (the whole zip when shorter), else 100; never above 999 |
| SmartSystem.Region | Pages/smart_automated_system.py:207-220 | each region's zip-prefix range exactly, and "default" for every other prefix |
| SmartSystem.SeasonalFactor | Pages/smart_automated_system.py:228-233 | 1.15 in June-August, 1.10 in December-February, 1.0 otherwise |
| SmartSystem.RateBounds | Pages/smart_automated_system.py:235 | a base rate in [0.11, 0.22] times the seasonal factor stays in [0.11, 0.253] |
| SmartSystem.RegionRates | Pages/smart_automated_system.py:194-222 | every region has a default rate, in [0.11, 0.22] |
| SmartSystem.RatesFor | Pages/smart_automated_system.py:186-244 | region from the zip prefix, its base rate, the seasonal factor, their product, always in [0.11, 0.253] |
| SmartSystem.MissingZipIsNortheast | Pages/smart_automated_system.py:205-208 | a missing or non-numeric zip is priced as the northeast at 0.22 |
| SmartSystem.SolarScore | Pages/smart_automated_system.py:414-447 | the loop's score is 50 plus the latitude, roof and cloud points, always in [30, 100] |
| SmartSystem.Rating | Pages/smart_automated_system.py:479-488 | >= 80 Excellent, >= 60 Good, >= 40 Fair, else Poor, each band exactly |
| SmartSystem.SolarPriority | Pages/smart_automated_system.py:398 | > 70 high, > 40 medium, else low, each band exactly |
| SmartSystem.RatingAgreesWithPriority | Pages/smart_automated_system.py:398 | an Excellent site has high priority and a Poor one low |
| SmartSystem.AppliancePriority | Pages/smart_automated_system.py:449-458 | commercial or rate > 0.20 gives high, then single_family medium, else low, each exactly |
| SmartSystem.RoundHalfEven | Pages/smart_automated_system.py:477 | `round()` lands within 0.5 of its argument, strictly nearer off a tie, and on an even integer at a tie |
| SmartSystem.PaybackPeriod | Pages/smart_automated_system.py:468-477 | no positive savings give 25; otherwise `RoundHalfEven` of cost over yearly savings clamped to [5, 25]; always within [5, 25] |
| SmartSystem.ActionItems | Pages/smart_automated_system.py:500-520 | the appended list is exactly `ActionItemList` |
| SmartSystem.ActionItemList | Pages/smart_automated_system.py:503-520 | one line per condition that holds (solar counts once above 40, priority twice, savings once) plus the two monitoring lines last; with every condition true the order is consultation, monitoring system, audit, efficiency, the two fixed lines |
| SmartSystem.ActionItemSolarLine | Pages/smart_automated_system.py:505-508 | the consultation line iff score > 70, the feasibility line iff 40 < score <= 70 |
| SmartSystem.ActionItemPriorityLines | Pages/smart_automated_system.py:510-512 | the monitoring-system and audit lines iff the appliance priority is "high" |
| SmartSystem.ActionItemSavingsLine | Pages/smart_automated_system.py:514-515 | the efficiency line iff the savings potential exceeds 5000 |
| SmartSystem.NextSteps | Pages/smart_automated_system.py:522-537 | the appended list is exactly `NextStepList` |
| SmartSystem.NextStepList | Pages/smart_automated_system.py:524-537 | two lines per condition that holds plus the review and tracking lines last; with both conditions true the order is quotes, incentives, devices, audit, review, tracking |
| SmartSystem.NextStepLines | Pages/smart_automated_system.py:527-533 | quotes and incentives iff score > 60, devices and audit iff priority "high" |
| SmartSystem.SmartAutomatedSystem.SetApiKeys | Pages/smart_automated_system.py:56-68 | each non-empty argument replaces its key, the others stay, the location is untouched |
| SmartSystem.SmartAutomatedSystem.AutoDetectPropertyType | Pages/smart_automated_system.py:144-161 | the keyword rules on the address, or on the city and state without one; always a known property type |
| SmartSystem.SmartAutomatedSystem.EstimateRoofArea | Pages/smart_automated_system.py:163-184 | succeeds iff the given or detected property type is known, else `KeyError`; a missing type always succeeds; the base area times the state multiplier, in [40, 750] |
| SmartSystem.RoofAreaScaled | Pages/smart_automated_system.py:170-182 | every average roof area times a location multiplier lies in [40, 750] |
| SmartSystem.SmartAutomatedSystem.ZipcodeFor | Pages/smart_automated_system.py:190-191 | the argument when non-empty, else the location's zip code, else "10001" |
| CarbonTracker.EffectiveLocation | Pages/carbon_tracker.py:205-206 | a missing or empty location becomes exactly the default US location; any other is returned unchanged |
| CarbonTracker.EmissionFactor | Pages/carbon_tracker.py:243-256 | every factor found lies in [0, 0.95] |
| CarbonTracker.EmissionFactorFallbacks | Pages/carbon_tracker.py:243-256 | exact source entry, else the region's grid mix, else 0.42 for an unknown region or country; the country "default" raises `TypeError` iff the region is a source name, and otherwise gives 0.42 |
| CarbonTracker.EmissionFactorExamples | Pages/carbon_tracker.py:21-136 | coal in the midwest 0.95, an unknown source there 0.55, an unknown EU region 0.42 |
| CarbonTracker.DefaultLocationFactor | Pages/carbon_tracker.py:240-254 | the default location always uses 0.42 |
| CarbonTracker.CalculateEmissions | Pages/carbon_tracker.py:235-271 | fails iff the factor lookup fails; otherwise CO2 is usage times the location's factor |
| CarbonTracker.FilterRange | Pages/carbon_tracker.py:353-357 | every kept record comes from the history and lies in the range |
| CarbonTracker.FilterRangeAppend | Pages/carbon_tracker.py:353-357 | filtering a history split in two is the concatenation of filtering each part, so kept records stay in history order |
| CarbonTracker.RangeKeepsExactlyInRange | Pages/carbon_tracker.py:353-357 | a record is kept iff it is in the history and its date lies in the inclusive range |
| CarbonTracker.CategoriesPartition | Pages/carbon_tracker.py:365-379 | category counts sum to the number of records and category totals to the overall total |
| CarbonTracker.DetailsMatchCount | Pages/carbon_tracker.py:368-379 | a category's details are as many as its count and all of that category |
| CarbonTracker.ShareLines | Pages/carbon_tracker.py:472-486 | the electricity, transport and lifestyle lines appear iff their share exceeds 70%, 30% and 20% |
| CarbonTracker.ShareLinesInOrder | Pages/carbon_tracker.py:472-486 | the share lines come in the order electricity, transportation, lifestyle, none twice |
| CarbonTracker.LevelLine | Pages/carbon_tracker.py:489-492 | above average iff total > 1000, below average iff total < 500 |
| CarbonTracker.Recommendations | Pages/carbon_tracker.py:467-499 | the share lines as above, and the offset and tracking lines always last |
| CarbonTracker.TotalLevelLines | Pages/carbon_tracker.py:489-492 | the recommendations hold the above-average line iff total > 1000 and the below-average line iff total < 500 |
| CarbonTracker.ProgressMessage | Pages/carbon_tracker.py:618-629 | the bands <= -20, <= -10, <= 0, <= 10 and above, each exactly |
| CarbonTracker.ProgressMonotone | Pages/carbon_tracker.py:618-629 | a larger change never earns a better message |
| CarbonTracker.CarbonFootprintTracker.AddConsumptionData | Pages/carbon_tracker.py:200-233 | a failed lookup raises and appends nothing; otherwise exactly one record with the computed emissions is appended |
| CarbonTracker.CarbonFootprintTracker.AddTransportationData | Pages/carbon_tracker.py:284-313 | unknown type: None, history unchanged; zero passengers divide by zero; otherwise one record with distance x factor / passengers appended |
| CarbonTracker.CarbonFootprintTracker.AddLifestyleData | Pages/carbon_tracker.py:315-343 | unknown choice: None, history unchanged; otherwise one record with quantity x factor appended |
| CarbonTracker.TallyCategories | Pages/carbon_tracker.py:365-379 | the loop leaves exactly the categories that occur, each with its total emissions, record count and records in order |
| CarbonTracker.CarbonFootprintTracker.GetCarbonSummary | Pages/carbon_tracker.py:345-397 | empty history and empty selection give their messages; otherwise the total, per category present its total, count and records, and the recommendations |
| CarbonTracker.SummaryAddsUp | Pages/carbon_tracker.py:365-379 | over a summary only the three categories occur, their counts sum to the selected records, their totals to the total |
| BillSimulation.EffectiveScenarios | Pages/bill_simulation.py:251-256 | missing or empty scenarios become exactly the defaults; any other is returned unchanged; the result always has some scenario |
| BillSimulation.ApplyChange | Pages/bill_simulation.py:344-352 | a change not yet in effect or of an unknown kind leaves the usage; in effect, add gives usage + kwh, remove usage - kwh, replace usage - old + new; a missing amount key raises `KeyError`, the only error |
| BillSimulation.ScenarioUsage | Pages/bill_simulation.py:339-359 | a scenario usage is never below 100 |
| BillSimulation.ApplyScenarios | Pages/bill_simulation.py:339-359 | the loop's result equals the specified changes, then efficiency, then the floor of 100 |
| BillSimulation.ApplyErrorSticks | Pages/bill_simulation.py:344-352 | once a change raises, the whole walk raises the same error |
| BillSimulation.ChangesCompose | Pages/bill_simulation.py:344-352 | changes apply in list order: the walk over xs + ys continues from the walk over xs |
| BillSimulation.FutureChangesIgnored | Pages/bill_simulation.py:345 | changes whose start date is after the month have no effect |
| BillSimulation.AddRemoveReplace | Pages/bill_simulation.py:346-352 | add then remove of the same amount restores the usage; replace is remove old then add new |
| BillSimulation.EfficiencyAfterChanges | Pages/bill_simulation.py:354-359 | the factor (1 - gain) scales the usage after the changes; no gain or a zero gain leaves only the floor |
| BillSimulation.RateAfter | Pages/bill_simulation.py:295-299 | the tariff loop fails only with `KeyError` |
| BillSimulation.LastTariffChangeWins | Pages/bill_simulation.py:295-299 | 0.15 with no change in effect; otherwise the last change in effect sets the rate |
| BillSimulation.MissingRateFails | Pages/bill_simulation.py:296-299 | the tariff loop fails iff some change in effect lacks `new_rate` |
| BillSimulation.SelectRate | Pages/bill_simulation.py:295-299 | the loop's rate equals the specified last-wins rate |
| BillSimulation.SeasonOf | Pages/bill_simulation.py:361-370 | 12/1/2 winter, 3-5 spring, 6-8 summer, every other month fall |
| BillSimulation.TemperatureOf | Pages/bill_simulation.py:273-279 | 28 in summer, 5 in winter, 18 otherwise |
| BillSimulation.SimulateMonth | Pages/bill_simulation.py:291-310 | fails iff the scenarios or the tariff fail; otherwise the month's label, base usage, the scenario usage (>= 100), the bill as that usage x the selected rate, the season's temperature and the season |
| BillSimulation.DefaultRateBill | Pages/bill_simulation.py:295-301 | without tariff changes the bill is modified usage x 0.15, at least 15 |
| BillSimulation.SimulateBills | Pages/bill_simulation.py:243-315 | untrained: the empty result; trained with no months: `ValueError`; otherwise fails iff some month fails, else one breakdown entry per month, in order, each that month's `SimulateMonth` |
| BillSimulation.BillChangeLine | Pages/bill_simulation.py:376-381 | > 20 significant, (10, 20] moderate, < -10 decrease, each exactly |
| BillSimulation.AppliedLines | Pages/bill_simulation.py:383-387 | the efficiency line iff a positive gain, the appliance line iff a non-empty change list |
| BillSimulation.AppliedLinesInOrder | Pages/bill_simulation.py:383-387 | the efficiency line comes before the appliance line, neither twice |
| BillSimulation.SimulationRecommendations | Pages/bill_simulation.py:372-392 | the bill-change lines by band, and the two fixed lines always last |
| BillSimulation.ScenarioLines | Pages/bill_simulation.py:383-387 | the recommendations hold the efficiency and appliance lines exactly under their conditions |
| BillSimulation.OneBillChangeLine | Pages/bill_simulation.py:376-381 | at most one bill-change line is given |
| BillSimulation.FootprintFactor | Pages/bill_simulation.py:404-414 | the country "default" raises `TypeError`; otherwise the factor lies in [0.15, 0.60]; the "default" region is 0.42 in the US and 0.35 in the EU, as is an unknown region there; 0.42 for an unknown country |
| BillSimulation.AgreesWithCarbonTracker | Pages/bill_simulation.py:28-48 | for a named region the factor equals the carbon tracker's grid mix; for an unknown EU region this lookup gives 0.35 where the tracker gives 0.42 |
| BillSimulation.CarbonFootprint | Pages/bill_simulation.py:394-431 | fails iff the lookup fails; otherwise the location's factor, with the default location for a missing or empty one |
| BillSimulation.FootprintProportions | Pages/bill_simulation.py:417-429 | CO2 is usage x factor; trees x 22, credits x 1000 and flight hours x 90 give the CO2; car miles are CO2 x 2.3 |
| BillSimulation.NoLocationFootprint | Pages/bill_simulation.py:398-399 | without a location the factor is 0.42 |
| DataService.CacheKey | server/data_service.py:39 | "dashboard_" followed by the user id, or "global" for a missing or empty one |
| DataService.CacheKeysSeparateUsers | server/data_service.py:39 | distinct non-empty users never share a key; the user "global" shares the anonymous key |
| DataService.DashboardStep | server/data_service.py:37-65 | a valid entry is returned with no change; otherwise a fresh dashboard is stored with expiry now + 300, and an error is returned with nothing stored |
| DataService.DataAggregationService.SetCache | server/data_service.py:32-35 | the data and expiry now + 300 are stored for that key only |
| DataService.DataAggregationService.GetUnifiedDashboardData | server/data_service.py:37-65 | the result and both new dictionaries are those of `DashboardStep` on the old ones |
| DataService.SetCacheValidity | server/data_service.py:26-35 | a key set at `t` is valid exactly before `t + 300`; other keys' validity is unchanged |
| DataService.ServedFromCacheForFiveMinutes | server/data_service.py:37-58 | a dashboard built at `t` is returned to every call until `t + 300`, whatever the subsystems report |
| DataService.ErrorsNotCached | server/data_service.py:60-65 | after an aggregation error the next call aggregates again |
| DataService.AnalyticsRangeDays | server/data_service.py:229-238 | 7d, 90d and 1y give 7, 90 and 365 days; anything else 30 |
| DataService.AnalyticsWindow | server/data_service.py:228-238 | the window ends now and spans the range's days |
| DataService.AnalyticsWindowLengths | server/data_service.py:229-238 | a window is 7, 30, 90 or 365 days long; an unknown range equals "30d" |
| DataService.ExportedSections | server/data_service.py:284-297 | a section is exported iff it is one of the four and requested |
| DataService.ExportUserData | server/data_service.py:276-308 | the default is all four types; file name, URL and 24-hour expiry; the payload exactly for "json", holding the requested sections |
| DataService.DefaultExportHoldsEverything | server/data_service.py:279-308 | a default JSON export holds all four sections in order; the URL ends with "." and the format |

## Left out

- ApplianceHealth.ApplianceHealthPredictor.PredictFailureProbability: the
  time-to-failure band is chosen on exact reals, so it does not reproduce
  float sums that land beside a band edge. With only the 0.6-lifespan age
  step, 0.1 + 0.2 is above 0.3 in floats and gives "3-6 months" where the
  model gives "6+ months". With three recent anomalies and nothing else,
  0.1 + 0.2 * 3 is 0.7000000000000001 in floats and gives "1-2 weeks"
  where the model gives "1-2 months".
- TariffEngine.ResolveTable: JSON `null` values are not representable. A
  `null` `slabs`, `upto`, `rate` or `flat_rate` makes the code raise
  `TypeError` (in the loop over the rows, or in `float()`); the model
  has only a present number or an absent key. A category object whose only
  keys are ones the engine does not read is modelled (`otherKeys`) and is
  accepted, as in the code.
- BillSimulation.ApplyChange: `start_date` and `type` are fields every
  appliance change has; a change dictionary without one, which raises
  `KeyError` in the code, is not representable.
- BillSimulation.RateAfter: `start_date` is a field every tariff change has;
  a change dictionary without it, which raises `KeyError` in the code, is
  not representable (a missing `new_rate` is modelled).
- Rounding (`round(x, n)`) is left out everywhere. Float representation is
  replaced by exact reals. The exception is the integer `round()` of the
  payback period, modelled as round-half-even.
- Letter case is mapped for ASCII only; Python maps all of Unicode.
  `str.isdigit` is likewise ASCII digits only.
- Clock reads and the calendar are parameters: `now`, the month, appliance
  age, the "YYYY-MM" label of each simulated month, and the export timestamp.
- Loading `tariffs.json` is an abstract table map, and load failures are not
  modelled. `RedisCache` and its JSON serialisation are not modelled. The
  engine's class is `Engine` inside the module `TariffEngine`.
- Multiplier maps are ordered lists of (key, factor) pairs, so that "first
  key" and "first match" keep the dictionary order.
- Machine learning and dataframes are not modelled:
  - anomaly detection, trends and the regression model (inputs here);
  - `train_*`, `save_model`/`load_model`;
  - the consumption DataFrame;
  - `_calculate_emission_trends`.
- `_get_recommendations` of the appliance predictor is not modelled. It
  compares sensor values that may be None.
- Network services and random data are not modelled:
  - IP geolocation, reverse geocoding and weather calls;
  - sample-data and weather generators.
- `smart_analysis` and `_calculate_savings_potential` are not modelled; the
  savings potential is an input to the payback period and the action items.
- CarbonTracker.GetCarbonSummary: does not model the offset requirements, the
  emission trends or the echoed date range.
- Carbon offset equivalents and `suggest_offset_strategy`, `get_progress_report`
  and `export_data` are not modelled. The progress message bands are.
- BillSimulation.SimulateBills: does not model the summary statistics
  (totals, average and change against the historical mean). They depend on
  the regression model and the dataframe mean. The recommendations take the
  bill change as a parameter. With no months ahead the scaler receives an
  empty feature list and raises; this is modelled as `ValueError` without
  telling that error apart from the later division by `months_ahead`. A
  negative `months_ahead` is the same empty month list.
- DataService.ExportUserData: does not model the content of each section.
  The subsystem summaries are placeholders of fixed values.
- `get_user_analytics` is modelled only for its date window; its figures are
  fixed placeholder values.
- DataService.GetUnifiedDashboardData: the dashboard sections are a
  parameter, and an exception raised while building them is an `Err`.
- The web routers, the startup scripts and the solar calculator are not part
  of this model.

=== FILE: appliance_health.dfy ===
/** The rule-based part of Pages/appliance_health_prediction.py: appliance
    registration, sensor readings, the penalty-based health score, severity
    bands, failure probability and the status report. The Isolation Forest
    anomaly score, the trend slopes and the appliance's age are inputs. */
module ApplianceHealth {
  import opened Wrappers

  /** The per-appliance anomaly thresholds. */
  datatype Thresholds = Thresholds(
    energyAnomaly: real, powerFactor: real, vibration: real, temperature: real, noise: real)

  /** The metadata record `add_appliance` stores. */
  datatype ApplianceMeta = ApplianceMeta(
    brand: string, model: string, powerRating: real, category: string,
    installationDate: string, lastMaintenance: Option<string>,
    expectedLifespan: int, healthScore: real)

  /** A sensor reading; `None` is a sensor that reported nothing. */
  datatype Reading = Reading(
    applianceId: string, timestamp: string, energyUsage: real, powerFactor: real,
    temperature: Option<real>, vibration: Option<real>, noiseLevel: Option<real>,
    normalizedEnergy: real)

  /** A recent reading as `predict_failure_probability` uses it: only the
      `is_anomaly` flag (absent reads as false); the energy and health series
      enter through their trends. */
  datatype RecentReading = RecentReading(isAnomaly: bool)

  datatype FailurePrediction = FailurePrediction(
    failureProbability: real, timeToFailure: string,
    ageYears: Option<real>, energyTrend: Option<real>, healthTrend: Option<real>)

  datatype Severity = Good | Fair | Poor | Critical | Emergency

  /** The status report of `get_appliance_status`. */
  datatype ApplianceStatus = ApplianceStatus(
    applianceId: string, meta: ApplianceMeta, status: string)

  /** Expected lifespan in years per category. */
  const Lifespans: map<string, int> := map[
    "refrigerator" := 15, "washing_machine" := 12, "dishwasher" := 10,
    "microwave" := 8, "oven" := 15, "air_conditioner" := 12,
    "water_heater" := 10, "dryer" := 12, "freezer" := 18, "other" := 10]

  /** `_get_expected_lifespan`: the table entry, 10 years for an unknown category. */
  function ExpectedLifespan(category: string): (years: int)
    ensures category in Lifespans ==> years == Lifespans[category]
    ensures category !in Lifespans ==> years == 10
    ensures 8 <= years <= 18
  {
    if category in Lifespans then Lifespans[category] else 10
  }

  /** `_get_health_thresholds`: the base values with one adjustment for each
      of three categories. */
  function HealthThresholds(category: string): (t: Thresholds)
    ensures t.powerFactor == 0.85 && t.noise == 0.25
    ensures t.temperature == if category == "refrigerator" then 0.1 else 0.2
    ensures t.vibration == if category == "washing_machine" then 0.15 else 0.1
    ensures t.energyAnomaly == if category == "air_conditioner" then 0.2 else 0.15
  {
    var base := Thresholds(0.15, 0.85, 0.1, 0.2, 0.25);
    if category == "refrigerator" then base.(temperature := 0.1)
    else if category == "washing_machine" then base.(vibration := 0.15)
    else if category == "air_conditioner" then base.(energyAnomaly := 0.2)
    else base
  }

  // ---------- Health score penalties ----------

  function EnergyPenalty(energyUsage: real, expectedEnergy: real, t: Thresholds): real
    requires expectedEnergy != 0.0
  {
    if AbsReal(energyUsage - expectedEnergy) / expectedEnergy > t.energyAnomaly then 20.0 else 0.0
  }

  function PowerFactorPenalty(powerFactor: real, t: Thresholds): real {
    if powerFactor < t.powerFactor then 15.0 else 0.0
  }

  function TemperaturePenalty(temperature: Option<real>, t: Thresholds): real {
    if temperature.Some? && AbsReal(temperature.value - 25.0) / 25.0 > t.temperature then 10.0 else 0.0
  }

  function VibrationPenalty(vibration: Option<real>, t: Thresholds): real {
    if vibration.Some? && vibration.value > t.vibration then 15.0 else 0.0
  }

  function NoisePenalty(noiseLevel: Option<real>, t: Thresholds): real {
    if noiseLevel.Some? && noiseLevel.value > t.noise then 10.0 else 0.0
  }

  function AnomalyPenalty(anomalyScore: real): real {
    if anomalyScore < -0.5 then 25.0 else if anomalyScore < -0.2 then 15.0 else 0.0
  }

  /** Every penalty that applies, each counted once. */
  function TotalPenalty(reading: Reading, expectedEnergy: real, t: Thresholds, anomalyScore: real): real
    requires expectedEnergy != 0.0
  {
    EnergyPenalty(reading.energyUsage, expectedEnergy, t) + PowerFactorPenalty(reading.powerFactor, t)
    + TemperaturePenalty(reading.temperature, t) + VibrationPenalty(reading.vibration, t)
    + NoisePenalty(reading.noiseLevel, t) + AnomalyPenalty(anomalyScore)
  }

  /** The penalties add up to at most 95, so the score never reaches the
      `max(0, ...)` floor. */
  lemma PenaltyBounds(reading: Reading, expectedEnergy: real, t: Thresholds, anomalyScore: real)
    requires expectedEnergy != 0.0
    ensures 0.0 <= TotalPenalty(reading, expectedEnergy, t, anomalyScore) <= 95.0
  {
  }

  /** The largest possible penalty is reached: a reading failing every check
      with an anomaly score below -0.5 scores 5. */
  lemma WorstReadingScoresFive(t: Thresholds)
    requires t == HealthThresholds("other")
    ensures TotalPenalty(Reading("a", "t", 10.0, 0.5, Some(60.0), Some(1.0), Some(1.0), 0.0), 1.0, t, -1.0) == 95.0
  {
  }

  // ---------- Severity ----------

  /** `_get_severity_level` */
  function SeverityLevel(healthScore: real): (s: Severity)
    ensures s == Good <==> healthScore >= 80.0
    ensures s == Fair <==> 60.0 <= healthScore < 80.0
    ensures s == Poor <==> 40.0 <= healthScore < 60.0
    ensures s == Critical <==> 20.0 <= healthScore < 40.0
    ensures s == Emergency <==> healthScore < 20.0
  {
    if healthScore >= 80.0 then Good
    else if healthScore >= 60.0 then Fair
    else if healthScore >= 40.0 then Poor
    else if healthScore >= 20.0 then Critical
    else Emergency
  }

  /** 0 for Good up to 4 for Emergency. */
  function SeverityRank(s: Severity): nat {
    match s
    case Good => 0
    case Fair => 1
    case Poor => 2
    case Critical => 3
    case Emergency => 4
  }

  /** A healthier score is never more severe. */
  lemma SeverityMonotone(a: real, b: real)
    requires a <= b
    ensures SeverityRank(SeverityLevel(b)) <= SeverityRank(SeverityLevel(a))
  {
  }

  // ---------- Failure probability ----------

  /** `sum(1 for r in recent_readings if r.get('is_anomaly', False))`. */
  function CountAnomalies(readings: seq<RecentReading>): (n: nat)
    ensures n <= |readings|
    decreases |readings|
  {
    if |readings| == 0 then 0
    else CountAnomalies(readings[..|readings| - 1]) + (if readings[|readings| - 1].isAnomaly then 1 else 0)
  }

  /** The count is zero exactly when no reading is flagged, and the number of
      readings exactly when every one is. */
  lemma {:induction false} AnomalyCountExtremes(readings: seq<RecentReading>)
    ensures CountAnomalies(readings) == 0 <==> forall i :: 0 <= i < |readings| ==> !readings[i].isAnomaly
    ensures CountAnomalies(readings) == |readings| <==> forall i :: 0 <= i < |readings| ==> readings[i].isAnomaly
    decreases |readings|
  {
    if |readings| > 0 {
      var init := readings[..|readings| - 1];
      AnomalyCountExtremes(init);
      assert forall i :: 0 <= i < |init| ==> init[i] == readings[i];
    }
  }

  function AgeIncrement(ageYears: real, expectedLifespan: int): real {
    if ageYears > expectedLifespan as real * 0.8 then 0.3
    else if ageYears > expectedLifespan as real * 0.6 then 0.2
    else 0.0
  }

  /** The probability before the 0.95 cap: 0.1 plus the age, trend and
      anomaly contributions, the last at most three times 0.2. */
  function UncappedProbability(ageYears: real, expectedLifespan: int, energyTrend: real,
                               healthTrend: real, anomalies: nat): real {
    0.1 + AgeIncrement(ageYears, expectedLifespan)
    + (if energyTrend > 0.1 then 0.2 else 0.0)
    + (if healthTrend < -0.1 then 0.3 else 0.0)
    + (if anomalies > 0 then 0.2 * (if anomalies < 3 then anomalies else 3) as real else 0.0)
  }

  /** The bands on the uncapped probability. */
  function TimeToFailure(probability: real): string {
    if probability > 0.7 then "1-2 weeks"
    else if probability > 0.5 then "1-2 months"
    else if probability > 0.3 then "3-6 months"
    else "6+ months"
  }

  /** The uncapped probability lies in [0.1, 1.5], and anomalies beyond the
      third add nothing. */
  lemma UncappedBounds(ageYears: real, expectedLifespan: int, energyTrend: real, healthTrend: real, anomalies: nat)
    ensures 0.1 <= UncappedProbability(ageYears, expectedLifespan, energyTrend, healthTrend, anomalies) <= 1.5
    ensures anomalies >= 3 ==>
              UncappedProbability(ageYears, expectedLifespan, energyTrend, healthTrend, anomalies)
              == UncappedProbability(ageYears, expectedLifespan, energyTrend, healthTrend, 3)
  {
  }

  /** The nearest band, "1-2 weeks", is chosen exactly above 0.7, and the
      furthest, "6+ months", exactly at or below 0.3. */
  lemma TimeToFailureBands(p: real)
    ensures p > 0.7 <==> TimeToFailure(p) == "1-2 weeks"
    ensures TimeToFailure(p) == "6+ months" <==> p <= 0.3
  {
  }

  class ApplianceHealthPredictor {
    /** `appliance_metadata`: appliance id -> metadata. */
    var metadata: map<string, ApplianceMeta>
    /** `health_thresholds`: appliance id -> thresholds. */
    var thresholds: map<string, Thresholds>

    /** Every registered appliance has its thresholds and the lifespan of its
        category, and a health score of 100 (nothing in the class lowers it). */
    predicate Valid()
      reads this
    {
      metadata.Keys == thresholds.Keys
      && forall id :: id in metadata ==>
           thresholds[id] == HealthThresholds(metadata[id].category)
           && metadata[id].expectedLifespan == ExpectedLifespan(metadata[id].category)
           && metadata[id].healthScore == 100.0
    }

    constructor ()
      ensures metadata == map[] && thresholds == map[]
      ensures Valid()
    {
      metadata := map[];
      thresholds := map[];
    }

    /** `add_appliance`: (re)registers the appliance with health 100, no
        maintenance date, its category's lifespan and its category's thresholds. */
    method AddAppliance(id: string, brand: string, model: string, powerRating: real,
                        category: string, installationDate: string)
      modifies this
      ensures metadata == old(metadata)[id := ApplianceMeta(brand, model, powerRating, category, installationDate,
                                                            None, ExpectedLifespan(category), 100.0)]
      ensures thresholds == old(thresholds)[id := HealthThresholds(category)]
      ensures old(Valid()) ==> Valid()
    {
      metadata := metadata[id := ApplianceMeta(brand, model, powerRating, category, installationDate,
                                               None, ExpectedLifespan(category), 100.0)];
      thresholds := thresholds[id := HealthThresholds(category)];
    }

    /** `record_reading`: an unknown id raises `ValueError`, a zero power
        rating `ZeroDivisionError`; otherwise the reading with its energy
        normalised by the power rating. Nothing is stored. */
    function RecordReading(id: string, timestamp: string, energyUsage: real, powerFactor: real,
                           temperature: Option<real>, vibration: Option<real>, noiseLevel: Option<real>)
      : (r: Result<Reading>)
      reads this
      ensures id !in metadata ==> r == Err(ValueError)
      ensures id in metadata && metadata[id].powerRating == 0.0 ==> r == Err(ZeroDivisionError)
      ensures r.Ok? ==> id in metadata
                        && r.value.normalizedEnergy * metadata[id].powerRating == energyUsage
                        && r.value == Reading(id, timestamp, energyUsage, powerFactor, temperature,
                                              vibration, noiseLevel, r.value.normalizedEnergy)
    {
      if id !in metadata then Err(ValueError)
      else if metadata[id].powerRating == 0.0 then Err(ZeroDivisionError)
      else Ok(Reading(id, timestamp, energyUsage, powerFactor, temperature, vibration, noiseLevel,
                      energyUsage / metadata[id].powerRating))
    }

    /** `_calculate_health_score`: 100 minus each applicable penalty; the
        thresholds and the metadata are looked up by id (`KeyError` when
        absent) and a zero power rating divides by zero. */
    method CalculateHealthScore(reading: Reading, id: string, anomalyScore: real) returns (r: Result<real>)
      ensures id !in thresholds ==> r == Err(KeyError)
      ensures id in thresholds && id !in metadata ==> r == Err(KeyError)
      ensures id in thresholds && id in metadata && metadata[id].powerRating == 0.0 ==> r == Err(ZeroDivisionError)
      ensures r.Ok? ==> id in thresholds && id in metadata && metadata[id].powerRating != 0.0
                        && r.value == 100.0 - TotalPenalty(reading, metadata[id].powerRating / 1000.0,
                                                           thresholds[id], anomalyScore)
      ensures r.Ok? ==> 5.0 <= r.value <= 100.0
    {
      var baseScore := 100.0;
      if id !in thresholds {
        return Err(KeyError);
      }
      var t := thresholds[id];
      if id !in metadata {
        return Err(KeyError);
      }
      var expectedEnergy := metadata[id].powerRating / 1000.0;
      if expectedEnergy == 0.0 {
        return Err(ZeroDivisionError);
      }
      var energyDeviation := AbsReal(reading.energyUsage - expectedEnergy) / expectedEnergy;
      if energyDeviation > t.energyAnomaly {
        baseScore := baseScore - 20.0;
      }
      if reading.powerFactor < t.powerFactor {
        baseScore := baseScore - 15.0;
      }
      if reading.temperature.Some? {
        var tempDeviation := AbsReal(reading.temperature.value - 25.0) / 25.0;
        if tempDeviation > t.temperature {
          baseScore := baseScore - 10.0;
        }
      }
      if reading.vibration.Some? && reading.vibration.value > t.vibration {
        baseScore := baseScore - 15.0;
      }
      if reading.noiseLevel.Some? && reading.noiseLevel.value > t.noise {
        baseScore := baseScore - 10.0;
      }
      if anomalyScore < -0.5 {
        baseScore := baseScore - 25.0;
      } else if anomalyScore < -0.2 {
        baseScore := baseScore - 15.0;
      }
      PenaltyBounds(reading, expectedEnergy, t, anomalyScore);
      return Ok(MaxReal(0.0, baseScore));
    }

    /** `predict_failure_probability` with the age and the two trends as
        inputs: an unknown id raises; no readings give 0.0 and "Unknown";
        otherwise the capped probability, and the band chosen from the
        uncapped one. */
    method PredictFailureProbability(id: string, readings: seq<RecentReading>, ageYears: real,
                                     energyTrend: real, healthTrend: real)
      returns (r: Result<FailurePrediction>)
      ensures id !in metadata ==> r == Err(ValueError)
      ensures id in metadata && |readings| == 0 ==> r == Ok(FailurePrediction(0.0, "Unknown", None, None, None))
      ensures id in metadata && |readings| > 0 ==>
                var p := UncappedProbability(ageYears, metadata[id].expectedLifespan, energyTrend, healthTrend,
                                             CountAnomalies(readings));
                r == Ok(FailurePrediction(MinReal(p, 0.95), TimeToFailure(p), Some(ageYears),
                                          Some(energyTrend), Some(healthTrend)))
      ensures id in metadata && |readings| > 0 ==> r.Ok? && 0.1 <= r.value.failureProbability <= 0.95
    {
      if id !in metadata {
        return Err(ValueError);
      }
      if |readings| == 0 {
        return Ok(FailurePrediction(0.0, "Unknown", None, None, None));
      }
      var baseProbability := 0.1;
      var expectedLifespan := metadata[id].expectedLifespan;
      if ageYears > expectedLifespan as real * 0.8 {
        baseProbability := baseProbability + 0.3;
      } else if ageYears > expectedLifespan as real * 0.6 {
        baseProbability := baseProbability + 0.2;
      }
      if energyTrend > 0.1 {
        baseProbability := baseProbability + 0.2;
      }
      if healthTrend < -0.1 {
        baseProbability := baseProbability + 0.3;
      }
      var recentAnomalies := 0;
      var i := 0;
      while i < |readings|
        invariant 0 <= i <= |readings|
        invariant recentAnomalies == CountAnomalies(readings[..i])
      {
        assert readings[..i + 1][..i] == readings[..i];
        if readings[i].isAnomaly {
          recentAnomalies := recentAnomalies + 1;
        }
        i := i + 1;
      }
      assert readings[..|readings|] == readings;
      if recentAnomalies > 0 {
        baseProbability := baseProbability + 0.2 * (if recentAnomalies < 3 then recentAnomalies else 3) as real;
      }
      var timeToFailure := TimeToFailure(baseProbability);
      UncappedBounds(ageYears, expectedLifespan, energyTrend, healthTrend, recentAnomalies);
      return Ok(FailurePrediction(MinReal(baseProbability, 0.95), timeToFailure, Some(ageYears),
                                  Some(energyTrend), Some(healthTrend)));
    }

    /** `get_appliance_status`: an unknown id raises; the status is 'Active'
        exactly when the health score exceeds 50. */
    function GetApplianceStatus(id: string): (r: Result<ApplianceStatus>)
      reads this
      ensures id !in metadata <==> r == Err(ValueError)
      ensures r.Ok? ==> r.value.meta == metadata[id] && r.value.applianceId == id
      ensures r.Ok? ==> (r.value.status == "Active" <==> metadata[id].healthScore > 50.0)
    {
      if id !in metadata then Err(ValueError)
      else
        var meta := metadata[id];
        Ok(ApplianceStatus(id, meta, if meta.healthScore > 50.0 then "Active" else "Maintenance Required"))
    }
  }

  /** Nothing in the predictor lowers a stored health score, so every
      registered appliance reports 'Active'. */
  lemma RegisteredAppliancesActive(p: ApplianceHealthPredictor, id: string)
    requires p.Valid() && id in p.metadata
    ensures p.GetApplianceStatus(id).Ok? && p.GetApplianceStatus(id).value.status == "Active"
  {
  }
}

=== FILE: bill_simulation.dfy ===
/** The scenario arithmetic of Pages/bill_simulation.py: appliance changes and
    efficiency gains applied to a predicted monthly usage, the tariff that
    applies in a month, the per-month breakdown of `simulate_bills`, the
    carbon-footprint lookup and the simulation recommendations. The trained
    regression model and the calendar are outside the model: each simulated
    month arrives with its "YYYY-MM" label, its month number and the usage the
    model predicted for it. Fixed messages are represented by tags. */
module BillSimulation {
  import opened Wrappers
  import opened Text
  import CarbonTracker

  // ---------- Scenarios ----------

  /** An entry of `appliance_changes`; an absent amount key is `None`. */
  datatype ApplianceChange = ApplianceChange(
    startDate: string,
    kind: string,
    usageKwh: Option<real>,
    oldUsage: Option<real>,
    newUsage: Option<real>)

  /** An entry of `tariff_changes`; an absent `new_rate` is `None`. */
  datatype TariffChange = TariffChange(startDate: string, newRate: Option<real>)

  /** The scenario dictionary; an absent key is `None`. */
  datatype Scenarios = Scenarios(
    applianceChanges: Option<seq<ApplianceChange>>,
    tariffChanges: Option<seq<TariffChange>>,
    efficiencyImprovements: Option<real>)

  /** The scenarios used when none (or an empty dictionary) is given. */
  const DefaultScenarios := Scenarios(Some([]), Some([]), Some(0.0))

  /** `if not scenarios: scenarios = {...}` */
  function EffectiveScenarios(scenarios: Option<Scenarios>): (s: Scenarios)
    ensures scenarios.Some? && scenarios.value != Scenarios(None, None, None) ==> s == scenarios.value
    ensures scenarios.None? || scenarios.value == Scenarios(None, None, None) ==> s == DefaultScenarios
    ensures s.applianceChanges.Some? || s.tariffChanges.Some? || s.efficiencyImprovements.Some?
  {
    if scenarios.None? || scenarios.value == Scenarios(None, None, None) then DefaultScenarios
    else scenarios.value
  }

  /** A change takes effect in month `yearMonth` when its start date is not
      after it, comparing the strings. */
  predicate InEffect(startDate: string, yearMonth: string) {
    LexLe(startDate, yearMonth)
  }

  /** One appliance change applied to `usage`: add adds `usage_kwh`, remove
      subtracts it, replace subtracts `old_usage` and adds `new_usage`; any
      other type, or a change not yet in effect, leaves the usage alone. A
      missing amount key raises `KeyError`. */
  function ApplyChange(usage: real, change: ApplianceChange, yearMonth: string): (r: Result<real>)
    ensures !InEffect(change.startDate, yearMonth) ==> r == Ok(usage)
    ensures r.Err? ==> r.error == KeyError
    ensures InEffect(change.startDate, yearMonth) && change.kind == "add" ==>
              r == if change.usageKwh.None? then Err(KeyError) else Ok(usage + change.usageKwh.value)
    ensures InEffect(change.startDate, yearMonth) && change.kind == "remove" ==>
              r == if change.usageKwh.None? then Err(KeyError) else Ok(usage - change.usageKwh.value)
    ensures InEffect(change.startDate, yearMonth) && change.kind == "replace" ==>
              r == if change.oldUsage.None? || change.newUsage.None? then Err(KeyError)
                   else Ok(usage - change.oldUsage.value + change.newUsage.value)
    ensures change.kind !in {"add", "remove", "replace"} ==> r == Ok(usage)
  {
    if !InEffect(change.startDate, yearMonth) then Ok(usage)
    else if change.kind == "add" then
      if change.usageKwh.None? then Err(KeyError) else Ok(usage + change.usageKwh.value)
    else if change.kind == "remove" then
      if change.usageKwh.None? then Err(KeyError) else Ok(usage - change.usageKwh.value)
    else if change.kind == "replace" then
      if change.oldUsage.None? || change.newUsage.None? then Err(KeyError)
      else Ok(usage - change.oldUsage.value + change.newUsage.value)
    else Ok(usage)
  }

  /** The changes applied in list order; the first failing one stops the walk. */
  function ApplyChanges(usage: real, changes: seq<ApplianceChange>, yearMonth: string): Result<real>
    decreases |changes|
  {
    if |changes| == 0 then Ok(usage)
    else match ApplyChanges(usage, changes[..|changes| - 1], yearMonth)
      case Err(e) => Err(e)
      case Ok(v) => ApplyChange(v, changes[|changes| - 1], yearMonth)
  }

  /** The efficiency factor: `usage * (1 - gain)`. */
  function Scale(usage: real, gain: real): real {
    usage * (1.0 - gain)
  }

  /** `_apply_scenarios` as a specification: the appliance changes, then the
      efficiency factor (1 - gain), then the floor of 100 kWh. */
  function ScenarioUsage(baseUsage: real, scenarios: Scenarios, yearMonth: string): (r: Result<real>)
    ensures r.Ok? ==> r.value >= 100.0
  {
    var changes := if scenarios.applianceChanges.None? then [] else scenarios.applianceChanges.value;
    match ApplyChanges(baseUsage, changes, yearMonth)
    case Err(e) => Err(e)
    case Ok(v) =>
      var scaled := if scenarios.efficiencyImprovements.None? then v
                    else Scale(v, scenarios.efficiencyImprovements.value);
      Ok(MaxReal(scaled, 100.0))
  }

  /** `_apply_scenarios`: walks the appliance changes, updating the usage. */
  method ApplyScenarios(baseUsage: real, scenarios: Scenarios, yearMonth: string) returns (r: Result<real>)
    ensures r == ScenarioUsage(baseUsage, scenarios, yearMonth)
  {
    var modifiedUsage := baseUsage;
    var changes := if scenarios.applianceChanges.None? then [] else scenarios.applianceChanges.value;
    var i := 0;
    while i < |changes|
      invariant 0 <= i <= |changes|
      invariant ApplyChanges(baseUsage, changes[..i], yearMonth) == Ok(modifiedUsage)
    {
      var change := changes[i];
      assert changes[..i + 1][..i] == changes[..i];
      assert changes[..i + 1] + changes[i + 1..] == changes;
      if InEffect(change.startDate, yearMonth) {
        if change.kind == "add" {
          if change.usageKwh.None? {
            ApplyErrorSticks(baseUsage, changes[..i + 1], changes[i + 1..], yearMonth);
            return Err(KeyError);
          }
          modifiedUsage := modifiedUsage + change.usageKwh.value;
        } else if change.kind == "remove" {
          if change.usageKwh.None? {
            ApplyErrorSticks(baseUsage, changes[..i + 1], changes[i + 1..], yearMonth);
            return Err(KeyError);
          }
          modifiedUsage := modifiedUsage - change.usageKwh.value;
        } else if change.kind == "replace" {
          if change.oldUsage.None? || change.newUsage.None? {
            ApplyErrorSticks(baseUsage, changes[..i + 1], changes[i + 1..], yearMonth);
            return Err(KeyError);
          }
          modifiedUsage := modifiedUsage - change.oldUsage.value + change.newUsage.value;
        }
      }
      i := i + 1;
    }
    assert changes[..|changes|] == changes;
    if scenarios.efficiencyImprovements.Some? {
      modifiedUsage := Scale(modifiedUsage, scenarios.efficiencyImprovements.value);
    }
    assert ScenarioUsage(baseUsage, scenarios, yearMonth).Ok?;
    assert ScenarioUsage(baseUsage, scenarios, yearMonth).value == MaxReal(modifiedUsage, 100.0);
    return Ok(MaxReal(modifiedUsage, 100.0));
  }

  /** A failed prefix fails the whole walk with the same error. */
  lemma {:induction false} ApplyErrorSticks(usage: real, xs: seq<ApplianceChange>, ys: seq<ApplianceChange>, yearMonth: string)
    requires ApplyChanges(usage, xs, yearMonth).Err?
    ensures ApplyChanges(usage, xs + ys, yearMonth) == ApplyChanges(usage, xs, yearMonth)
    decreases |ys|
  {
    if |ys| == 0 {
      assert xs + ys == xs;
    } else {
      ApplyErrorSticks(usage, xs, ys[..|ys| - 1], yearMonth);
      assert (xs + ys)[..|xs + ys| - 1] == xs + ys[..|ys| - 1];
    }
  }

  /** Changes apply in list order: the walk over `xs + ys` is the walk over
      `ys` started from where the walk over `xs` ended. */
  lemma {:induction false} ChangesCompose(usage: real, xs: seq<ApplianceChange>, ys: seq<ApplianceChange>, yearMonth: string)
    requires ApplyChanges(usage, xs, yearMonth).Ok?
    ensures ApplyChanges(usage, xs + ys, yearMonth)
            == ApplyChanges(ApplyChanges(usage, xs, yearMonth).value, ys, yearMonth)
    decreases |ys|
  {
    if |ys| == 0 {
      assert xs + ys == xs;
    } else {
      ChangesCompose(usage, xs, ys[..|ys| - 1], yearMonth);
      assert (xs + ys)[..|xs + ys| - 1] == xs + ys[..|ys| - 1];
    }
  }

  /** Changes whose start date lies after the month have no effect. */
  lemma {:induction false} FutureChangesIgnored(usage: real, changes: seq<ApplianceChange>, yearMonth: string)
    requires forall k :: 0 <= k < |changes| ==> !InEffect(changes[k].startDate, yearMonth)
    ensures ApplyChanges(usage, changes, yearMonth) == Ok(usage)
    decreases |changes|
  {
    if |changes| > 0 {
      FutureChangesIgnored(usage, changes[..|changes| - 1], yearMonth);
    }
  }

  /** Adding an appliance and removing it again restores the usage, and a
      replacement is a removal of the old usage followed by an addition of
      the new one. */
  lemma AddRemoveReplace(usage: real, start: string, yearMonth: string, amount: real, oldUsage: real, newUsage: real)
    requires InEffect(start, yearMonth)
    ensures ApplyChanges(usage, [ApplianceChange(start, "add", Some(amount), None, None),
                                 ApplianceChange(start, "remove", Some(amount), None, None)], yearMonth)
            == Ok(usage)
    ensures ApplyChanges(usage, [ApplianceChange(start, "replace", None, Some(oldUsage), Some(newUsage))], yearMonth)
            == ApplyChanges(usage, [ApplianceChange(start, "remove", Some(oldUsage), None, None),
                                    ApplianceChange(start, "add", Some(newUsage), None, None)], yearMonth)
  {
    var add := ApplianceChange(start, "add", Some(amount), None, None);
    var remove := ApplianceChange(start, "remove", Some(amount), None, None);
    assert [add, remove][..1] == [add];
    assert [add][..0] == [];
    assert ApplyChanges(usage, [add], yearMonth) == Ok(usage + amount);
    var rep := ApplianceChange(start, "replace", None, Some(oldUsage), Some(newUsage));
    var removeOld := ApplianceChange(start, "remove", Some(oldUsage), None, None);
    var addNew := ApplianceChange(start, "add", Some(newUsage), None, None);
    assert [rep][..0] == [];
    assert [removeOld, addNew][..1] == [removeOld];
    assert [removeOld][..0] == [];
  }

  /** The efficiency factor applies to the usage after the appliance changes,
      so a gain of g scales the changes too; without a gain (or with a zero
      gain) only the floor of 100 kWh remains. */
  lemma EfficiencyAfterChanges(baseUsage: real, changes: seq<ApplianceChange>, gain: Option<real>, yearMonth: string)
    requires ApplyChanges(baseUsage, changes, yearMonth).Ok?
    ensures var v := ApplyChanges(baseUsage, changes, yearMonth).value;
            var r := ScenarioUsage(baseUsage, Scenarios(Some(changes), None, gain), yearMonth);
            r.Ok?
            && (gain.None? || gain == Some(0.0) ==> r.value == MaxReal(v, 100.0))
            && (gain.Some? ==> r.value == MaxReal(v * (1.0 - gain.value), 100.0))
  {
    var v := ApplyChanges(baseUsage, changes, yearMonth).value;
    var r := ScenarioUsage(baseUsage, Scenarios(Some(changes), None, gain), yearMonth);
    assert r.Ok?;
    if gain.Some? {
      assert r.value == MaxReal(Scale(v, gain.value), 100.0);
    }
  }

  // ---------- Tariff and month figures ----------

  /** The rate of the month before any change: 0.15 per kWh. */
  const DefaultRate: real := 0.15

  /** The rate left by the tariff loop of `simulate_bills` after the given
      changes: each change in effect overwrites it; a change in effect
      without `new_rate` raises `KeyError`. */
  function RateAfter(changes: seq<TariffChange>, yearMonth: string): (r: Result<real>)
    ensures r.Err? ==> r.error == KeyError
    decreases |changes|
  {
    if |changes| == 0 then Ok(DefaultRate)
    else match RateAfter(changes[..|changes| - 1], yearMonth)
      case Err(e) => Err(e)
      case Ok(rate) =>
        var c := changes[|changes| - 1];
        if !InEffect(c.startDate, yearMonth) then Ok(rate)
        else if c.newRate.None? then Err(KeyError)
        else Ok(c.newRate.value)
  }

  /** The tariff loop fails exactly when some change in effect lacks
      `new_rate`. */
  lemma {:induction false} MissingRateFails(changes: seq<TariffChange>, yearMonth: string)
    ensures RateAfter(changes, yearMonth).Err? <==>
              exists k :: 0 <= k < |changes| && InEffect(changes[k].startDate, yearMonth) && changes[k].newRate.None?
    decreases |changes|
  {
    if |changes| > 0 {
      var init := changes[..|changes| - 1];
      var last := changes[|changes| - 1];
      MissingRateFails(init, yearMonth);
      assert forall k :: 0 <= k < |init| ==> init[k] == changes[k];
      if RateAfter(init, yearMonth).Ok? && InEffect(last.startDate, yearMonth) && last.newRate.None? {
        assert RateAfter(changes, yearMonth).Err?;
      }
    }
  }

  /** The last change in effect wins: with none in effect the rate is 0.15;
      otherwise it is the `new_rate` of the last change in effect. */
  lemma {:induction false} LastTariffChangeWins(changes: seq<TariffChange>, yearMonth: string)
    ensures (forall k :: 0 <= k < |changes| ==> !InEffect(changes[k].startDate, yearMonth))
              ==> RateAfter(changes, yearMonth) == Ok(DefaultRate)
    ensures forall k :: 0 <= k < |changes| && InEffect(changes[k].startDate, yearMonth)
                        && (forall j :: k < j < |changes| ==> !InEffect(changes[j].startDate, yearMonth))
                        && RateAfter(changes, yearMonth).Ok?
                        ==> changes[k].newRate == Some(RateAfter(changes, yearMonth).value)
    decreases |changes|
  {
    if |changes| > 0 {
      var init := changes[..|changes| - 1];
      var last := changes[|changes| - 1];
      LastTariffChangeWins(init, yearMonth);
      assert forall k :: 0 <= k < |init| ==> init[k] == changes[k];
      forall k | 0 <= k < |changes| && InEffect(changes[k].startDate, yearMonth)
                 && (forall j :: k < j < |changes| ==> !InEffect(changes[j].startDate, yearMonth))
                 && RateAfter(changes, yearMonth).Ok?
        ensures changes[k].newRate == Some(RateAfter(changes, yearMonth).value)
      {
        if k < |changes| - 1 {
          assert !InEffect(last.startDate, yearMonth);
          assert RateAfter(changes, yearMonth) == RateAfter(init, yearMonth);
          assert forall j :: k < j < |init| ==> !InEffect(init[j].startDate, yearMonth);
        }
      }
    }
  }

  /** The tariff loop of `simulate_bills`. */
  method SelectRate(scenarios: Scenarios, yearMonth: string) returns (r: Result<real>)
    ensures r == RateAfter(if scenarios.tariffChanges.None? then [] else scenarios.tariffChanges.value, yearMonth)
  {
    var baseRate := DefaultRate;
    var changes := if scenarios.tariffChanges.None? then [] else scenarios.tariffChanges.value;
    var i := 0;
    while i < |changes|
      invariant 0 <= i <= |changes|
      invariant RateAfter(changes[..i], yearMonth) == Ok(baseRate)
    {
      assert changes[..i + 1][..i] == changes[..i];
      if InEffect(changes[i].startDate, yearMonth) {
        if changes[i].newRate.None? {
          MissingRateFails(changes, yearMonth);
          return Err(KeyError);
        }
        baseRate := changes[i].newRate.value;
      }
      i := i + 1;
    }
    assert changes[..|changes|] == changes;
    return Ok(baseRate);
  }

  datatype Season = Winter | Spring | Summer | Fall

  /** `_get_season` */
  function SeasonOf(month: int): (s: Season)
    ensures s == Winter <==> month == 12 || month == 1 || month == 2
    ensures s == Spring <==> 3 <= month <= 5
    ensures s == Summer <==> 6 <= month <= 8
    ensures s == Fall <==> !(month == 12 || 1 <= month <= 8)
  {
    if month == 12 || month == 1 || month == 2 then Winter
    else if 3 <= month <= 5 then Spring
    else if 6 <= month <= 8 then Summer
    else Fall
  }

  /** The temperature feature of a month: 28 in summer, 5 in winter, else 18. */
  function TemperatureOf(month: int): (t: int)
    ensures SeasonOf(month) == Summer ==> t == 28
    ensures SeasonOf(month) == Winter ==> t == 5
    ensures SeasonOf(month) == Spring || SeasonOf(month) == Fall ==> t == 18
  {
    if month == 6 || month == 7 || month == 8 then 28
    else if month == 12 || month == 1 || month == 2 then 5
    else 18
  }

  /** A simulated month as the regression model hands it over. */
  datatype MonthInput = MonthInput(yearMonth: string, month: int, baseUsage: real)

  /** An entry of `monthly_breakdown`, before rounding. */
  datatype MonthResult = MonthResult(
    date: string,
    baseUsage: real,
    modifiedUsage: real,
    billAmount: real,
    temperature: int,
    season: Season)

  /** One month of `simulate_bills`. */
  function SimulateMonth(m: MonthInput, scenarios: Scenarios): (r: Result<MonthResult>)
    ensures r.Ok? <==>
              ScenarioUsage(m.baseUsage, scenarios, m.yearMonth).Ok?
              && RateAfter(if scenarios.tariffChanges.None? then [] else scenarios.tariffChanges.value, m.yearMonth).Ok?
    ensures r.Ok? ==>
              r.value.date == m.yearMonth && r.value.baseUsage == m.baseUsage
              && r.value.modifiedUsage == ScenarioUsage(m.baseUsage, scenarios, m.yearMonth).value
              && r.value.modifiedUsage >= 100.0
              && r.value.season == SeasonOf(m.month)
    ensures r.Ok? ==>
              r.value.billAmount
                == r.value.modifiedUsage * RateAfter(if scenarios.tariffChanges.None? then [] else scenarios.tariffChanges.value, m.yearMonth).value
              && r.value.temperature == TemperatureOf(m.month)
  {
    match ScenarioUsage(m.baseUsage, scenarios, m.yearMonth)
    case Err(e) => Err(e)
    case Ok(usage) =>
      match RateAfter(if scenarios.tariffChanges.None? then [] else scenarios.tariffChanges.value, m.yearMonth)
      case Err(e) => Err(e)
      case Ok(rate) =>
        Ok(MonthResult(m.yearMonth, m.baseUsage, usage, usage * rate, TemperatureOf(m.month), SeasonOf(m.month)))
  }

  /** Without tariff changes in effect the bill is the modified usage at
      0.15 per kWh, hence at least 15. */
  lemma DefaultRateBill(m: MonthInput, scenarios: Scenarios)
    requires scenarios.tariffChanges.None?
    requires ScenarioUsage(m.baseUsage, scenarios, m.yearMonth).Ok?
    ensures SimulateMonth(m, scenarios).Ok?
    ensures SimulateMonth(m, scenarios).value.billAmount
              == SimulateMonth(m, scenarios).value.modifiedUsage * DefaultRate
    ensures SimulateMonth(m, scenarios).value.billAmount >= 15.0
  {
  }

  /** What `simulate_bills` produces: nothing without a trained model, else
      the monthly breakdown. */
  datatype Simulation = NotTrained | Breakdown(months: seq<MonthResult>)

  /** `simulate_bills` up to its monthly breakdown: an untrained model gives
      the empty result; otherwise each month in order, with the scenarios
      applied (the default scenarios when none are given). An error in any
      month propagates. */
  method SimulateBills(trained: bool, months: seq<MonthInput>, scenarios: Option<Scenarios>)
    returns (r: Result<Simulation>)
    ensures !trained ==> r == Ok(NotTrained)
    ensures trained && |months| == 0 ==> r == Err(ValueError)
    ensures trained && |months| > 0 ==>
              (r.Err? <==> exists k :: 0 <= k < |months| && SimulateMonth(months[k], EffectiveScenarios(scenarios)).Err?)
    ensures trained && r.Ok? ==>
              r.value.Breakdown? && |r.value.months| == |months|
              && forall k :: 0 <= k < |months| ==>
                   Ok(r.value.months[k]) == SimulateMonth(months[k], EffectiveScenarios(scenarios))
  {
    if !trained {
      return Ok(NotTrained);
    }
    if |months| == 0 {
      return Err(ValueError);
    }
    var s := EffectiveScenarios(scenarios);
    var results: seq<MonthResult> := [];
    var i := 0;
    while i < |months|
      invariant 0 <= i <= |months|
      invariant |results| == i
      invariant forall k :: 0 <= k < i ==> Ok(results[k]) == SimulateMonth(months[k], s)
    {
      var m := months[i];
      var usage := ApplyScenarios(m.baseUsage, s, m.yearMonth);
      if usage.Err? {
        return Err(usage.error);
      }
      var rate := SelectRate(s, m.yearMonth);
      if rate.Err? {
        return Err(rate.error);
      }
      var result := MonthResult(m.yearMonth, m.baseUsage, usage.value, usage.value * rate.value,
                                TemperatureOf(m.month), SeasonOf(m.month));
      assert SimulateMonth(m, s).Ok?;
      assert SimulateMonth(m, s).value == result;
      results := results + [result];
      i := i + 1;
    }
    return Ok(Breakdown(results));
  }

  // ---------- Recommendations ----------

  datatype SimulationAdvice =
    | SignificantIncrease   // bill change above 20%
    | ModerateIncrease      // above 10%
    | DecreaseExpected      // below -10%
    | EfficiencyApplied     // a positive efficiency gain
    | ApplianceChangesApplied
    | ReviewBreakdown       // always
    | TemperatureImpact     // always, last

  /** The position of a line in the order the code appends them. */
  function SimulationAdviceRank(a: SimulationAdvice): nat {
    match a
    case SignificantIncrease => 0
    case ModerateIncrease => 1
    case DecreaseExpected => 2
    case EfficiencyApplied => 3
    case ApplianceChangesApplied => 4
    case ReviewBreakdown => 5
    case TemperatureImpact => 6
  }

  /** The one bill-change line of the `if`/`elif` chain, if any. */
  function BillChangeLine(billChange: real): (o: Option<SimulationAdvice>)
    ensures o == Some(SignificantIncrease) <==> billChange > 20.0
    ensures o == Some(ModerateIncrease) <==> 10.0 < billChange <= 20.0
    ensures o == Some(DecreaseExpected) <==> billChange < -10.0
    ensures o.Some? ==> o.value in {SignificantIncrease, ModerateIncrease, DecreaseExpected}
  {
    if billChange > 20.0 then Some(SignificantIncrease)
    else if billChange > 10.0 then Some(ModerateIncrease)
    else if billChange < -10.0 then Some(DecreaseExpected)
    else None
  }

  /** The lines on what the scenarios apply: a positive efficiency gain and a
      non-empty list of appliance changes. */
  function AppliedLines(scenarios: Scenarios): (r: seq<SimulationAdvice>)
    ensures EfficiencyApplied in r <==>
              scenarios.efficiencyImprovements.Some? && scenarios.efficiencyImprovements.value > 0.0
    ensures ApplianceChangesApplied in r <==>
              scenarios.applianceChanges.Some? && |scenarios.applianceChanges.value| > 0
    ensures forall a :: a in r ==> a in {EfficiencyApplied, ApplianceChangesApplied}
  {
    When(scenarios.efficiencyImprovements.Some? && scenarios.efficiencyImprovements.value > 0.0,
         EfficiencyApplied)
    + When(scenarios.applianceChanges.Some? && |scenarios.applianceChanges.value| > 0,
           ApplianceChangesApplied)
  }

  /** The efficiency line comes before the appliance line, and neither twice. */
  lemma AppliedLinesInOrder(scenarios: Scenarios)
    ensures var r := AppliedLines(scenarios);
            forall i, j :: 0 <= i < j < |r| ==> SimulationAdviceRank(r[i]) < SimulationAdviceRank(r[j])
  {
  }

  /** `_generate_simulation_recommendations` */
  function SimulationRecommendations(scenarios: Scenarios, billChange: real): (r: seq<SimulationAdvice>)
    ensures |r| >= 2 && r[|r| - 2..] == [ReviewBreakdown, TemperatureImpact]
    ensures SignificantIncrease in r <==> billChange > 20.0
    ensures ModerateIncrease in r <==> 10.0 < billChange <= 20.0
    ensures DecreaseExpected in r <==> billChange < -10.0
  {
    var line := BillChangeLine(billChange);
    (if line.Some? then [line.value] else []) + AppliedLines(scenarios) + [ReviewBreakdown, TemperatureImpact]
  }

  /** The efficiency line appears exactly for a positive gain, the appliance
      line exactly for a non-empty list of appliance changes. */
  lemma ScenarioLines(scenarios: Scenarios, billChange: real)
    ensures EfficiencyApplied in SimulationRecommendations(scenarios, billChange) <==>
              scenarios.efficiencyImprovements.Some? && scenarios.efficiencyImprovements.value > 0.0
    ensures ApplianceChangesApplied in SimulationRecommendations(scenarios, billChange) <==>
              scenarios.applianceChanges.Some? && |scenarios.applianceChanges.value| > 0
  {
  }

  /** At most one bill-change line is given. */
  lemma OneBillChangeLine(scenarios: Scenarios, billChange: real)
    ensures var r := SimulationRecommendations(scenarios, billChange);
            !(SignificantIncrease in r && ModerateIncrease in r)
            && !(SignificantIncrease in r && DecreaseExpected in r)
            && !(ModerateIncrease in r && DecreaseExpected in r)
  {
  }

  // ---------- Carbon footprint ----------

  /** The grid factor of `default_emission_factors[country][region]`,
      including each regional country's own "default" entry. */
  function RegionFactor(country: string, region: string): Option<real> {
    if country == "US" then
      if region == "default" then Some(0.42)
      else CarbonTracker.RegionGridMix(country, region)
    else if country == "EU" then
      if region == "default" then Some(0.35)
      else CarbonTracker.RegionGridMix(country, region)
    else None
  }

  /** The factor lookup of `get_carbon_footprint`: the region's factor, else
      the country's "default", else 0.42 for an unknown country. For the
      country "default" the entry is a number, and testing a region's
      membership in it raises `TypeError`. */
  function FootprintFactor(country: string, region: string): (r: Result<real>)
    ensures r.Err? <==> country == "default"
    ensures r.Ok? ==> 0.15 <= r.value <= 0.60
    ensures country == "US" && RegionFactor(country, region).None? ==> r == Ok(0.42)
    ensures country == "EU" && RegionFactor(country, region).None? ==> r == Ok(0.35)
    ensures country != "US" && country != "EU" && country != "default" ==> r == Ok(0.42)
    ensures country == "US" && region == "default" ==> r == Ok(0.42)
    ensures country == "EU" && region == "default" ==> r == Ok(0.35)
  {
    if country == "US" || country == "EU" then
      match RegionFactor(country, region)
      case Some(f) => Ok(f)
      case None => Ok(if country == "US" then 0.42 else 0.35)
    else if country == "default" then Err(TypeError)
    else Ok(0.42)
  }

  /** For a named region both trackers agree with the grid mix of the carbon
      tracker's table; for an unnamed EU region this lookup falls back to the
      EU default of 0.35 while the carbon tracker falls back to 0.42. */
  lemma AgreesWithCarbonTracker(country: string, region: string)
    ensures CarbonTracker.RegionGridMix(country, region).Some? ==>
              FootprintFactor(country, region) == CarbonTracker.EmissionFactor(country, region, "grid_mix")
    ensures FootprintFactor("EU", "atlantis") == Ok(0.35)
    ensures CarbonTracker.EmissionFactor("EU", "atlantis", "grid_mix") == Ok(0.42)
  {
  }

  /** The figures of `get_carbon_footprint`, before rounding. */
  datatype Footprint = Footprint(
    usageKwh: real,
    factor: real,
    co2Kg: real,
    treesNeeded: real,
    renewableCredits: real,
    carMiles: real,
    flightHours: real,
    location: CarbonTracker.Location)

  /** `get_carbon_footprint` */
  function CarbonFootprint(usageKwh: real, location: Option<CarbonTracker.Location>): (r: Result<Footprint>)
    ensures var loc := CarbonTracker.EffectiveLocation(location);
            var f := FootprintFactor(CarbonTracker.CountryOf(loc), CarbonTracker.RegionOf(loc));
            (r.Err? <==> f.Err?)
            && (r.Ok? ==> r.value.factor == f.value && r.value.location == loc && r.value.usageKwh == usageKwh)
  {
    var loc := CarbonTracker.EffectiveLocation(location);
    match FootprintFactor(CarbonTracker.CountryOf(loc), CarbonTracker.RegionOf(loc))
    case Err(e) => Err(e)
    case Ok(f) =>
      var co2 := usageKwh * f;
      Ok(Footprint(usageKwh, f, co2, co2 / 22.0, co2 / 1000.0, co2 * 2.3, co2 / 90.0, loc))
  }

  /** The footprint is usage times factor, and each offset equivalent is in
      fixed proportion to it: 22 kg per tree, 1000 kg per credit, 2.3 car
      miles and 1/90 flight hour per kg. */
  lemma FootprintProportions(usageKwh: real, location: Option<CarbonTracker.Location>)
    requires CarbonFootprint(usageKwh, location).Ok?
    ensures var p := CarbonFootprint(usageKwh, location).value;
            p.co2Kg == p.usageKwh * p.factor
            && p.treesNeeded * 22.0 == p.co2Kg
            && p.renewableCredits * 1000.0 == p.co2Kg
            && p.flightHours * 90.0 == p.co2Kg
            && p.carMiles == p.co2Kg * 2.3
  {
  }

  /** With no location the default US location is used, at 0.42. */
  lemma NoLocationFootprint(usageKwh: real)
    ensures CarbonFootprint(usageKwh, None).Ok?
    ensures CarbonFootprint(usageKwh, None).value.factor == 0.42
  {
  }
}

=== FILE: carbon_tracker.dfy ===
/** The bookkeeping of Pages/carbon_tracker.py: emission-factor lookup,
    the tracking history that consumption, transport and lifestyle entries are
    appended to, the per-category summary, and the recommendation and
    progress messages. Fixed messages are represented by tags. */
module CarbonTracker {
  import opened Wrappers
  import opened Text

  // ---------- Emission factors (kg CO2 per kWh) ----------

  /** The factor of a generation source other than "grid_mix"; the same in
      every region table. */
  function SourceFactor(source: string): Option<real> {
    if source == "coal" then Some(0.95)
    else if source == "natural_gas" || source == "biomass" then Some(0.45)
    else if source == "nuclear" || source == "hydro" || source == "wind" || source == "solar" then Some(0.0)
    else None
  }

  /** The keys of a region table (and of the "default" country's table). */
  predicate IsSourceKey(key: string) {
    key == "grid_mix" || SourceFactor(key).Some?
  }

  /** The grid mix of each region of the two regional countries. */
  function RegionGridMix(country: string, region: string): Option<real> {
    if country == "US" then
      if region == "northeast" then Some(0.35)
      else if region == "west_coast" then Some(0.25)
      else if region == "southwest" then Some(0.45)
      else if region == "southeast" then Some(0.50)
      else if region == "midwest" then Some(0.55)
      else if region == "mountain" then Some(0.40)
      else None
    else if country == "EU" then
      if region == "nordic" then Some(0.15)
      else if region == "central" then Some(0.35)
      else if region == "southern" then Some(0.45)
      else if region == "eastern" then Some(0.60)
      else None
    else None
  }

  /** The grid mix of the "default" country. */
  const DefaultGridMix: real := 0.42

  /** A location dictionary; `None` is an absent key. */
  datatype Location = Location(country: Option<string>, region: Option<string>)

  /** `{'country': 'US', 'region': 'default'}`, used when no location is given. */
  const DefaultLocation := Location(Some("US"), Some("default"))

  /** `location` after `if not location: location = {...}` (or `location or
      {...}`): a missing or empty dictionary becomes the default location. */
  function EffectiveLocation(location: Option<Location>): (loc: Location)
    ensures loc.country.Some? || loc.region.Some?
    ensures location.Some? && location.value != Location(None, None) ==> loc == location.value
    ensures location.None? || location.value == Location(None, None) ==> loc == DefaultLocation
  {
    if location.None? || location.value == Location(None, None) then DefaultLocation else location.value
  }

  /** `location.get('country', 'US')` and `location.get('region', 'default')`. */
  function CountryOf(location: Location): string {
    if location.country.None? then "US" else location.country.value
  }

  function RegionOf(location: Location): string {
    if location.region.None? then "default" else location.region.value
  }

  /** The factor lookup of `calculate_emissions`. The "US" and "EU"
      entries map regions to source tables; the "default" entry is itself a
      source table, so there the region is looked up among source names, and
      a region that is one of them makes the next lookup test membership in
      a number (`TypeError`). A regional country without the region answers
      `.get('default', 0.42)`, and neither has a "default" region. */
  function EmissionFactor(country: string, region: string, source: string): (r: Result<real>)
    ensures r.Ok? ==> 0.0 <= r.value <= 0.95
  {
    if country == "US" || country == "EU" then
      match RegionGridMix(country, region)
      case None => Ok(0.42)
      case Some(gridMix) =>
        if source == "grid_mix" then Ok(gridMix)
        else if SourceFactor(source).Some? then Ok(SourceFactor(source).value)
        else Ok(gridMix)
    else if country == "default" then
      if IsSourceKey(region) then Err(TypeError) else Ok(0.42)
    else Ok(DefaultGridMix)
  }

  /** The fallback chain: the exact entry, else the region's grid mix for an
      unknown source, else 0.42 for an unknown region or country. */
  lemma EmissionFactorFallbacks(country: string, region: string, source: string)
    ensures RegionGridMix(country, region).Some? && IsSourceKey(source) && source != "grid_mix"
            ==> EmissionFactor(country, region, source) == Ok(SourceFactor(source).value)
    ensures RegionGridMix(country, region).Some? && !(IsSourceKey(source) && source != "grid_mix")
            ==> EmissionFactor(country, region, source) == Ok(RegionGridMix(country, region).value)
    ensures (country == "US" || country == "EU") && RegionGridMix(country, region).None?
            ==> EmissionFactor(country, region, source) == Ok(0.42)
    ensures country != "US" && country != "EU" && country != "default"
            ==> EmissionFactor(country, region, source) == Ok(DefaultGridMix)
    ensures country == "default" ==> (EmissionFactor(country, region, source).Err? <==> IsSourceKey(region))
    ensures country == "default" && !IsSourceKey(region) ==> EmissionFactor(country, region, source) == Ok(0.42)
  {
  }

  /** The worked cases: coal in the midwest, an unknown source there, and an
      unknown region. */
  lemma EmissionFactorExamples()
    ensures EmissionFactor("US", "midwest", "coal") == Ok(0.95)
    ensures EmissionFactor("US", "midwest", "peat") == Ok(0.55)
    ensures EmissionFactor("EU", "atlantis", "coal") == Ok(0.42)
    ensures EmissionFactor("default", "coal", "coal") == Err(TypeError)
  {
  }

  /** The default location has no region entry of its own, so it always uses 0.42. */
  lemma DefaultLocationFactor(source: string)
    ensures EmissionFactor(CountryOf(DefaultLocation), RegionOf(DefaultLocation), source) == Ok(0.42)
  {
  }

  datatype Emissions = Emissions(usageKwh: real, energySource: string, factor: real, co2Kg: real)

  /** `calculate_emissions` before rounding: usage times the factor of the
      location (the default location when none is given). */
  function CalculateEmissions(usageKwh: real, location: Option<Location>, source: string): (r: Result<Emissions>)
    ensures var loc := EffectiveLocation(location);
            var f := EmissionFactor(CountryOf(loc), RegionOf(loc), source);
            (r.Err? <==> f.Err?) && (r.Ok? ==> r.value.factor == f.value)
    ensures r.Ok? ==> r.value.co2Kg == usageKwh * r.value.factor && r.value.usageKwh == usageKwh
  {
    var loc := EffectiveLocation(location);
    match EmissionFactor(CountryOf(loc), RegionOf(loc), source)
    case Err(e) => Err(e)
    case Ok(f) => Ok(Emissions(usageKwh, source, f, usageKwh * f))
  }

  const TransportFactors: map<string, real> := map[
    "car_gasoline" := 2.3, "car_electric" := 0.5, "bus" := 0.14, "train" := 0.14,
    "plane_domestic" := 0.25, "plane_international" := 0.18, "ship" := 0.04]

  const LifestyleFactors: map<string, real> := map[
    "meat_heavy" := 2.5, "meat_moderate" := 1.5, "vegetarian" := 0.8, "vegan" := 0.5,
    "fast_fashion" := 0.3, "sustainable_fashion" := 0.1, "single_use_plastics" := 0.02,
    "reusable_items" := 0.005]

  // ---------- Records ----------

  /** An entry of `tracking_history`. Consumption records carry no category. */
  datatype Record =
    | Consumption(date: string, usageKwh: real, energySource: string, location: Location,
                  emissions: real, factor: real)
    | Transport(date: string, transportType: string, distanceMiles: real, passengers: int,
                emissions: real, factor: real, location: Location)
    | Lifestyle(date: string, lifestyleChoice: string, quantity: int,
                emissions: real, factor: real, location: Location)

  /** `record.get('category', 'electricity')` */
  function CategoryOf(r: Record): string {
    match r
    case Consumption(_, _, _, _, _, _) => "electricity"
    case Transport(_, _, _, _, _, _, _) => "transportation"
    case Lifestyle(_, _, _, _, _, _) => "lifestyle"
  }

  // ---------- Summary specification ----------

  /** `start <= record['date'] <= end` on strings. */
  predicate InRange(r: Record, start: string, end: string) {
    LexLe(start, r.date) && LexLe(r.date, end)
  }

  function FilterRange(rs: seq<Record>, start: string, end: string): (out: seq<Record>)
    ensures |out| <= |rs|
    ensures forall k :: 0 <= k < |out| ==> out[k] in rs && InRange(out[k], start, end)
    decreases |rs|
  {
    if |rs| == 0 then []
    else
      var init := FilterRange(rs[..|rs| - 1], start, end);
      if InRange(rs[|rs| - 1], start, end) then init + [rs[|rs| - 1]] else init
  }

  /** Filtering a history split in two filters each part and keeps them in
      order, so the kept records appear in history order. */
  lemma {:induction false} FilterRangeAppend(a: seq<Record>, b: seq<Record>, start: string, end: string)
    ensures FilterRange(a + b, start, end) == FilterRange(a, start, end) + FilterRange(b, start, end)
    decreases |b|
  {
    if |b| == 0 {
      assert a + b == a;
    } else {
      var last := b[|b| - 1];
      assert (a + b)[..|a + b| - 1] == a + b[..|b| - 1];
      assert (a + b)[|a + b| - 1] == last;
      FilterRangeAppend(a, b[..|b| - 1], start, end);
    }
  }

  /** The records a summary covers: the date range when both ends are given
      (non-empty), otherwise the whole history. */
  function Selected(history: seq<Record>, start: Option<string>, end: Option<string>): seq<Record> {
    if start.Some? && start.value != "" && end.Some? && end.value != "" then
      FilterRange(history, start.value, end.value)
    else history
  }

  function TotalEmissions(rs: seq<Record>): real
    decreases |rs|
  {
    if |rs| == 0 then 0.0 else TotalEmissions(rs[..|rs| - 1]) + rs[|rs| - 1].emissions
  }

  function CountIn(rs: seq<Record>, c: string): nat
    decreases |rs|
  {
    if |rs| == 0 then 0
    else CountIn(rs[..|rs| - 1], c) + (if CategoryOf(rs[|rs| - 1]) == c then 1 else 0)
  }

  function TotalIn(rs: seq<Record>, c: string): real
    decreases |rs|
  {
    if |rs| == 0 then 0.0
    else TotalIn(rs[..|rs| - 1], c) + (if CategoryOf(rs[|rs| - 1]) == c then rs[|rs| - 1].emissions else 0.0)
  }

  function DetailsIn(rs: seq<Record>, c: string): seq<Record>
    decreases |rs|
  {
    if |rs| == 0 then []
    else DetailsIn(rs[..|rs| - 1], c) + (if CategoryOf(rs[|rs| - 1]) == c then [rs[|rs| - 1]] else [])
  }

  /** The three categories partition the records: their counts add up to the
      number of records and their totals to the overall total. */
  lemma {:induction false} CategoriesPartition(rs: seq<Record>)
    ensures CountIn(rs, "electricity") + CountIn(rs, "transportation") + CountIn(rs, "lifestyle") == |rs|
    ensures TotalIn(rs, "electricity") + TotalIn(rs, "transportation") + TotalIn(rs, "lifestyle") == TotalEmissions(rs)
  {
    if |rs| > 0 {
      CategoriesPartition(rs[..|rs| - 1]);
    }
  }

  /** A category's details are exactly its records, in history order. */
  lemma {:induction false} DetailsMatchCount(rs: seq<Record>, c: string)
    ensures |DetailsIn(rs, c)| == CountIn(rs, c)
    ensures forall k :: 0 <= k < |DetailsIn(rs, c)| ==> CategoryOf(DetailsIn(rs, c)[k]) == c
  {
    if |rs| > 0 {
      DetailsMatchCount(rs[..|rs| - 1], c);
    }
  }

  /** Per-category figures of the summary. */
  datatype CategoryTotal = CategoryTotal(totalEmissions: real, recordCount: nat, details: seq<Record>)

  // ---------- Recommendations and progress ----------

  datatype Advice =
    | ElectricityDominant   // electricity above 70% of the total
    | TransportSignificant  // transportation above 30%
    | LifestyleSignificant  // lifestyle above 20%
    | AboveAverage          // total above 1000 kg
    | BelowAverage          // total below 500 kg
    | ConsiderOffsets       // always
    | TrackMonthly          // always, last

  /** The position of a line in the order the code appends them. */
  function AdviceRank(a: Advice): nat {
    match a
    case ElectricityDominant => 0
    case TransportSignificant => 1
    case LifestyleSignificant => 2
    case AboveAverage => 3
    case BelowAverage => 4
    case ConsiderOffsets => 5
    case TrackMonthly => 6
  }

  /** The category is present and its total exceeds `threshold`. */
  predicate ShareAbove(categories: map<string, CategoryTotal>, c: string, threshold: real) {
    c in categories && categories[c].totalEmissions > threshold
  }

  /** The lines on the categories' shares of the total, in order. */
  function ShareLines(categories: map<string, CategoryTotal>, total: real): (r: seq<Advice>)
    ensures ElectricityDominant in r <==> ShareAbove(categories, "electricity", total * 0.7)
    ensures TransportSignificant in r <==> ShareAbove(categories, "transportation", total * 0.3)
    ensures LifestyleSignificant in r <==> ShareAbove(categories, "lifestyle", total * 0.2)
    ensures forall a :: a in r ==> a in {ElectricityDominant, TransportSignificant, LifestyleSignificant}
  {
    When(ShareAbove(categories, "electricity", total * 0.7), ElectricityDominant)
    + When(ShareAbove(categories, "transportation", total * 0.3), TransportSignificant)
    + When(ShareAbove(categories, "lifestyle", total * 0.2), LifestyleSignificant)
  }
  /** The share lines come in the order electricity, transportation,
      lifestyle, and none twice. */
  lemma ShareLinesInOrder(categories: map<string, CategoryTotal>, total: real)
    ensures var r := ShareLines(categories, total);
            forall i, j :: 0 <= i < j < |r| ==> AdviceRank(r[i]) < AdviceRank(r[j])
  {
  }


  /** The `if`/`elif` line on the total: above 1000 kg or below 500 kg. */
  function LevelLine(total: real): (o: Option<Advice>)
    ensures o == Some(AboveAverage) <==> total > 1000.0
    ensures o == Some(BelowAverage) <==> total < 500.0
    ensures o.Some? ==> o.value in {AboveAverage, BelowAverage}
  {
    if total > 1000.0 then Some(AboveAverage)
    else if total < 500.0 then Some(BelowAverage)
    else None
  }

  /** `_generate_recommendations` */
  function Recommendations(categories: map<string, CategoryTotal>, total: real): (r: seq<Advice>)
    ensures |r| >= 2 && r[|r| - 2..] == [ConsiderOffsets, TrackMonthly]
    ensures ElectricityDominant in r <==> ShareAbove(categories, "electricity", total * 0.7)
    ensures TransportSignificant in r <==> ShareAbove(categories, "transportation", total * 0.3)
    ensures LifestyleSignificant in r <==> ShareAbove(categories, "lifestyle", total * 0.2)
  {
    var shares := ShareLines(categories, total);
    var line := LevelLine(total);
    var level := if line.Some? then [line.value] else [];
    var tail := [ConsiderOffsets, TrackMonthly];
    shares + level + tail
  }

  /** At most one line on the overall total: above average beyond 1000 kg,
      below average under 500 kg. */
  lemma TotalLevelLines(categories: map<string, CategoryTotal>, total: real)
    ensures AboveAverage in Recommendations(categories, total) <==> total > 1000.0
    ensures BelowAverage in Recommendations(categories, total) <==> total < 500.0
  {
    var shares := ShareLines(categories, total);
    var line := LevelLine(total);
    var level := if line.Some? then [line.value] else [];
    assert Recommendations(categories, total) == shares + level + [ConsiderOffsets, TrackMonthly];
    assert AboveAverage !in shares && BelowAverage !in shares;
    assert AboveAverage in level <==> line == Some(AboveAverage);
    assert BelowAverage in level <==> line == Some(BelowAverage);
  }

  datatype Progress = Outstanding | GreatWork | GoodJob | SlightIncrease | SignificantIncrease

  /** `_get_progress_message` */
  function ProgressMessage(changePercentage: real): (p: Progress)
    ensures p == Outstanding <==> changePercentage <= -20.0
    ensures p == GreatWork <==> -20.0 < changePercentage <= -10.0
    ensures p == GoodJob <==> -10.0 < changePercentage <= 0.0
    ensures p == SlightIncrease <==> 0.0 < changePercentage <= 10.0
    ensures p == SignificantIncrease <==> changePercentage > 10.0
  {
    if changePercentage <= -20.0 then Outstanding
    else if changePercentage <= -10.0 then GreatWork
    else if changePercentage <= 0.0 then GoodJob
    else if changePercentage <= 10.0 then SlightIncrease
    else SignificantIncrease
  }

  function ProgressRank(p: Progress): nat {
    match p
    case Outstanding => 0
    case GreatWork => 1
    case GoodJob => 2
    case SlightIncrease => 3
    case SignificantIncrease => 4
  }

  /** A larger change never earns a better message. */
  lemma ProgressMonotone(a: real, b: real)
    requires a <= b
    ensures ProgressRank(ProgressMessage(a)) <= ProgressRank(ProgressMessage(b))
  {
  }

  datatype Summary =
    | NoTrackingData        // empty history
    | NoDataInRange         // nothing in the requested range
    | Summary(totalEmissions: real, categories: map<string, CategoryTotal>, recommendations: seq<Advice>)

  // ---------- The tracker ----------

  class CarbonFootprintTracker {
    /** `tracking_history`, in insertion order. */
    var trackingHistory: seq<Record>

    constructor ()
      ensures trackingHistory == []
    {
      trackingHistory := [];
    }

    /** `add_consumption_data`: appends exactly one consumption record with
        the computed emissions; a failing factor lookup raises and appends
        nothing. */
    method AddConsumptionData(date: string, usageKwh: real, location: Option<Location>, energySource: string)
      returns (r: Result<Record>)
      modifies this
      ensures var e := CalculateEmissions(usageKwh, location, energySource);
              var loc := EffectiveLocation(location);
              (e.Err? ==> r == Err(e.error) && trackingHistory == old(trackingHistory))
              && (e.Ok? ==> r == Ok(Consumption(date, usageKwh, energySource, loc, e.value.co2Kg, e.value.factor))
                            && trackingHistory == old(trackingHistory) + [r.value])
    {
      var loc := EffectiveLocation(location);
      var emissions := CalculateEmissions(usageKwh, location, energySource);
      if emissions.Err? {
        return Err(emissions.error);
      }
      var record := Consumption(date, usageKwh, energySource, loc, emissions.value.co2Kg, emissions.value.factor);
      trackingHistory := trackingHistory + [record];
      return Ok(record);
    }

    /** `add_transportation_data`: an unknown type returns None and changes
        nothing; zero passengers divide by zero; otherwise exactly one
        transportation record with distance x factor / passengers is appended. */
    method AddTransportationData(date: string, transportType: string, distanceMiles: real, passengers: int,
                                 location: Option<Location>)
      returns (r: Result<Option<Record>>)
      modifies this
      ensures transportType !in TransportFactors ==> r == Ok(None) && trackingHistory == old(trackingHistory)
      ensures transportType in TransportFactors && passengers == 0 ==>
                r == Err(ZeroDivisionError) && trackingHistory == old(trackingHistory)
      ensures transportType in TransportFactors && passengers != 0 ==>
                var factor := TransportFactors[transportType];
                r == Ok(Some(Transport(date, transportType, distanceMiles, passengers,
                                       distanceMiles * factor / passengers as real, factor,
                                       EffectiveLocation(location))))
                && trackingHistory == old(trackingHistory) + [r.value.value]
    {
      if transportType !in TransportFactors {
        return Ok(None);
      }
      var factor := TransportFactors[transportType];
      if passengers == 0 {
        return Err(ZeroDivisionError);
      }
      var totalEmissions := distanceMiles * factor / passengers as real;
      var record := Transport(date, transportType, distanceMiles, passengers, totalEmissions, factor,
                              EffectiveLocation(location));
      trackingHistory := trackingHistory + [record];
      return Ok(Some(record));
    }

    /** `add_lifestyle_data`: an unknown choice returns None and changes
        nothing; otherwise exactly one lifestyle record with quantity x factor
        is appended. */
    method AddLifestyleData(date: string, lifestyleChoice: string, quantity: int, location: Option<Location>)
      returns (r: Option<Record>)
      modifies this
      ensures lifestyleChoice !in LifestyleFactors ==> r == None && trackingHistory == old(trackingHistory)
      ensures lifestyleChoice in LifestyleFactors ==>
                var factor := LifestyleFactors[lifestyleChoice];
                r == Some(Lifestyle(date, lifestyleChoice, quantity, quantity as real * factor, factor,
                                    EffectiveLocation(location)))
                && trackingHistory == old(trackingHistory) + [r.value]
    {
      if lifestyleChoice !in LifestyleFactors {
        return None;
      }
      var factor := LifestyleFactors[lifestyleChoice];
      var record := Lifestyle(date, lifestyleChoice, quantity, quantity as real * factor, factor,
                              EffectiveLocation(location));
      trackingHistory := trackingHistory + [record];
      return Some(record);
    }

    /** `get_carbon_summary` without offsets and trends: a message for an
        empty history or an empty selection; otherwise the total and, per
        category present, its total, record count and records. */
    method GetCarbonSummary(startDate: Option<string>, endDate: Option<string>) returns (r: Summary)
      ensures |trackingHistory| == 0 <==> r == NoTrackingData
      ensures |trackingHistory| > 0 && |Selected(trackingHistory, startDate, endDate)| == 0 <==> r == NoDataInRange
      ensures r.Summary? ==>
                var rs := Selected(trackingHistory, startDate, endDate);
                r.totalEmissions == TotalEmissions(rs)
                && Tallies(r.categories, rs)
                && r.recommendations == Recommendations(r.categories, r.totalEmissions)
    {
      if |trackingHistory| == 0 {
        return NoTrackingData;
      }
      var filtered := Selected(trackingHistory, startDate, endDate);
      if |filtered| == 0 {
        return NoDataInRange;
      }
      var totalEmissions := TotalEmissions(filtered);
      var categories := TallyCategories(filtered);
      return Summary(totalEmissions, categories, Recommendations(categories, totalEmissions));
    }
  }

  /** The category loop of `get_carbon_summary`: each record adds its
      emissions, one to the count and itself to the details of its category,
      which starts at zero the first time it is seen. */
  method TallyCategories(filtered: seq<Record>) returns (categories: map<string, CategoryTotal>)
    ensures Tallies(categories, filtered)
  {
    categories := map[];
    var i := 0;
    while i < |filtered|
      invariant 0 <= i <= |filtered|
      invariant Tallies(categories, filtered[..i])
    {
      var record := filtered[i];
      var category := CategoryOf(record);
      ghost var before := categories;
      if category !in categories {
        categories := categories[category := CategoryTotal(0.0, 0, [])];
      }
      var entry := categories[category];
      assert entry == if category in before then before[category] else CategoryTotal(0.0, 0, []);
      categories := categories[category := CategoryTotal(entry.totalEmissions + record.emissions,
                                                         entry.recordCount + 1, entry.details + [record])];
      assert categories == before[category := CategoryTotal(entry.totalEmissions + record.emissions,
                                                            entry.recordCount + 1, entry.details + [record])];
      TallyStep(filtered, i, before, categories);
      i := i + 1;
    }
    assert filtered[..|filtered|] == filtered;
  }

  /** `categories` holds exactly the categories that occur in `rs`, each with
      its total, its record count and its records in order. */
  ghost predicate Tallies(categories: map<string, CategoryTotal>, rs: seq<Record>) {
    (forall c :: c in categories <==> CountIn(rs, c) > 0)
    && (forall c :: c in categories ==>
          categories[c] == CategoryTotal(TotalIn(rs, c), CountIn(rs, c), DetailsIn(rs, c)))
  }

  /** Folding one more record into the tallies of a prefix gives the tallies
      of the longer prefix. */
  lemma TallyStep(rs: seq<Record>, i: nat, before: map<string, CategoryTotal>, after: map<string, CategoryTotal>)
    requires i < |rs| && Tallies(before, rs[..i])
    requires var c := CategoryOf(rs[i]);
             var entry := if c in before then before[c] else CategoryTotal(0.0, 0, []);
             after == before[c := CategoryTotal(entry.totalEmissions + rs[i].emissions,
                                                entry.recordCount + 1, entry.details + [rs[i]])]
    ensures Tallies(after, rs[..i + 1])
  {
    forall c {
      SummaryStep(rs, i, c);
    }
    var cat := CategoryOf(rs[i]);
    if cat !in before {
      ZeroCountZeroTotal(rs[..i], cat);
      ZeroCountNoDetails(rs[..i], cat);
    }
  }

  /** Over a summary, the category counts add up to the number of selected
      records and the category totals to the overall total. */
  lemma SummaryAddsUp(history: seq<Record>, start: Option<string>, end: Option<string>,
                      categories: map<string, CategoryTotal>)
    requires Tallies(categories, Selected(history, start, end))
    ensures var rs := Selected(history, start, end);
            (if "electricity" in categories then categories["electricity"].recordCount else 0)
            + (if "transportation" in categories then categories["transportation"].recordCount else 0)
            + (if "lifestyle" in categories then categories["lifestyle"].recordCount else 0) == |rs|
    ensures var rs := Selected(history, start, end);
            (if "electricity" in categories then categories["electricity"].totalEmissions else 0.0)
            + (if "transportation" in categories then categories["transportation"].totalEmissions else 0.0)
            + (if "lifestyle" in categories then categories["lifestyle"].totalEmissions else 0.0) == TotalEmissions(rs)
    ensures forall c :: c in categories ==> c in {"electricity", "transportation", "lifestyle"}
  {
    var rs := Selected(history, start, end);
    CategoriesPartition(rs);
    TallyEntry(categories, rs, "electricity");
    TallyEntry(categories, rs, "transportation");
    TallyEntry(categories, rs, "lifestyle");
    forall c | c in categories
      ensures c in {"electricity", "transportation", "lifestyle"}
    {
      CountedCategoriesKnown(rs, c);
    }
  }

  lemma {:induction false} ZeroCountNoDetails(rs: seq<Record>, c: string)
    ensures CountIn(rs, c) == 0 ==> DetailsIn(rs, c) == []
  {
    if |rs| > 0 {
      ZeroCountNoDetails(rs[..|rs| - 1], c);
    }
  }

  /** How one more record changes the per-category figures. */
  lemma SummaryStep(rs: seq<Record>, i: nat, c: string)
    requires i < |rs|
    ensures CountIn(rs[..i + 1], c) == CountIn(rs[..i], c) + (if CategoryOf(rs[i]) == c then 1 else 0)
    ensures TotalIn(rs[..i + 1], c) == TotalIn(rs[..i], c) + (if CategoryOf(rs[i]) == c then rs[i].emissions else 0.0)
    ensures DetailsIn(rs[..i + 1], c) == DetailsIn(rs[..i], c) + (if CategoryOf(rs[i]) == c then [rs[i]] else [])
  {
    assert rs[..i + 1][..i] == rs[..i];
  }

  /** A category's entry in the tallies, read as zero when absent, is its
      count and its total. */
  lemma TallyEntry(categories: map<string, CategoryTotal>, rs: seq<Record>, c: string)
    requires Tallies(categories, rs)
    ensures (if c in categories then categories[c].recordCount else 0) == CountIn(rs, c)
    ensures (if c in categories then categories[c].totalEmissions else 0.0) == TotalIn(rs, c)
  {
    ZeroCountZeroTotal(rs, c);
  }

  lemma {:induction false} ZeroCountZeroTotal(rs: seq<Record>, c: string)
    ensures CountIn(rs, c) == 0 ==> TotalIn(rs, c) == 0.0
  {
    if |rs| > 0 {
      ZeroCountZeroTotal(rs[..|rs| - 1], c);
    }
  }

  lemma {:induction false} CountedCategoriesKnown(rs: seq<Record>, c: string)
    ensures CountIn(rs, c) > 0 ==> c in {"electricity", "transportation", "lifestyle"}
  {
    if |rs| > 0 {
      CountedCategoriesKnown(rs[..|rs| - 1], c);
    }
  }

  /** With both dates given, exactly the records dated within the inclusive
      range are summarised, in history order. */
  lemma {:induction false} RangeKeepsExactlyInRange(rs: seq<Record>, start: string, end: string, r: Record)
    ensures r in FilterRange(rs, start, end) <==> r in rs && InRange(r, start, end)
  {
    if |rs| > 0 {
      RangeKeepsExactlyInRange(rs[..|rs| - 1], start, end, r);
      assert rs == rs[..|rs| - 1] + [rs[|rs| - 1]];
    }
  }
}

=== FILE: data_service.dfy ===
/** The data service of server/data_service.py: a five-minute cache of
    aggregated dashboards kept in two dictionaries (data and expiry), the
    date window of the user analytics, and the section selection of the user
    data export. The clock (`datetime.now()`) is the parameter `now`, in
    seconds; what the subsystems aggregate is a parameter as well. */
module DataService {
  import opened Wrappers

  /** `cache_duration`: cached dashboards live for 300 seconds. */
  const CacheDuration: real := 300.0

  /** `_is_cache_valid` over the two dictionaries: the key must be in both,
      and the expiry must lie strictly in the future. */
  predicate CacheValid<D>(cache: map<string, D>, expiry: map<string, real>, key: string, now: real) {
    key in cache && key in expiry && now < expiry[key]
  }

  /** `f"dashboard_{user_id or 'global'}"`: a missing or empty user id
      shares the global key. */
  function CacheKey(userId: Option<string>): (k: string)
    ensures |k| > 10 && k[..10] == "dashboard_"
    ensures userId.Some? && userId.value != "" ==> k[10..] == userId.value
    ensures userId.None? || userId.value == "" ==> k[10..] == "global"
  {
    var k := "dashboard_" + (if userId.None? || userId.value == "" then "global" else userId.value);
    assert k[10..] == (if userId.None? || userId.value == "" then "global" else userId.value);
    k
  }

  /** Distinct non-empty user ids never share a dashboard; the user id
      "global" shares the anonymous dashboard. */
  lemma CacheKeysSeparateUsers(a: string, b: string)
    ensures a != "" && b != "" && a != b ==> CacheKey(Some(a)) != CacheKey(Some(b))
    ensures CacheKey(Some("global")) == CacheKey(None) == CacheKey(Some(""))
  {
    if a != "" && b != "" && a != b {
      assert CacheKey(Some(a))[10..] == a;
      assert CacheKey(Some(b))[10..] == b;
    }
  }

  /** A unified dashboard: the aggregated sections with their timestamp, or
      the error dictionary returned when aggregation raised. */
  datatype Dashboard<A> = Dashboard(sections: A, lastUpdated: real) | DashboardError(lastUpdated: real)

  /** One call of `get_unified_dashboard_data` on the two dictionaries:
      the cached dashboard while it is valid; otherwise the freshly aggregated
      one, stored under the key with a new expiry; an aggregation error is
      returned and nothing is stored. */
  function DashboardStep<A>(cache: map<string, Dashboard<A>>, expiry: map<string, real>, userId: Option<string>,
                            aggregate: Result<A>, now: real)
    : (r: (Dashboard<A>, map<string, Dashboard<A>>, map<string, real>))
    ensures var key := CacheKey(userId);
            CacheValid(cache, expiry, key, now) ==> r == (cache[key], cache, expiry)
    ensures var key := CacheKey(userId);
            !CacheValid(cache, expiry, key, now) && aggregate.Err? ==> r == (DashboardError(now), cache, expiry)
    ensures var key := CacheKey(userId);
            !CacheValid(cache, expiry, key, now) && aggregate.Ok? ==>
              r.0 == Dashboard(aggregate.value, now)
              && r.1 == cache[key := r.0] && r.2 == expiry[key := now + CacheDuration]
  {
    var key := CacheKey(userId);
    if CacheValid(cache, expiry, key, now) then (cache[key], cache, expiry)
    else match aggregate
      case Err(_) => (DashboardError(now), cache, expiry)
      case Ok(sections) =>
        var d := Dashboard(sections, now);
        (d, cache[key := d], expiry[key := now + CacheDuration])
  }

  class DataAggregationService<A> {
    /** `cache`: key -> stored dashboard. */
    var cache: map<string, Dashboard<A>>
    /** `cache_expiry`: key -> instant the entry stops being valid. */
    var cacheExpiry: map<string, real>

    constructor ()
      ensures cache == map[] && cacheExpiry == map[]
    {
      cache := map[];
      cacheExpiry := map[];
    }

    /** `_is_cache_valid` */
    predicate IsCacheValid(key: string, now: real)
      reads this
    {
      CacheValid(cache, cacheExpiry, key, now)
    }

    /** `_set_cache`: stores the data and an expiry 300 seconds ahead for
        this key only. */
    method SetCache(key: string, data: Dashboard<A>, now: real)
      modifies this
      ensures cache == old(cache)[key := data]
      ensures cacheExpiry == old(cacheExpiry)[key := now + CacheDuration]
    {
      cache := cache[key := data];
      cacheExpiry := cacheExpiry[key := now + CacheDuration];
    }

    /** `get_unified_dashboard_data`; `aggregate` is what the subsystem
        calls produce, or the exception one of them raised. */
    method GetUnifiedDashboardData(userId: Option<string>, aggregate: Result<A>, now: real)
      returns (d: Dashboard<A>)
      modifies this
      ensures (d, cache, cacheExpiry) == DashboardStep(old(cache), old(cacheExpiry), userId, aggregate, now)
    {
      var cacheKey := CacheKey(userId);
      if IsCacheValid(cacheKey, now) {
        return cache[cacheKey];
      }
      if aggregate.Err? {
        return DashboardError(now);
      }
      var dashboardData := Dashboard(aggregate.value, now);
      SetCache(cacheKey, dashboardData, now);
      return dashboardData;
    }
  }

  /** A key set at `setAt` is valid exactly before `setAt + 300`, and
      setting it leaves the validity of every other key as it was. */
  lemma SetCacheValidity<D>(cache: map<string, D>, expiry: map<string, real>, key: string, other: string,
                            data: D, setAt: real, now: real)
    ensures CacheValid(cache[key := data], expiry[key := setAt + CacheDuration], key, now)
            <==> now < setAt + CacheDuration
    ensures other != key ==>
              (CacheValid(cache[key := data], expiry[key := setAt + CacheDuration], other, now)
               <==> CacheValid(cache, expiry, other, now))
  {
  }

  /** A dashboard built at `t` is what every call for the same user returns
      until `t + 300`, whatever the subsystems would report by then. */
  lemma ServedFromCacheForFiveMinutes<A>(cache: map<string, Dashboard<A>>, expiry: map<string, real>,
                                         userId: Option<string>, first: A, later: Result<A>, t: real, now: real)
    requires !CacheValid(cache, expiry, CacheKey(userId), t)
    requires t <= now < t + CacheDuration
    ensures var s := DashboardStep(cache, expiry, userId, Ok(first), t);
            DashboardStep(s.1, s.2, userId, later, now) == (Dashboard(first, t), s.1, s.2)
  {
  }

  /** An aggregation error is not cached: the next call, at the same instant
      or later, aggregates again. */
  lemma ErrorsNotCached<A>(cache: map<string, Dashboard<A>>, expiry: map<string, real>,
                           userId: Option<string>, next: A, t: real, now: real)
    requires !CacheValid(cache, expiry, CacheKey(userId), t)
    requires t <= now
    ensures var s := DashboardStep(cache, expiry, userId, Err(ValueError), t);
            s.0 == DashboardError(t)
            && DashboardStep(s.1, s.2, userId, Ok(next), now).0 == Dashboard(next, now)
  {
  }

  // ---------- Analytics ----------

  /** The length in days of the analytics window of `get_user_analytics`. */
  function AnalyticsRangeDays(dateRange: string): (days: nat)
    ensures dateRange == "7d" ==> days == 7
    ensures dateRange == "90d" ==> days == 90
    ensures dateRange == "1y" ==> days == 365
    ensures dateRange != "7d" && dateRange != "90d" && dateRange != "1y" ==> days == 30
  {
    if dateRange == "7d" then 7
    else if dateRange == "30d" then 30
    else if dateRange == "90d" then 90
    else if dateRange == "1y" then 365
    else 30
  }

  /** The (start, end) instants of the analytics window, in seconds. */
  function AnalyticsWindow(dateRange: string, now: real): (w: (real, real))
    ensures w.1 == now
    ensures w.1 - w.0 == AnalyticsRangeDays(dateRange) as real * 86400.0
  {
    (now - AnalyticsRangeDays(dateRange) as real * 86400.0, now)
  }

  /** Every window is one of four lengths, and an unknown range behaves
      like the default "30d". */
  lemma AnalyticsWindowLengths(dateRange: string, now: real)
    ensures AnalyticsRangeDays(dateRange) in {7, 30, 90, 365}
    ensures AnalyticsWindow(dateRange, now).0 < now
    ensures dateRange !in {"7d", "30d", "90d", "1y"} ==>
              AnalyticsWindow(dateRange, now) == AnalyticsWindow("30d", now)
  {
  }

  // ---------- Export ----------

  /** The four sections an export can hold, in the order they are added. */
  const AllDataTypes: seq<string> := ["analytics", "appliances", "bills", "carbon"]

  /** The sections added to `export_data`, in order: each of the four whose
      name is among the requested data types. */
  function ExportedSections(dataTypes: seq<string>): (r: seq<string>)
    ensures forall s :: s in r <==> s in AllDataTypes && s in dataTypes
    ensures |r| <= 4
  {
    When("analytics" in dataTypes, "analytics")
    + When("appliances" in dataTypes, "appliances")
    + When("bills" in dataTypes, "bills")
    + When("carbon" in dataTypes, "carbon")
  }

  /** The answer of `export_user_data` with the section contents left out:
      the file name and its download URL, the data types echoed, the expiry
      24 hours ahead, and the included sections only for the "json" format. */
  datatype Export = Export(
    filename: string,
    format: string,
    dataTypes: seq<string>,
    downloadUrl: string,
    expiresAt: real,
    data: Option<seq<string>>)

  /** `export_user_data`; `timestamp` is the formatted clock reading. */
  function ExportUserData(userId: string, format: string, dataTypes: Option<seq<string>>,
                          timestamp: string, now: real): (e: Export)
    ensures e.dataTypes == (if dataTypes.None? then AllDataTypes else dataTypes.value)
    ensures e.filename == "user_data_" + userId + "_" + timestamp + "." + format
    ensures e.downloadUrl == "/downloads/" + e.filename
    ensures e.expiresAt == now + 86400.0
    ensures e.data.Some? <==> format == "json"
    ensures e.data.Some? ==> e.data.value == ExportedSections(e.dataTypes)
  {
    var types := if dataTypes.None? then AllDataTypes else dataTypes.value;
    var filename := "user_data_" + userId + "_" + timestamp + "." + format;
    Export(filename, format, types, "/downloads/" + filename, now + 86400.0,
           if format == "json" then Some(ExportedSections(types)) else None)
  }

  /** Without a data-type list a JSON export holds all four sections, in
      order; the download URL always ends with the requested format. */
  lemma DefaultExportHoldsEverything(userId: string, timestamp: string, now: real, format: string)
    ensures ExportUserData(userId, "json", None, timestamp, now).data == Some(AllDataTypes)
    ensures var url := ExportUserData(userId, format, None, timestamp, now).downloadUrl;
            |url| > |format| && url[|url| - |format|..] == format && url[|url| - |format| - 1] == '.'
  {
    assert AllDataTypes[0] == "analytics" && AllDataTypes[1] == "appliances";
    assert AllDataTypes[2] == "bills" && AllDataTypes[3] == "carbon";
    assert ExportedSections(AllDataTypes) == ["analytics"] + ["appliances"] + ["bills"] + ["carbon"] == AllDataTypes;
    var url := ExportUserData(userId, format, None, timestamp, now).downloadUrl;
    assert url == ("/downloads/" + "user_data_" + userId + "_" + timestamp + ".") + format;
  }
}

=== FILE: smart_system.dfy ===
/** The decision rules of Pages/smart_automated_system.py: property-type
    detection, roof-area estimate, regional electricity rates, the solar
    feasibility score and the recommendations built from it. Location data
    that the source fetches over the network is a field set by the caller;
    the current month is a parameter. */
module SmartSystem {
  import opened Wrappers
  import opened Text

  /** The fields of `location_data` the rules read; `None` is an absent key. */
  datatype LocationData = LocationData(
    city: Option<string>, state: Option<string>, country: Option<string>, zipcode: Option<string>)

  function OrEmpty(s: Option<string>): string {
    if s.None? then "" else s.value
  }

  // ---------- Property type ----------

  const ApartmentWords: seq<string> := ["apt", "apartment", "unit", "floor"]
  const TownhouseWords: seq<string> := ["townhouse", "town house", "row house"]
  const CommercialWords: seq<string> := ["office", "commercial", "business", "industrial"]

  /** `any(word in text for word in words)` */
  predicate AnyWord(text: string, words: seq<string>) {
    exists i :: 0 <= i < |words| && Contains(text, words[i])
  }

  /** The keyword rules on an already chosen address. */
  function PropertyTypeOf(address: string): (t: string)
    ensures t == "apartment" <==> AnyWord(Lower(address), ApartmentWords)
    ensures t == "townhouse" <==> !AnyWord(Lower(address), ApartmentWords) && AnyWord(Lower(address), TownhouseWords)
    ensures t == "commercial" <==> !AnyWord(Lower(address), ApartmentWords) && !AnyWord(Lower(address), TownhouseWords)
                                   && AnyWord(Lower(address), CommercialWords)
    ensures t == "single_family" <==> !AnyWord(Lower(address), ApartmentWords) && !AnyWord(Lower(address), TownhouseWords)
                                      && !AnyWord(Lower(address), CommercialWords)
  {
    var text := Lower(address);
    if AnyWord(text, ApartmentWords) then "apartment"
    else if AnyWord(text, TownhouseWords) then "townhouse"
    else if AnyWord(text, CommercialWords) then "commercial"
    else "single_family"
  }

  /** An apartment keyword wins even when other keywords occur too. */
  lemma ApartmentKeywordWins(address: string)
    requires Contains(Lower(address), "apt")
    ensures PropertyTypeOf(address) == "apartment"
  {
    assert ApartmentWords[0] == "apt";
  }

  /** Property records: average roof area in square metres. */
  const RoofAreas: map<string, real> := map[
    "single_family" := 120.0, "townhouse" := 80.0, "apartment" := 40.0, "commercial" := 500.0]

  /** Every average roof area scaled by a location multiplier lies
      between 40 and 750. */
  lemma RoofAreaScaled(t: string, f: real)
    requires t in RoofAreas && 1.0 <= f <= 1.5
    ensures 40.0 <= RoofAreas[t] * f <= 750.0
  {
    var a := RoofAreas[t];
    assert 40.0 <= a <= 500.0;
    assert a * f - a == a * (f - 1.0);
    assert a * (f - 1.0) <= 500.0 * 0.5;
  }

  const SuburbanStates: seq<string> := ["TX", "CA", "FL", "NY", "PA", "OH", "IL", "GA", "NC", "MI"]
  const RuralStates: seq<string> := ["MT", "ND", "SD", "WY", "AK"]

  /** The location multiplier for US addresses: 1.2 for the suburban states,
      1.5 for the rural ones, 1.0 elsewhere. */
  function RoofMultiplier(location: LocationData): (f: real)
    ensures 1.0 <= f <= 1.5
    ensures location.country != Some("US") ==> f == 1.0
    ensures location.country == Some("US") && OrEmpty(location.state) in SuburbanStates ==> f == 1.2
    ensures location.country == Some("US") && OrEmpty(location.state) in RuralStates ==> f == 1.5
    ensures OrEmpty(location.state) !in SuburbanStates && OrEmpty(location.state) !in RuralStates ==> f == 1.0
  {
    if location.country == Some("US") then
      var state := OrEmpty(location.state);
      (if state in SuburbanStates then 1.2 else 1.0) * (if state in RuralStates then 1.5 else 1.0)
    else 1.0
  }

  // ---------- Electricity rates ----------

  /** `int(zipcode[:3]) if zipcode and zipcode.isdigit() else 100`. */
  function ZipInt(zipcode: Option<string>): (n: nat)
    ensures n <= 999
    ensures zipcode.None? || !IsDigits(zipcode.value) ==> n == 100
    ensures zipcode.Some? && IsDigits(zipcode.value) ==>
              n == DigitsValue(if |zipcode.value| <= 3 then zipcode.value else zipcode.value[..3])
  {
    if zipcode.Some? && IsDigits(zipcode.value) then
      var prefix := if |zipcode.value| <= 3 then zipcode.value else zipcode.value[..3];
      DigitsValueBound(prefix);
      assert Pow10(1) == 10 && Pow10(2) == 100 && Pow10(3) == 1000;
      DigitsValue(prefix)
    else 100
  }

  /** The region of a three-digit zip prefix. */
  function Region(zipInt: int): (region: string)
    ensures 100 <= zipInt <= 199 <==> region == "northeast"
    ensures 900 <= zipInt <= 999 <==> region == "west_coast"
    ensures 700 <= zipInt <= 799 <==> region == "southwest"
    ensures 300 <= zipInt <= 399 <==> region == "southeast"
    ensures 400 <= zipInt <= 499 <==> region == "midwest"
    ensures 800 <= zipInt <= 899 <==> region == "mountain"
    ensures region == "default" <==> (zipInt < 100 || (200 <= zipInt <= 299) || (500 <= zipInt <= 699) || zipInt > 999)
  {
    if 100 <= zipInt <= 199 then "northeast"
    else if 900 <= zipInt <= 999 then "west_coast"
    else if 700 <= zipInt <= 799 then "southwest"
    else if 300 <= zipInt <= 399 then "southeast"
    else if 400 <= zipInt <= 499 then "midwest"
    else if 800 <= zipInt <= 899 then "mountain"
    else "default"
  }

  const DefaultRates: map<string, real> := map[
    "northeast" := 0.22, "west_coast" := 0.18, "southwest" := 0.12, "southeast" := 0.14,
    "midwest" := 0.16, "mountain" := 0.11, "default" := 0.15]

  /** The seasonal adjustment: 1.15 in June-August, 1.10 in December-February. */
  function SeasonalFactor(month: int): (f: real)
    ensures 6 <= month <= 8 ==> f == 1.15
    ensures month == 12 || month == 1 || month == 2 ==> f == 1.10
    ensures !(6 <= month <= 8) && month != 12 && month != 1 && month != 2 ==> f == 1.0
  {
    if month == 6 || month == 7 || month == 8 then 1.15
    else if month == 12 || month == 1 || month == 2 then 1.10
    else 1.0
  }

  /** A base rate in [0.11, 0.22] scaled by a seasonal factor stays within
      [0.11, 0.253]. */
  lemma RateBounds(baseRate: real, month: int)
    requires 0.11 <= baseRate <= 0.22
    ensures 0.11 <= baseRate * SeasonalFactor(month) <= 0.253
  {
    if SeasonalFactor(month) == 1.15 {
      assert baseRate * 1.15 <= 0.22 * 1.15;
    } else if SeasonalFactor(month) == 1.10 {
      assert baseRate * 1.10 <= 0.22 * 1.10;
    }
  }

  /** Every region has a default rate, between 0.11 and 0.22. */
  lemma RegionRates(zipInt: int)
    ensures Region(zipInt) in DefaultRates
    ensures 0.11 <= DefaultRates[Region(zipInt)] <= 0.22
  {
    var region := Region(zipInt);
    assert region in {"northeast", "west_coast", "southwest", "southeast", "midwest", "mountain", "default"};
  }

  datatype ElectricityRates = ElectricityRates(
    currentRate: real, baseRate: real, region: string, seasonalFactor: real, zipcode: Option<string>)

  const DefaultZipcode: string := "10001"

  /** The rates record for a base rate in `month`. */
  function SeasonalRates(baseRate: real, month: int, region: string, zipcode: Option<string>): (r: ElectricityRates)
    requires 0.11 <= baseRate <= 0.22
    ensures r.currentRate == r.baseRate * r.seasonalFactor
    ensures r.baseRate == baseRate && r.seasonalFactor == SeasonalFactor(month) && r.region == region
    ensures 0.11 <= r.currentRate <= 0.253
  {
    RateBounds(baseRate, month);
    ElectricityRates(baseRate * SeasonalFactor(month), baseRate, region, SeasonalFactor(month), zipcode)
  }

  /** The region and season logic of `get_electricity_rates` before
      rounding, for the chosen zip code and the month of the clock: the
      region's default rate times the seasonal factor. */
  function RatesFor(zipcode: Option<string>, month: int): (r: ElectricityRates)
    ensures r.region == Region(ZipInt(zipcode)) && r.baseRate == DefaultRates[r.region]
    ensures r.seasonalFactor == SeasonalFactor(month)
    ensures r.currentRate == r.baseRate * r.seasonalFactor
    ensures 0.11 <= r.currentRate <= 0.253
  {
    var region := Region(ZipInt(zipcode));
    RegionRates(ZipInt(zipcode));
    var baseRate := DefaultRates[region];
    SeasonalRates(baseRate, month, region, zipcode)
  }

  /** A missing or non-numeric zip code is priced as the northeast. */
  lemma MissingZipIsNortheast(zipcode: Option<string>)
    requires zipcode.None? || !IsDigits(zipcode.value)
    ensures Region(ZipInt(zipcode)) == "northeast"
    ensures DefaultRates[Region(ZipInt(zipcode))] == 0.22
  {
  }

  // ---------- Scores and ratings ----------

  function LatitudePoints(latitude: real): int {
    var lat := AbsReal(latitude);
    if lat < 30.0 then 25 else if lat < 45.0 then 20 else if lat < 60.0 then 15 else -10
  }

  function RoofPoints(roofArea: real): int {
    if roofArea > 100.0 then 15 else if roofArea > 60.0 then 10 else if roofArea > 30.0 then 5 else -5
  }

  function CloudPoints(clouds: real): int {
    if clouds < 30.0 then 10 else if clouds < 60.0 then 5 else -5
  }

  /** `_calculate_solar_score`: the base 50 plus the latitude, roof and cloud
      points, clamped to [0, 100]; the points always keep it within [30, 100],
      so the clamp never changes it. */
  method SolarScore(latitude: real, roofArea: real, clouds: real) returns (score: int)
    ensures score == 50 + LatitudePoints(latitude) + RoofPoints(roofArea) + CloudPoints(clouds)
    ensures 30 <= score <= 100
  {
    score := 50;
    var lat := AbsReal(latitude);
    if lat < 30.0 {
      score := score + 25;
    } else if lat < 45.0 {
      score := score + 20;
    } else if lat < 60.0 {
      score := score + 15;
    } else {
      score := score - 10;
    }
    if roofArea > 100.0 {
      score := score + 15;
    } else if roofArea > 60.0 {
      score := score + 10;
    } else if roofArea > 30.0 {
      score := score + 5;
    } else {
      score := score - 5;
    }
    if clouds < 30.0 {
      score := score + 10;
    } else if clouds < 60.0 {
      score := score + 5;
    } else {
      score := score - 5;
    }
    var clamped := if score > 100 then 100 else score;
    score := if clamped < 0 then 0 else clamped;
  }

  /** `_get_rating` */
  function Rating(score: int): (r: string)
    ensures r == "Excellent" <==> score >= 80
    ensures r == "Good" <==> 60 <= score < 80
    ensures r == "Fair" <==> 40 <= score < 60
    ensures r == "Poor" <==> score < 40
  {
    if score >= 80 then "Excellent" else if score >= 60 then "Good" else if score >= 40 then "Fair" else "Poor"
  }

  /** The solar priority of the recommendations. */
  function SolarPriority(score: int): (p: string)
    ensures p == "high" <==> score > 70
    ensures p == "medium" <==> 40 < score <= 70
    ensures p == "low" <==> score <= 40
  {
    if score > 70 then "high" else if score > 40 then "medium" else "low"
  }

  /** An "Excellent" site always has "high" priority, and a "Poor" one never does. */
  lemma RatingAgreesWithPriority(score: int)
    ensures Rating(score) == "Excellent" ==> SolarPriority(score) == "high"
    ensures Rating(score) == "Poor" ==> SolarPriority(score) == "low"
  {
  }

  /** `_calculate_appliance_priority`: commercial, then an expensive rate,
      then single-family, in that order. */
  function AppliancePriority(propertyType: string, currentRate: real): (p: string)
    ensures p == "high" <==> propertyType == "commercial" || currentRate > 0.20
    ensures p == "medium" <==> propertyType != "commercial" && currentRate <= 0.20 && propertyType == "single_family"
    ensures p == "low" <==> propertyType != "commercial" && currentRate <= 0.20 && propertyType != "single_family"
  {
    if propertyType == "commercial" then "high"
    else if currentRate > 0.20 then "high"
    else if propertyType == "single_family" then "medium"
    else "low"
  }

  // ---------- Payback ----------

  /** Python's `round(x)` to an integer: to the nearest, ties to even. */
  function RoundHalfEven(x: real): (n: int)
    ensures x - 0.5 <= n as real <= x + 0.5
    ensures x - x.Floor as real != 0.5 ==> x - 0.5 < n as real < x + 0.5
    ensures x - x.Floor as real == 0.5 ==> n % 2 == 0
  {
    var f := x.Floor;
    var diff := x - f as real;
    if diff < 0.5 then f
    else if diff > 0.5 then f + 1
    else if f % 2 == 0 then f
    else f + 1
  }

  /** `_estimate_payback_period`: installed cost over yearly savings, rounded
      and clamped to [5, 25]; 25 when there are no savings. */
  function PaybackPeriod(roofArea: real, savingsPotential: real): (years: int)
    ensures 5 <= years <= 25
    ensures savingsPotential * 0.15 <= 0.0 ==> years == 25
    ensures savingsPotential * 0.15 > 0.0 ==>
              var ratio := (roofArea * 0.8 * 400.0 * 3.0) / (savingsPotential * 0.15);
              (ratio <= 4.5 ==> years == 5) && (ratio >= 25.5 ==> years == 25)
              && (5.5 <= ratio <= 24.5 ==> ratio - 0.5 <= years as real <= ratio + 0.5)
    ensures savingsPotential * 0.15 > 0.0 ==>
              var n := RoundHalfEven((roofArea * 0.8 * 400.0 * 3.0) / (savingsPotential * 0.15));
              years == if n < 5 then 5 else if n > 25 then 25 else n
  {
    var systemCost := roofArea * 0.8 * 400.0 * 3.0;
    var annualSavings := savingsPotential * 0.15;
    if annualSavings > 0.0 then
      var rounded := RoundHalfEven(systemCost / annualSavings);
      var capped := if rounded < 25 then rounded else 25;
      if capped > 5 then capped else 5
    else 25
  }

  // ---------- Action items and next steps ----------

  const ConsultationLine := "Schedule solar consultation - excellent potential"
  const FeasibilityLine := "Consider solar feasibility study"
  const HealthMonitoringLine := "Implement appliance health monitoring system"
  const EnergyAuditLine := "Schedule energy audit"
  const EfficiencyLine := "High savings potential - prioritize energy efficiency"
  const MonitorLine := "Monitor monthly energy usage patterns"
  const SmartHomeLine := "Consider smart home energy management"

  /** The seven action lines are different texts. */
  lemma ActionLinesDistinct()
    ensures ConsultationLine != FeasibilityLine && ConsultationLine != HealthMonitoringLine
            && ConsultationLine != EnergyAuditLine && ConsultationLine != EfficiencyLine
            && ConsultationLine != MonitorLine && ConsultationLine != SmartHomeLine
    ensures FeasibilityLine != HealthMonitoringLine && FeasibilityLine != EnergyAuditLine
            && FeasibilityLine != EfficiencyLine && FeasibilityLine != MonitorLine && FeasibilityLine != SmartHomeLine
    ensures HealthMonitoringLine != EnergyAuditLine && HealthMonitoringLine != EfficiencyLine
            && HealthMonitoringLine != MonitorLine && HealthMonitoringLine != SmartHomeLine
    ensures EnergyAuditLine != EfficiencyLine && EnergyAuditLine != MonitorLine && EnergyAuditLine != SmartHomeLine
    ensures EfficiencyLine != MonitorLine && EfficiencyLine != SmartHomeLine
  {
  }

  /** The lines of `_generate_action_items` in order: the score line, the
      two high-priority lines, the savings line, then always the two
      monitoring lines. */
  function ActionItemList(solarScore: int, appliancePriority: string, savingsPotential: real): (a: seq<string>)
    ensures |a| >= 2 && a[|a| - 2..] == [MonitorLine, SmartHomeLine]
    ensures |a| == 2 + (if solarScore > 40 then 1 else 0) + (if appliancePriority == "high" then 2 else 0)
                   + (if savingsPotential > 5000.0 then 1 else 0)
    ensures solarScore > 70 && appliancePriority == "high" && savingsPotential > 5000.0 ==>
              a == [ConsultationLine, HealthMonitoringLine, EnergyAuditLine, EfficiencyLine, MonitorLine, SmartHomeLine]
  {
    var solar := if solarScore > 70 then [ConsultationLine]
                 else if solarScore > 40 then [FeasibilityLine] else [];
    var health := if appliancePriority == "high" then solar + [HealthMonitoringLine] + [EnergyAuditLine] else solar;
    var savings := if savingsPotential > 5000.0 then health + [EfficiencyLine] else health;
    savings + [MonitorLine] + [SmartHomeLine]
  }

  /** The solar line: consultation above a score of 70, a feasibility study
      above 40. */
  lemma ActionItemSolarLine(solarScore: int, appliancePriority: string, savingsPotential: real)
    ensures var a := ActionItemList(solarScore, appliancePriority, savingsPotential);
            (ConsultationLine in a <==> solarScore > 70) && (FeasibilityLine in a <==> 40 < solarScore <= 70)
  {
    ActionLinesDistinct();
  }

  /** Monitoring and an audit exactly at high appliance priority. */
  lemma ActionItemPriorityLines(solarScore: int, appliancePriority: string, savingsPotential: real)
    ensures var a := ActionItemList(solarScore, appliancePriority, savingsPotential);
            (HealthMonitoringLine in a <==> appliancePriority == "high") && (EnergyAuditLine in a <==> appliancePriority == "high")
  {
    ActionLinesDistinct();
  }

  /** The efficiency line exactly above 5000 of savings potential. */
  lemma ActionItemSavingsLine(solarScore: int, appliancePriority: string, savingsPotential: real)
    ensures EfficiencyLine in ActionItemList(solarScore, appliancePriority, savingsPotential) <==> savingsPotential > 5000.0
  {
    ActionLinesDistinct();
  }

  /** `_generate_action_items`. */
  method ActionItems(solarScore: int, appliancePriority: string, savingsPotential: real)
    returns (actions: seq<string>)
    ensures actions == ActionItemList(solarScore, appliancePriority, savingsPotential)
  {
    actions := [];
    if solarScore > 70 {
      actions := actions + [ConsultationLine];
    } else if solarScore > 40 {
      actions := actions + [FeasibilityLine];
    }
    if appliancePriority == "high" {
      actions := actions + [HealthMonitoringLine];
      actions := actions + [EnergyAuditLine];
    }
    if savingsPotential > 5000.0 {
      actions := actions + [EfficiencyLine];
    }
    actions := actions + [MonitorLine];
    actions := actions + [SmartHomeLine];
  }

  const QuotesLine := "Get 3+ solar quotes from local installers"
  const IncentivesLine := "Check local solar incentives and rebates"
  const MonitoringDevicesLine := "Install smart energy monitoring devices"
  const ProfessionalAuditLine := "Schedule professional energy audit"
  const ReviewLine := "Review and optimize daily energy usage"
  const TrackingLine := "Set up monthly energy consumption tracking"

  /** The six next-step lines are different texts. */
  lemma NextStepLinesDistinct()
    ensures QuotesLine != IncentivesLine && QuotesLine != MonitoringDevicesLine && QuotesLine != ProfessionalAuditLine
            && QuotesLine != ReviewLine && QuotesLine != TrackingLine
    ensures IncentivesLine != MonitoringDevicesLine && IncentivesLine != ProfessionalAuditLine
            && IncentivesLine != ReviewLine && IncentivesLine != TrackingLine
    ensures MonitoringDevicesLine != ProfessionalAuditLine && MonitoringDevicesLine != ReviewLine
            && MonitoringDevicesLine != TrackingLine
    ensures ProfessionalAuditLine != ReviewLine && ProfessionalAuditLine != TrackingLine
  {
  }

  /** The lines of `_get_next_steps` in order: quotes and incentives above a
      score of 60, monitoring devices and a professional audit at high
      priority, then always the two closing lines. */
  function NextStepList(solarScore: int, appliancePriority: string): (s: seq<string>)
    ensures |s| >= 2 && s[|s| - 2..] == [ReviewLine, TrackingLine]
    ensures |s| == 2 + (if solarScore > 60 then 2 else 0) + (if appliancePriority == "high" then 2 else 0)
    ensures solarScore > 60 && appliancePriority == "high" ==>
              s == [QuotesLine, IncentivesLine, MonitoringDevicesLine, ProfessionalAuditLine, ReviewLine, TrackingLine]
  {
    var solar := if solarScore > 60 then [QuotesLine] + [IncentivesLine] else [];
    var health := if appliancePriority == "high" then solar + [MonitoringDevicesLine] + [ProfessionalAuditLine] else solar;
    health + [ReviewLine] + [TrackingLine]
  }

  /** Each conditional line is listed exactly when its condition holds. */
  lemma NextStepLines(solarScore: int, appliancePriority: string)
    ensures var s := NextStepList(solarScore, appliancePriority);
            (QuotesLine in s <==> solarScore > 60) && (IncentivesLine in s <==> solarScore > 60)
    ensures var s := NextStepList(solarScore, appliancePriority);
            (MonitoringDevicesLine in s <==> appliancePriority == "high")
            && (ProfessionalAuditLine in s <==> appliancePriority == "high")
  {
    NextStepLinesDistinct();
  }

  /** `_get_next_steps`. */
  method NextSteps(solarScore: int, appliancePriority: string) returns (steps: seq<string>)
    ensures steps == NextStepList(solarScore, appliancePriority)
  {
    steps := [];
    if solarScore > 60 {
      steps := steps + [QuotesLine];
      steps := steps + [IncentivesLine];
    }
    if appliancePriority == "high" {
      steps := steps + [MonitoringDevicesLine];
      steps := steps + [ProfessionalAuditLine];
    }
    steps := steps + [ReviewLine];
    steps := steps + [TrackingLine];
  }

  // ---------- The system object ----------

  const ApiKeyNames: set<string> := {"google_maps", "openweather", "utility_api", "nrel"}

  /** The update `set_api_keys` makes for one key: only a non-empty value replaces it. */
  function KeyUpdate(keys: map<string, Option<string>>, name: string, value: Option<string>)
    : map<string, Option<string>>
  {
    if value.Some? && value.value != "" then keys[name := value] else keys
  }

  class SmartAutomatedSystem {
    var locationData: LocationData
    /** `api_keys`: service name -> key (None until set). */
    var apiKeys: map<string, Option<string>>

    constructor ()
      ensures locationData == LocationData(None, None, None, None)
      ensures apiKeys == map k | k in ApiKeyNames :: None
    {
      locationData := LocationData(None, None, None, None);
      apiKeys := map k | k in ApiKeyNames :: None;
    }

    /** `set_api_keys`: each non-empty argument replaces its key; the others
        keep their value. */
    method SetApiKeys(googleMaps: Option<string>, openweather: Option<string>,
                      utilityApi: Option<string>, nrel: Option<string>)
      modifies this
      ensures apiKeys == KeyUpdate(KeyUpdate(KeyUpdate(KeyUpdate(old(apiKeys), "google_maps", googleMaps),
                                                       "openweather", openweather),
                                             "utility_api", utilityApi),
                                   "nrel", nrel)
      ensures locationData == old(locationData)
    {
      if googleMaps.Some? && googleMaps.value != "" {
        apiKeys := apiKeys["google_maps" := googleMaps];
      }
      if openweather.Some? && openweather.value != "" {
        apiKeys := apiKeys["openweather" := openweather];
      }
      if utilityApi.Some? && utilityApi.value != "" {
        apiKeys := apiKeys["utility_api" := utilityApi];
      }
      if nrel.Some? && nrel.value != "" {
        apiKeys := apiKeys["nrel" := nrel];
      }
    }

    /** `auto_detect_property_type`: without an address, the city and state of
        the location joined by a space are examined instead. */
    function AutoDetectPropertyType(address: Option<string>): (t: string)
      reads this
      ensures address.Some? && address.value != "" ==> t == PropertyTypeOf(address.value)
      ensures address.None? || address.value == "" ==>
                t == PropertyTypeOf(OrEmpty(locationData.city) + " " + OrEmpty(locationData.state))
      ensures t in RoofAreas
    {
      if address.Some? && address.value != "" then PropertyTypeOf(address.value)
      else PropertyTypeOf(OrEmpty(locationData.city) + " " + OrEmpty(locationData.state))
    }

    /** The property type `estimate_roof_area` looks up: the argument when
        non-empty, else the one detected from the address. */
    function ChosenPropertyType(propertyType: Option<string>, address: Option<string>): string
      reads this
    {
      if propertyType.Some? && propertyType.value != "" then propertyType.value
      else AutoDetectPropertyType(address)
    }

    /** `estimate_roof_area` before rounding: the property type's average
        area times the location multiplier; an unknown type raises `KeyError`,
        and a missing type is detected from the address. */
    function EstimateRoofArea(propertyType: Option<string>, address: Option<string>): (r: Result<real>)
      reads this
      ensures r.Ok? <==> ChosenPropertyType(propertyType, address) in RoofAreas
      ensures r.Err? ==> r.error == KeyError
      ensures propertyType.None? || propertyType.value == "" ==> r.Ok?
      ensures r.Ok? ==> r.value == RoofAreas[ChosenPropertyType(propertyType, address)] * RoofMultiplier(locationData)
      ensures r.Ok? ==> 40.0 <= r.value <= 750.0
    {
      var t := ChosenPropertyType(propertyType, address);
      if t !in RoofAreas then Err(KeyError)
      else
        var area := RoofAreas[t];
        var f := RoofMultiplier(locationData);
        RoofAreaScaled(t, f);
        Ok(area * f)
    }

    /** The zip code `get_electricity_rates` prices: the argument, else the
        location's, else "10001". */
    function ZipcodeFor(zipcode: Option<string>): (z: Option<string>)
      reads this
      ensures zipcode.Some? && zipcode.value != "" ==> z == zipcode
      ensures (zipcode.None? || zipcode.value == "") && locationData.zipcode.Some? ==> z == locationData.zipcode
      ensures (zipcode.None? || zipcode.value == "") && locationData.zipcode.None? ==> z == Some("10001")
    {
      if zipcode.Some? && zipcode.value != "" then zipcode
      else if locationData.zipcode.Some? then locationData.zipcode
      else Some(DefaultZipcode)
    }
  }
}

=== FILE: tariff_cache.dfy ===
/** The in-memory TTL cache of app/tariff_cache.py: a dictionary from keys to
    (expiry instant, value) pairs with lazy expiry. The wall clock read by the
    source (`time.time()`) is the parameter `now`, in seconds. */
module TariffCache {
  import opened Wrappers

  /** A stored record: the instant it stops being served, and the value. */
  datatype Entry<V> = Entry(expiresAt: real, value: V)

  /** `now + max(0, ttl_seconds)`: a negative TTL behaves like 0. */
  function ExpiryAfter(now: real, ttlSeconds: int): (t: real)
    ensures t >= now
    ensures ttlSeconds <= 0 ==> t == now
    ensures ttlSeconds > 0 ==> t == now + ttlSeconds as real
  {
    now + (if ttlSeconds > 0 then ttlSeconds as real else 0.0)
  }

  /** What `get(key)` returns against `store` at instant `now`. */
  function Lookup<V>(store: map<string, Entry<V>>, key: string, now: real): (r: Option<V>)
    ensures r.Some? <==> key in store && now < store[key].expiresAt
    ensures r.Some? ==> r.value == store[key].value
  {
    if key !in store then None
    else if now >= store[key].expiresAt then None
    else Some(store[key].value)
  }

  /** The store left behind by `get(key)` at `now`: an entry read at or after
      its expiry is popped, every other entry stays. */
  function AfterGet<V>(store: map<string, Entry<V>>, key: string, now: real): (s: map<string, Entry<V>>)
    ensures key in store && now >= store[key].expiresAt ==> s == store - {key}
    ensures !(key in store && now >= store[key].expiresAt) ==> s == store
  {
    if key in store && now >= store[key].expiresAt then store - {key} else store
  }

  /** The store left behind by `set(key, value, ttl)` at `now`. */
  function AfterSet<V>(store: map<string, Entry<V>>, key: string, value: V, ttlSeconds: int, now: real)
    : (s: map<string, Entry<V>>)
    ensures s.Keys == store.Keys + {key}
    ensures s[key] == Entry(ExpiryAfter(now, ttlSeconds), value)
    ensures forall k :: k in store && k != key ==> s[k] == store[k]
  {
    store[key := Entry(ExpiryAfter(now, ttlSeconds), value)]
  }

  class InMemoryTTLCache<V> {
    /** `_store`: key -> (expires_at, value). */
    var store: map<string, Entry<V>>

    constructor ()
      ensures store == map[]
    {
      store := map[];
    }

    /** `get`: absent key -> None; expired -> None and the entry is popped;
        otherwise the stored value and the store is left as it was. */
    method Get(key: string, now: real) returns (r: Option<V>)
      modifies this
      ensures key !in old(store) ==> r == None && store == old(store)
      ensures key in old(store) && now >= old(store)[key].expiresAt ==>
                r == None && store == old(store) - {key}
      ensures key in old(store) && now < old(store)[key].expiresAt ==>
                r == Some(old(store)[key].value) && store == old(store)
      ensures r == Lookup(old(store), key, now) && store == AfterGet(old(store), key, now)
    {
      if key !in store {
        return None;
      }
      var record := store[key];
      if now >= record.expiresAt {
        store := store - {key};
        return None;
      }
      return Some(record.value);
    }

    /** `set`: overwrite the entry for `key` with expiry `now + max(0, ttl)`. */
    method Set(key: string, value: V, ttlSeconds: int, now: real)
      modifies this
      ensures store == old(store)[key := Entry(ExpiryAfter(now, ttlSeconds), value)]
      ensures store == AfterSet(old(store), key, value, ttlSeconds, now)
    {
      store := store[key := Entry(now + (if ttlSeconds > 0 then ttlSeconds as real else 0.0), value)];
    }
  }

  /** A value set at `setAt` is served exactly while `now < setAt + max(0, ttl)`. */
  lemma SetThenLookup<V>(store: map<string, Entry<V>>, key: string, value: V, ttlSeconds: int, setAt: real, now: real)
    ensures Lookup(AfterSet(store, key, value, ttlSeconds, setAt), key, now)
            == if now < ExpiryAfter(setAt, ttlSeconds) then Some(value) else None
  {
  }

  /** An entry set with a TTL of zero or less is never returned by a read at
      or after the instant it was set. */
  lemma NonPositiveTtlNeverServed<V>(store: map<string, Entry<V>>, key: string, value: V, ttlSeconds: int, setAt: real, now: real)
    requires ttlSeconds <= 0 && now >= setAt
    ensures Lookup(AfterSet(store, key, value, ttlSeconds, setAt), key, now) == None
  {
  }

  /** Set and get touch only the named key. */
  lemma OtherKeysUntouched<V>(store: map<string, Entry<V>>, key: string, other: string, value: V, ttlSeconds: int, now: real, later: real)
    requires other != key
    ensures Lookup(AfterSet(store, key, value, ttlSeconds, now), other, later) == Lookup(store, other, later)
    ensures Lookup(AfterGet(store, key, now), other, later) == Lookup(store, other, later)
  {
  }

  /** Lazy eviction is unobservable: with time moving forward, every later read
      sees the same answer whether or not an earlier read popped the entry. */
  lemma EvictionUnobservable<V>(store: map<string, Entry<V>>, key: string, readAt: real, later: real)
    requires readAt <= later
    ensures Lookup(AfterGet(store, key, readAt), key, later) == Lookup(store, key, later)
  {
  }

  /** The cache back-ends `get_cache` can hand out. */
  datatype Backend = InMemory | Redis

  /** `get_cache(prefer_redis)`: in-memory unless Redis is preferred; when the
      Redis client cannot be constructed (`RuntimeError`, here
      `redisUnavailable`) the in-memory cache is used instead. */
  function GetCache(preferRedis: bool, redisUnavailable: bool): (b: Backend)
    ensures b == Redis <==> preferRedis && !redisUnavailable
  {
    if preferRedis then
      if redisUnavailable then InMemory else Redis
    else InMemory
  }
}

=== FILE: tariff_engine.dfy ===
/** The dynamic slab-tariff engine of app/tariff_engine.py.
    A tariff file maps a state to categories, and each category to a rate
    table: slab rows, an optional flat rate and fixed charge, and optional
    season and time-of-day multiplier maps. The engine resolves a table
    (cache first, then the file), walks the slabs to price a number of units,
    scales the amount by the season and time-of-day factors and adds the fixed
    charge. Money, units and factors are reals; the file contents, the clock
    and the current month are parameters. */
module TariffEngine {
  import opened Wrappers
  import opened Text
  import TariffCache

  // ---------- Data model ----------

  /** One row of a table's "slabs" list, recording which of the keys
      "above", "upto" and "rate" it carries (the value of "above" is unused). */
  datatype SlabRow = SlabRow(above: bool, upto: Option<real>, rate: Option<real>)

  /** A parsed tier: `upto == None` is the unbounded ("above") tier. */
  datatype SlabLine = SlabLine(upto: Option<real>, rate: real)

  /** A multiplier map in key order: label -> factor. */
  type Multipliers = seq<(string, real)>

  /** A category's rate table; `None` is a key the JSON object does not have,
      and `otherKeys` says whether it has any key the engine does not read
      (a name or a note, say), which still makes the object non-empty. */
  datatype TariffTable = TariffTable(
    slabs: Option<seq<SlabRow>>,
    flatRate: Option<real>,
    fixedCharge: Option<real>,
    seasonMultipliers: Option<Multipliers>,
    todMultipliers: Option<Multipliers>,
    otherKeys: bool)

  /** The JSON object `{}`, which Python treats as false. */
  predicate IsEmptyObject(t: TariffTable) {
    t.slabs.None? && t.flatRate.None? && t.fixedCharge.None?
    && t.seasonMultipliers.None? && t.todMultipliers.None? && !t.otherKeys
  }

  /** The loaded tariff file: state -> category -> table. */
  type TariffData = map<string, map<string, TariffTable>>

  datatype TariffContext = TariffContext(
    state: string, category: string, season: Option<string>, timeOfDay: Option<string>)

  /** The breakdown `compute_bill` returns (before rounding). */
  datatype Bill = Bill(
    units: real, baseAmount: real, seasonFactor: real, todFactor: real,
    fixedCharge: real, totalAmount: real)

  /** The TTL `get_tariff_table` caches a table for, in seconds. */
  const TableTtlSeconds: int := 3600

  // ---------- Parsing slab rows (_parse_slabs) ----------

  function MaxOf(s: seq<real>): (m: real)
    requires |s| > 0
    ensures forall i :: 0 <= i < |s| ==> s[i] <= m
    ensures exists i :: 0 <= i < |s| && s[i] == m
  {
    if |s| == 1 then s[0] else MaxReal(MaxOf(s[..|s| - 1]), s[|s| - 1])
  }

  predicate StrictlyIncreasing(s: seq<real>) {
    forall i, j :: 0 <= i < j < |s| ==> s[i] < s[j]
  }

  /** The `upto` values of the bounded tiers, in order. */
  function BoundedUptos(lines: seq<SlabLine>): seq<real>
    decreases |lines|
  {
    if |lines| == 0 then []
    else BoundedUptos(lines[..|lines| - 1])
         + (if lines[|lines| - 1].upto.Some? then [lines[|lines| - 1].upto.value] else [])
  }

  function CountUnbounded(lines: seq<SlabLine>): nat
    decreases |lines|
  {
    if |lines| == 0 then 0
    else CountUnbounded(lines[..|lines| - 1]) + (if lines[|lines| - 1].upto.None? then 1 else 0)
  }

  function CountAbove(rows: seq<SlabRow>): nat
    decreases |rows|
  {
    if |rows| == 0 then 0
    else CountAbove(rows[..|rows| - 1]) + (if rows[|rows| - 1].above then 1 else 0)
  }

  /** The loop state of `_parse_slabs`: `parsed` and `upper_seen`. */
  datatype ParseState = ParseState(parsed: seq<SlabLine>, upperSeen: seq<real>)

  /** One iteration of `_parse_slabs`. A row whose "rate" is read but missing
      raises `KeyError`. */
  function ParseRow(st: ParseState, row: SlabRow): Result<ParseState> {
    if row.above then
      if row.rate.None? then Err(KeyError)
      else Ok(ParseState(st.parsed + [SlabLine(None, row.rate.value)], st.upperSeen))
    else if row.upto.Some? then
      if |st.upperSeen| > 0 && row.upto.value <= MaxOf(st.upperSeen) then Ok(st)
      else if row.rate.None? then Err(KeyError)
      else Ok(ParseState(st.parsed + [SlabLine(row.upto, row.rate.value)],
                         st.upperSeen + [row.upto.value]))
    else Ok(st)
  }

  /** `_parse_slabs` over a list of rows, as a left fold of `ParseRow`. */
  function ParseRows(rows: seq<SlabRow>): (r: Result<ParseState>)
    ensures r.Err? ==> r.error == KeyError
    ensures r.Ok? ==> |r.value.parsed| <= |rows| && |r.value.upperSeen| <= |rows|
    decreases |rows|
  {
    if |rows| == 0 then Ok(ParseState([], []))
    else
      match ParseRows(rows[..|rows| - 1])
      case Err(e) => Err(e)
      case Ok(st) => ParseRow(st, rows[|rows| - 1])
  }

  /** `ParseRows` unfolded at the last row. */
  lemma ParseSnoc(rows: seq<SlabRow>, row: SlabRow)
    ensures ParseRows(rows + [row]) == if ParseRows(rows).Err? then ParseRows(rows) else ParseRow(ParseRows(rows).value, row)
  {
    assert (rows + [row])[..|rows|] == rows;
  }

  lemma MaxOfIncreasing(s: seq<real>)
    requires |s| > 0 && StrictlyIncreasing(s)
    ensures MaxOf(s) == s[|s| - 1]
  {
  }

  /** One step keeps the parse invariant: the bounded tiers' bounds are
      exactly `upper_seen`, and they strictly increase. */
  lemma ParseRowKeepsInvariant(st: ParseState, row: SlabRow)
    requires BoundedUptos(st.parsed) == st.upperSeen && StrictlyIncreasing(st.upperSeen)
    requires ParseRow(st, row).Ok?
    ensures var st' := ParseRow(st, row).value;
            BoundedUptos(st'.parsed) == st'.upperSeen && StrictlyIncreasing(st'.upperSeen)
            && CountUnbounded(st'.parsed) == CountUnbounded(st.parsed) + (if row.above then 1 else 0)
  {
    var st' := ParseRow(st, row).value;
    if st'.parsed != st.parsed {
      assert st'.parsed[..|st'.parsed| - 1] == st.parsed;
    }
  }

  /** An exception stops the parse: once a prefix fails, the whole list fails
      with the same error. */
  lemma {:induction false} ParseErrorSticks(rows: seq<SlabRow>, k: nat, e: Error)
    requires k <= |rows| && ParseRows(rows[..k]) == Err(e)
    ensures ParseRows(rows) == Err(e)
    decreases |rows| - k
  {
    if k < |rows| {
      assert rows[..k + 1][..k] == rows[..k];
      ParseErrorSticks(rows, k + 1, e);
    } else {
      assert rows[..k] == rows;
    }
  }

  /** Every successful parse yields bounded tiers with strictly increasing
      `upto`, and exactly one unbounded tier per "above" row. */
  lemma {:induction false} ParseInvariant(rows: seq<SlabRow>)
    requires ParseRows(rows).Ok?
    ensures var st := ParseRows(rows).value;
            BoundedUptos(st.parsed) == st.upperSeen && StrictlyIncreasing(st.upperSeen)
            && StrictlyIncreasing(BoundedUptos(st.parsed))
            && CountUnbounded(st.parsed) == CountAbove(rows)
  {
    if |rows| > 0 {
      ParseInvariant(rows[..|rows| - 1]);
      ParseRowKeepsInvariant(ParseRows(rows[..|rows| - 1]).value, rows[|rows| - 1]);
    }
  }

  /** A bounded row whose `upto` does not exceed the largest bound accepted so
      far is dropped (and its rate is never read). */
  lemma ParseDropsStaleBound(rows: seq<SlabRow>, row: SlabRow)
    requires ParseRows(rows).Ok? && |ParseRows(rows).value.upperSeen| > 0
    requires !row.above && row.upto.Some?
    requires row.upto.value <= ParseRows(rows).value.upperSeen[|ParseRows(rows).value.upperSeen| - 1]
    ensures ParseRows(rows + [row]) == ParseRows(rows)
  {
    ParseInvariant(rows);
    MaxOfIncreasing(ParseRows(rows).value.upperSeen);
    assert (rows + [row])[..|rows|] == rows;
  }

  /** A bounded row whose `upto` exceeds every bound accepted so far is
      appended as a tier, and its bound is recorded. */
  lemma FreshBoundAppended(rows: seq<SlabRow>, row: SlabRow)
    requires ParseRows(rows).Ok?
    requires !row.above && row.upto.Some? && row.rate.Some?
    requires forall u :: u in ParseRows(rows).value.upperSeen ==> u < row.upto.value
    ensures var st := ParseRows(rows).value;
            ParseRows(rows + [row]) == Ok(ParseState(st.parsed + [SlabLine(row.upto, row.rate.value)], st.upperSeen + [row.upto.value]))
  {
    var st := ParseRows(rows).value;
    ParseInvariant(rows);
    if |st.upperSeen| > 0 {
      MaxOfIncreasing(st.upperSeen);
      assert st.upperSeen[|st.upperSeen| - 1] in st.upperSeen;
    }
    ParseSnoc(rows, row);
  }

  /** A row the parser keeps (an "above" row, or a bounded row above every
      accepted bound) that has no "rate" raises `KeyError`. */
  lemma KeptRowWithoutRateRaises(rows: seq<SlabRow>, row: SlabRow)
    requires ParseRows(rows).Ok? && row.rate.None?
    requires row.above || (row.upto.Some? && forall u :: u in ParseRows(rows).value.upperSeen ==> u < row.upto.value)
    ensures ParseRows(rows + [row]) == Err(KeyError)
  {
    var st := ParseRows(rows).value;
    ParseInvariant(rows);
    if |st.upperSeen| > 0 {
      MaxOfIncreasing(st.upperSeen);
      assert st.upperSeen[|st.upperSeen| - 1] in st.upperSeen;
    }
    ParseSnoc(rows, row);
  }

  /** An "above" row becomes an unbounded tier; a row with neither key is dropped. */
  lemma ParseAboveAndKeyless(rows: seq<SlabRow>, row: SlabRow)
    requires ParseRows(rows).Ok?
    ensures row.above && row.rate.Some? ==>
              ParseRows(rows + [row]) == Ok(ParseState(ParseRows(rows).value.parsed + [SlabLine(None, row.rate.value)],
                                                       ParseRows(rows).value.upperSeen))
    ensures !row.above && row.upto.None? ==> ParseRows(rows + [row]) == ParseRows(rows)
  {
    assert (rows + [row])[..|rows|] == rows;
  }

  /** `_parse_slabs`: the loop over the rows, updating `parsed` and `upper_seen`. */
  method ParseSlabs(rows: seq<SlabRow>) returns (r: Result<seq<SlabLine>>)
    ensures r.Ok? <==> ParseRows(rows).Ok?
    ensures r.Err? ==> r == Err(KeyError)
    ensures r.Ok? ==> r.value == ParseRows(rows).value.parsed
    ensures r.Ok? ==> StrictlyIncreasing(BoundedUptos(r.value))
  {
    var parsed: seq<SlabLine> := [];
    var upperSeen: seq<real> := [];
    var i := 0;
    while i < |rows|
      invariant 0 <= i <= |rows|
      invariant ParseRows(rows[..i]) == Ok(ParseState(parsed, upperSeen))
    {
      var row := rows[i];
      assert rows[..i + 1][..i] == rows[..i];
      ghost var next := ParseRow(ParseState(parsed, upperSeen), row);
      assert ParseRows(rows[..i + 1]) == next;
      if row.above {
        if row.rate.None? {
          ParseErrorSticks(rows, i + 1, KeyError);
          return Err(KeyError);
        }
        parsed := parsed + [SlabLine(None, row.rate.value)];
      } else if row.upto.Some? {
        var uptoValue := row.upto.value;
        if |upperSeen| > 0 && uptoValue <= MaxOf(upperSeen) {
          assert next == Ok(ParseState(parsed, upperSeen));
          i := i + 1;
          continue;
        }
        if row.rate.None? {
          ParseErrorSticks(rows, i + 1, KeyError);
          return Err(KeyError);
        }
        upperSeen := upperSeen + [uptoValue];
        parsed := parsed + [SlabLine(row.upto, row.rate.value)];
      }
      assert next == Ok(ParseState(parsed, upperSeen));
      i := i + 1;
    }
    assert rows[..|rows|] == rows;
    ParseInvariant(rows);
    return Ok(parsed);
  }

  // ---------- Walking the slabs (_compute_slab_amount) ----------

  /** The outcome of the walk: amount billed, units left over, and the units
      billed in each visited tier. */
  datatype Walk = Walk(billed: real, remaining: real, spans: seq<real>)

  /** The cost of `units` units at `rate` per unit. */
  function Charge(units: real, rate: real): real { units * rate }

  /** The slab walk from `remaining` units with the previous bound at
      `lastUpper`: a bounded tier takes `max(0, min(remaining, upto - lastUpper))`
      units and the walk stops once nothing remains; an unbounded tier takes
      everything and stops the walk. */
  function WalkSlabs(remaining: real, lastUpper: real, slabs: seq<SlabLine>): (w: Walk)
    ensures |w.spans| <= |slabs|
    decreases |slabs|
  {
    if |slabs| == 0 then Walk(0.0, remaining, [])
    else if slabs[0].upto.None? then Walk(Charge(remaining, slabs[0].rate), 0.0, [remaining])
    else
      var span := MaxReal(0.0, MinReal(remaining, slabs[0].upto.value - lastUpper));
      var rest := remaining - span;
      if rest <= 0.0 then Walk(Charge(span, slabs[0].rate), rest, [span])
      else
        var w := WalkSlabs(rest, slabs[0].upto.value, slabs[1..]);
        Walk(Charge(span, slabs[0].rate) + w.billed, w.remaining, [span] + w.spans)
  }

  /** The slab amount: the walk, then any units left over billed at the last
      tier's rate. */
  function SlabAmount(units: real, slabs: seq<SlabLine>): real {
    var w := WalkSlabs(units, 0.0, slabs);
    if w.remaining > 0.0 && |slabs| > 0 then w.billed + w.remaining * slabs[|slabs| - 1].rate
    else w.billed
  }

  /** `_compute_slab_amount`: the loop over the tiers updating `remaining`,
      `billed` and `last_upper`, with the overflow fallback after it. */
  method ComputeSlabAmount(units: real, slabs: seq<SlabLine>) returns (billed: real)
    ensures billed == SlabAmount(units, slabs)
  {
    var remaining := units;
    billed := 0.0;
    var lastUpper := 0.0;
    ghost var whole := WalkSlabs(units, 0.0, slabs);
    var i := 0;
    while i < |slabs|
      invariant 0 <= i <= |slabs|
      invariant billed + WalkSlabs(remaining, lastUpper, slabs[i..]).billed == whole.billed
      invariant WalkSlabs(remaining, lastUpper, slabs[i..]).remaining == whole.remaining
    {
      var slab := slabs[i];
      assert slabs[i..][1..] == slabs[i + 1..];
      if slab.upto.None? {
        billed := billed + Charge(remaining, slab.rate);
        remaining := 0.0;
        break;
      }
      var span := MaxReal(0.0, MinReal(remaining, slab.upto.value - lastUpper));
      billed := billed + Charge(span, slab.rate);
      remaining := remaining - span;
      lastUpper := slab.upto.value;
      if remaining <= 0.0 {
        break;
      }
      i := i + 1;
    }
    if remaining > 0.0 && |slabs| > 0 {
      billed := billed + remaining * slabs[|slabs| - 1].rate;
    }
  }

  function Sum(s: seq<real>): real
    decreases |s|
  {
    if |s| == 0 then 0.0 else s[0] + Sum(s[1..])
  }

  /** Units per tier times that tier's rate, over the visited tiers. */
  function Dot(spans: seq<real>, slabs: seq<SlabLine>): real
    requires |spans| <= |slabs|
    decreases |spans|
  {
    if |spans| == 0 then 0.0 else Charge(spans[0], slabs[0].rate) + Dot(spans[1..], slabs[1..])
  }

  /** The walk accounts for every unit it is given: the units placed in the
      visited tiers plus the units left over are the units it started with. */
  lemma {:induction false} WalkAccounts(remaining: real, lastUpper: real, slabs: seq<SlabLine>)
    ensures var w := WalkSlabs(remaining, lastUpper, slabs);
            Sum(w.spans) + w.remaining == remaining
    decreases |slabs|
  {
    if |slabs| > 0 && slabs[0].upto.Some? {
      var span := MaxReal(0.0, MinReal(remaining, slabs[0].upto.value - lastUpper));
      var rest := remaining - span;
      if rest > 0.0 {
        WalkAccounts(rest, slabs[0].upto.value, slabs[1..]);
        var w := WalkSlabs(rest, slabs[0].upto.value, slabs[1..]);
        assert ([span] + w.spans)[1..] == w.spans;
      } else {
        assert Sum([span]) == span + Sum([]);
      }
    } else if |slabs| > 0 {
      assert Sum([remaining]) == remaining + Sum([]);
    }
  }

  /** The walk bills each visited tier its units times its rate. */
  lemma {:induction false} WalkBillsPerTier(remaining: real, lastUpper: real, slabs: seq<SlabLine>)
    ensures var w := WalkSlabs(remaining, lastUpper, slabs);
            w.billed == Dot(w.spans, slabs)
    decreases |slabs|
  {
    if |slabs| > 0 && slabs[0].upto.Some? {
      var span := MaxReal(0.0, MinReal(remaining, slabs[0].upto.value - lastUpper));
      var rest := remaining - span;
      if rest > 0.0 {
        WalkBillsPerTier(rest, slabs[0].upto.value, slabs[1..]);
        var w := WalkSlabs(rest, slabs[0].upto.value, slabs[1..]);
        assert ([span] + w.spans)[1..] == w.spans;
      } else {
        assert Dot([span], slabs) == Charge(span, slabs[0].rate) + Dot([], slabs[1..]);
      }
    } else if |slabs| > 0 {
      assert Dot([remaining], slabs) == Charge(remaining, slabs[0].rate) + Dot([], slabs[1..]);
    }
  }

  /** From a non-negative start no tier receives a negative number of units
      and nothing negative is left over. */
  lemma {:induction false} WalkNonNegative(remaining: real, lastUpper: real, slabs: seq<SlabLine>)
    requires remaining >= 0.0
    ensures var w := WalkSlabs(remaining, lastUpper, slabs);
            w.remaining >= 0.0 && forall k :: 0 <= k < |w.spans| ==> w.spans[k] >= 0.0
    decreases |slabs|
  {
    if |slabs| > 0 && slabs[0].upto.Some? {
      var span := MaxReal(0.0, MinReal(remaining, slabs[0].upto.value - lastUpper));
      var rest := remaining - span;
      if rest > 0.0 {
        WalkNonNegative(rest, slabs[0].upto.value, slabs[1..]);
        var w := WalkSlabs(rest, slabs[0].upto.value, slabs[1..]);
        assert forall k :: 1 <= k < |[span] + w.spans| ==> ([span] + w.spans)[k] == w.spans[k - 1];
      }
    }
  }

  /** Unit conservation: with at least one tier and units >= 0, every unit is
      billed exactly once, either inside a tier at that tier's rate or in the
      overflow at the last tier's rate. */
  lemma {:induction false} UnitsBilledExactlyOnce(units: real, slabs: seq<SlabLine>)
    requires units >= 0.0 && |slabs| > 0
    ensures var w := WalkSlabs(units, 0.0, slabs);
            |w.spans| <= |slabs|
            && Sum(w.spans) + w.remaining == units
            && w.remaining >= 0.0
            && (forall k :: 0 <= k < |w.spans| ==> w.spans[k] >= 0.0)
            && SlabAmount(units, slabs) == Dot(w.spans, slabs) + w.remaining * slabs[|slabs| - 1].rate
  {
    WalkAccounts(units, 0.0, slabs);
    WalkBillsPerTier(units, 0.0, slabs);
    WalkNonNegative(units, 0.0, slabs);
  }

  /** No units, or no tiers, cost nothing, except that a first unbounded tier
      bills negative units at its rate. */
  lemma NoUnitsNoCharge(units: real, slabs: seq<SlabLine>)
    requires units <= 0.0 || |slabs| == 0
    ensures SlabAmount(units, slabs) ==
            if |slabs| > 0 && slabs[0].upto.None? then units * slabs[0].rate else 0.0
  {
  }

  /** Tiers whose bounds are all present and climb strictly from `lastUpper`. */
  predicate Chain(lastUpper: real, slabs: seq<SlabLine>)
    decreases |slabs|
  {
    |slabs| == 0
    || (slabs[0].upto.Some? && slabs[0].upto.value > lastUpper
        && Chain(slabs[0].upto.value, slabs[1..]))
  }

  /** The highest bound of a chain (`lastUpper` for an empty one). */
  function Top(lastUpper: real, slabs: seq<SlabLine>): (t: real)
    requires Chain(lastUpper, slabs)
    ensures t >= lastUpper
    ensures |slabs| > 0 ==> t >= slabs[0].upto.value && t > lastUpper
    decreases |slabs|
  {
    if |slabs| == 0 then lastUpper else Top(slabs[0].upto.value, slabs[1..])
  }

  /** The cost of filling every tier of a chain to its bound. */
  function FullCost(lastUpper: real, slabs: seq<SlabLine>): real
    requires Chain(lastUpper, slabs)
    decreases |slabs|
  {
    if |slabs| == 0 then 0.0
    else Charge(slabs[0].upto.value - lastUpper, slabs[0].rate) + FullCost(slabs[0].upto.value, slabs[1..])
  }

  /** Units that fit inside a chain are billed within it: whatever tiers follow
      are never reached, and nothing is left over. */
  lemma {:induction false} WalkWithinChain(remaining: real, lastUpper: real, slabs: seq<SlabLine>, rest: seq<SlabLine>)
    requires Chain(lastUpper, slabs) && |slabs| > 0
    requires 0.0 <= remaining <= Top(lastUpper, slabs) - lastUpper
    ensures WalkSlabs(remaining, lastUpper, slabs + rest) == WalkSlabs(remaining, lastUpper, slabs)
    ensures WalkSlabs(remaining, lastUpper, slabs).remaining == 0.0
    decreases |slabs|
  {
    var u := slabs[0].upto.value;
    assert (slabs + rest)[0] == slabs[0];
    assert (slabs + rest)[1..] == slabs[1..] + rest;
    assert Top(lastUpper, slabs) == Top(u, slabs[1..]);
    if remaining > u - lastUpper {
      assert |slabs[1..]| > 0;
      WalkWithinChain(remaining - (u - lastUpper), u, slabs[1..], rest);
    } else {
      assert WalkSlabs(remaining, lastUpper, slabs) == Walk(Charge(remaining, slabs[0].rate), 0.0, [remaining]);
      assert WalkSlabs(remaining, lastUpper, slabs + rest) == Walk(Charge(remaining, slabs[0].rate), 0.0, [remaining]);
    }
  }

  /** Units that fill a chain exactly to its top cost the full cost of the chain. */
  lemma {:induction false} WalkFillsChain(lastUpper: real, slabs: seq<SlabLine>)
    requires Chain(lastUpper, slabs) && |slabs| > 0
    ensures WalkSlabs(Top(lastUpper, slabs) - lastUpper, lastUpper, slabs).billed == FullCost(lastUpper, slabs)
    decreases |slabs|
  {
    var u := slabs[0].upto.value;
    var remaining := Top(lastUpper, slabs) - lastUpper;
    assert Top(lastUpper, slabs) == Top(u, slabs[1..]);
    if |slabs| == 1 {
      assert remaining == u - lastUpper;
      assert FullCost(u, slabs[1..]) == 0.0;
      assert WalkSlabs(remaining, lastUpper, slabs) == Walk(Charge(remaining, slabs[0].rate), 0.0, [remaining]);
    } else {
      var span := u - lastUpper;
      assert Top(u, slabs[1..]) > u;
      assert remaining - span == Top(u, slabs[1..]) - u;
      WalkFillsChain(u, slabs[1..]);
      assert FullCost(lastUpper, slabs) == Charge(span, slabs[0].rate) + FullCost(u, slabs[1..]);
      assert WalkSlabs(remaining, lastUpper, slabs).billed
             == Charge(span, slabs[0].rate) + WalkSlabs(remaining - span, u, slabs[1..]).billed;
    }
  }

  /** Units beyond a chain fill every tier of it to its bound and hand the
      surplus to whatever follows. */
  lemma {:induction false} WalkThroughChain(remaining: real, lastUpper: real, slabs: seq<SlabLine>, rest: seq<SlabLine>)
    requires Chain(lastUpper, slabs)
    requires remaining > Top(lastUpper, slabs) - lastUpper
    ensures var w := WalkSlabs(remaining, lastUpper, slabs + rest);
            var after := WalkSlabs(remaining - (Top(lastUpper, slabs) - lastUpper), Top(lastUpper, slabs), rest);
            w.billed == FullCost(lastUpper, slabs) + after.billed && w.remaining == after.remaining
    decreases |slabs|
  {
    if |slabs| == 0 {
      assert slabs + rest == rest;
    } else {
      var u := slabs[0].upto.value;
      var span := u - lastUpper;
      assert (slabs + rest)[0] == slabs[0];
      assert (slabs + rest)[1..] == slabs[1..] + rest;
      assert Top(lastUpper, slabs) == Top(u, slabs[1..]);
      assert FullCost(lastUpper, slabs) == Charge(span, slabs[0].rate) + FullCost(u, slabs[1..]);
      WalkThroughChain(remaining - span, u, slabs[1..], rest);
      var w := WalkSlabs(remaining - span, u, slabs[1..] + rest);
      assert WalkSlabs(remaining, lastUpper, slabs + rest).billed == Charge(span, slabs[0].rate) + w.billed;
    }
  }

  /** Boundary: units exactly at a tier's bound stop the walk there, so the
      tiers after it bill nothing; the amount is the full cost of the tiers up
      to that bound. */
  lemma {:induction false} UnitsAtBoundStopThere(units: real, slabs: seq<SlabLine>, later: seq<SlabLine>)
    requires Chain(0.0, slabs) && |slabs| > 0
    requires units == Top(0.0, slabs)
    ensures SlabAmount(units, slabs + later) == FullCost(0.0, slabs)
  {
    WalkWithinChain(units, 0.0, slabs, later);
    WalkFillsChain(0.0, slabs);
  }

  /** Units within the bounded tiers never reach the tiers after them. */
  lemma {:induction false} LaterTiersUnreached(units: real, slabs: seq<SlabLine>, later: seq<SlabLine>)
    requires Chain(0.0, slabs) && |slabs| > 0
    requires 0.0 <= units <= Top(0.0, slabs)
    ensures SlabAmount(units, slabs + later) == SlabAmount(units, slabs)
  {
    WalkWithinChain(units, 0.0, slabs, later);
  }

  /** An unbounded tier after the bounded ones absorbs every unit beyond them
      at its own rate, and the tiers after it are never reached. */
  lemma {:induction false} UnboundedTierAbsorbs(units: real, slabs: seq<SlabLine>, rate: real, later: seq<SlabLine>)
    requires Chain(0.0, slabs)
    requires units > Top(0.0, slabs)
    ensures SlabAmount(units, slabs + ([SlabLine(None, rate)] + later))
            == FullCost(0.0, slabs) + (units - Top(0.0, slabs)) * rate
  {
    WalkThroughChain(units, 0.0, slabs, [SlabLine(None, rate)] + later);
  }

  /** Overflow fallback: with no unbounded tier, units beyond the last bound
      are billed at the last tier's rate. */
  lemma {:induction false} OverflowBilledAtLastRate(units: real, slabs: seq<SlabLine>)
    requires Chain(0.0, slabs) && |slabs| > 0
    requires units > Top(0.0, slabs)
    ensures SlabAmount(units, slabs)
            == FullCost(0.0, slabs) + (units - Top(0.0, slabs)) * slabs[|slabs| - 1].rate
  {
    var top := Top(0.0, slabs);
    WalkThroughChain(units, 0.0, slabs, []);
    assert slabs + [] == slabs;
    assert WalkSlabs(units - top, top, []) == Walk(0.0, units - top, []);
    var w := WalkSlabs(units, 0.0, slabs);
    assert w.billed == FullCost(0.0, slabs) && w.remaining == units - top;
  }

  /** The worked example: tiers 100 @ 0, 200 @ 2.35 and above @ 4.70 price
      150 units at 100 x 0 + 50 x 2.35 = 117.5. */
  lemma SlabExample()
    ensures SlabAmount(150.0, [SlabLine(Some(100.0), 0.0), SlabLine(Some(200.0), 2.35), SlabLine(None, 4.70)]) == 117.5
  {
    var bounded := [SlabLine(Some(100.0), 0.0), SlabLine(Some(200.0), 2.35)];
    assert [SlabLine(Some(100.0), 0.0), SlabLine(Some(200.0), 2.35), SlabLine(None, 4.70)]
           == bounded + [SlabLine(None, 4.70)];
    LaterTiersUnreached(150.0, bounded, [SlabLine(None, 4.70)]);
  }

  // ---------- Multipliers ----------

  /** `_case_insensitive_key`: the position of the first key equal to `key`
      ignoring case, if any. */
  function CaseInsensitiveKey(m: Multipliers, key: string): (r: Option<nat>)
    ensures r.Some? ==> r.value < |m| && Lower(m[r.value].0) == Lower(key)
    ensures r.Some? ==> forall j :: 0 <= j < r.value ==> Lower(m[j].0) != Lower(key)
    ensures r.None? <==> forall j :: 0 <= j < |m| ==> Lower(m[j].0) != Lower(key)
    decreases |m|
  {
    if |m| == 0 then None
    else if Lower(m[0].0) == Lower(key) then Some(0)
    else
      match CaseInsensitiveKey(m[1..], key)
      case None => None
      case Some(j) => Some(j + 1)
  }

  /** `any(k.lower() == name for k in mapping)`. */
  predicate HasKey(m: Multipliers, name: string) {
    CaseInsensitiveKey(m, name).Some?
  }

  predicate IsWinterMonth(month: int) {
    month == 10 || month == 11 || month == 12 || month == 1 || month == 2
  }

  /** `_infer_season_by_month`: April-June "summer", July-September "monsoon",
      October-February "winter", each only when the map has that key; otherwise
      the map's first key ("default" for an empty map). */
  function InferSeasonByMonth(month: int, m: Multipliers): (season: string)
    ensures 4 <= month <= 6 && HasKey(m, "summer") ==> season == "summer"
    ensures 7 <= month <= 9 && HasKey(m, "monsoon") ==> season == "monsoon"
    ensures IsWinterMonth(month) && HasKey(m, "winter") ==> season == "winter"
    ensures !(4 <= month <= 6 && HasKey(m, "summer")) && !(7 <= month <= 9 && HasKey(m, "monsoon"))
            && !(IsWinterMonth(month) && HasKey(m, "winter")) ==>
              season == if |m| == 0 then "default" else m[0].0
  {
    if HasKey(m, "summer") && 4 <= month <= 6 then "summer"
    else if HasKey(m, "monsoon") && 7 <= month <= 9 then "monsoon"
    else if HasKey(m, "winter") && IsWinterMonth(month) then "winter"
    else if |m| == 0 then "default"
    else m[0].0
  }

  /** A missing key and an explicit null both read as an empty map. */
  function MultipliersOf(m: Option<Multipliers>): Multipliers {
    if m.None? then [] else m.value
  }

  /** The factor of a label in a map: the value of the first key equal to the
      label ignoring case, 1.0 when none matches. */
  function FactorFor(m: Multipliers, tag: string): real {
    match CaseInsensitiveKey(m, tag)
    case None => 1.0
    case Some(i) => m[i].1
  }

  /** `_resolve_season_factor`, with `month` for the calendar month of the clock. */
  function ResolveSeasonFactor(table: TariffTable, season: Option<string>, month: int): real {
    var m := MultipliersOf(table.seasonMultipliers);
    if |m| == 0 then 1.0
    else
      var tag := if season.None? || season.value == "" then InferSeasonByMonth(month, m) else season.value;
      if tag == "default" || tag == "" then 1.0
      else FactorFor(m, tag)
  }

  /** `_resolve_tod_factor`: a missing tag means "mid". */
  function ResolveTodFactor(table: TariffTable, timeOfDay: Option<string>): real {
    var m := MultipliersOf(table.todMultipliers);
    if |m| == 0 then 1.0
    else
      var tag := if timeOfDay.None? || timeOfDay.value == "" then "mid" else timeOfDay.value;
      FactorFor(m, tag)
  }

  /** Season factor defaults and matching: 1.0 without a map, for the tag
      "default", or when no key matches; otherwise the factor of the first key
      equal to the tag ignoring case. */
  lemma SeasonFactorRules(table: TariffTable, tag: string, month: int)
    ensures |MultipliersOf(table.seasonMultipliers)| == 0 ==> ResolveSeasonFactor(table, Some(tag), month) == 1.0
    ensures ResolveSeasonFactor(table, Some("default"), month) == 1.0
    ensures tag != "" && tag != "default" && !HasKey(MultipliersOf(table.seasonMultipliers), tag)
            ==> ResolveSeasonFactor(table, Some(tag), month) == 1.0
    ensures tag != "" && tag != "default" && HasKey(MultipliersOf(table.seasonMultipliers), tag)
            ==> var m := MultipliersOf(table.seasonMultipliers);
                exists i :: 0 <= i < |m| && Lower(m[i].0) == Lower(tag)
                  && ResolveSeasonFactor(table, Some(tag), month) == m[i].1
                  && forall j :: 0 <= j < i ==> Lower(m[j].0) != Lower(tag)
  {
  }

  /** With no tag, a month whose season key exists takes that key's factor;
      any other month (March, say) takes the factor of the map's first key,
      or 1.0 when that key is "default" or empty. */
  lemma {:induction false} SeasonInferredFromMonth(table: TariffTable, month: int)
    requires |MultipliersOf(table.seasonMultipliers)| > 0
    ensures var m := MultipliersOf(table.seasonMultipliers);
            4 <= month <= 6 && HasKey(m, "summer") ==> ResolveSeasonFactor(table, None, month) == FactorFor(m, "summer")
    ensures var m := MultipliersOf(table.seasonMultipliers);
            7 <= month <= 9 && HasKey(m, "monsoon") ==> ResolveSeasonFactor(table, None, month) == FactorFor(m, "monsoon")
    ensures var m := MultipliersOf(table.seasonMultipliers);
            IsWinterMonth(month) && HasKey(m, "winter") ==> ResolveSeasonFactor(table, None, month) == FactorFor(m, "winter")
    ensures var m := MultipliersOf(table.seasonMultipliers);
            !(4 <= month <= 6 && HasKey(m, "summer")) && !(7 <= month <= 9 && HasKey(m, "monsoon"))
            && !(IsWinterMonth(month) && HasKey(m, "winter")) && m[0].0 != "default" && m[0].0 != ""
            ==> ResolveSeasonFactor(table, None, month) == m[0].1
    ensures var m := MultipliersOf(table.seasonMultipliers);
            !(4 <= month <= 6 && HasKey(m, "summer")) && !(7 <= month <= 9 && HasKey(m, "monsoon"))
            && !(IsWinterMonth(month) && HasKey(m, "winter")) && (m[0].0 == "default" || m[0].0 == "")
            ==> ResolveSeasonFactor(table, None, month) == 1.0
  {
    var m := MultipliersOf(table.seasonMultipliers);
    assert CaseInsensitiveKey(m, m[0].0) == Some(0);
  }

  /** Time-of-day factor: 1.0 without a map or without a match; no tag reads
      as "mid"; otherwise the first key equal ignoring case. */
  lemma TodFactorRules(table: TariffTable, tag: string)
    ensures |MultipliersOf(table.todMultipliers)| == 0 ==> ResolveTodFactor(table, Some(tag)) == 1.0
    ensures ResolveTodFactor(table, None) == ResolveTodFactor(table, Some("mid"))
    ensures tag != "" && !HasKey(MultipliersOf(table.todMultipliers), tag) ==> ResolveTodFactor(table, Some(tag)) == 1.0
    ensures tag != "" && HasKey(MultipliersOf(table.todMultipliers), tag) ==>
              var m := MultipliersOf(table.todMultipliers);
              ResolveTodFactor(table, Some(tag)) == m[CaseInsensitiveKey(m, tag).value].1
  {
  }

  /** "Summer" selects the multiplier stored under "summer". */
  lemma SeasonLabelIgnoresCase(table: TariffTable, factor: real)
    requires table.seasonMultipliers == Some([("summer", factor), ("winter", 0.9)])
    ensures ResolveSeasonFactor(table, Some("Summer"), 1) == factor
  {
    assert Lower("Summer") == "summer";
    assert Lower("summer") == "summer";
  }

  // ---------- The bill (compute_bill) ----------

  function SlabRowsOf(table: TariffTable): seq<SlabRow> {
    if table.slabs.None? then [] else table.slabs.value
  }

  /** The amount before factors: units x flat_rate when no tier was parsed and
      the table has a flat rate, the slab amount otherwise. */
  function BaseAmount(table: TariffTable, units: real, tiers: seq<SlabLine>): real {
    if |tiers| == 0 && table.flatRate.Some? then Charge(units, table.flatRate.value)
    else SlabAmount(units, tiers)
  }

  /** `fixed_charge`, 0 when the table has none. */
  function FixedChargeOf(table: TariffTable): real {
    if table.fixedCharge.Some? then table.fixedCharge.value else 0.0
  }

  /** The total: the base amount scaled by both factors, plus the fixed charge. */
  function Total(baseAmount: real, seasonFactor: real, todFactor: real, fixedCharge: real): real {
    baseAmount * seasonFactor * todFactor + fixedCharge
  }

  /** The bill of `compute_bill` once the tiers are parsed: the base amount
      is the slab amount of the tiers, unless no tier was parsed and the table
      has a flat rate, which then prices every unit; the factors are the
      resolved season and time-of-day factors; the total scales the base
      amount by both and adds the fixed charge. */
  function BillFor(table: TariffTable, units: real, season: Option<string>, timeOfDay: Option<string>,
                   month: int, tiers: seq<SlabLine>): (b: Bill)
    ensures b.units == units && b.fixedCharge == FixedChargeOf(table)
    ensures b.seasonFactor == ResolveSeasonFactor(table, season, month)
            && b.todFactor == ResolveTodFactor(table, timeOfDay)
    ensures |tiers| > 0 || table.flatRate.None? ==> b.baseAmount == SlabAmount(units, tiers)
    ensures |tiers| == 0 && table.flatRate.Some? ==> b.baseAmount == units * table.flatRate.value
    ensures b.totalAmount == Total(b.baseAmount, b.seasonFactor, b.todFactor, b.fixedCharge)
  {
    var base := BaseAmount(table, units, tiers);
    var seasonFactor := ResolveSeasonFactor(table, season, month);
    var todFactor := ResolveTodFactor(table, timeOfDay);
    var fixed := FixedChargeOf(table);
    Bill(units, base, seasonFactor, todFactor, fixed, Total(base, seasonFactor, todFactor, fixed))
  }

  /** `compute_bill` once the table is known: it fails exactly when a kept
      slab row lacks its rate, and otherwise bills the parsed tiers. */
  function BillFromTable(table: TariffTable, units: real, season: Option<string>,
                         timeOfDay: Option<string>, month: int): (r: Result<Bill>)
    ensures r.Err? <==> ParseRows(SlabRowsOf(table)).Err?
    ensures r.Err? ==> r.error == KeyError
    ensures r.Ok? ==> r.value == BillFor(table, units, season, timeOfDay, month, ParseRows(SlabRowsOf(table)).value.parsed)
  {
    var parsed := ParseRows(SlabRowsOf(table));
    if parsed.Err? then Err(parsed.error)
    else Ok(BillFor(table, units, season, timeOfDay, month, parsed.value.parsed))
  }

  /** A table without multiplier maps bills the base amount plus the fixed charge. */
  lemma PlainTableBill(table: TariffTable, units: real, season: Option<string>, timeOfDay: Option<string>, month: int)
    requires table.seasonMultipliers.None? && table.todMultipliers.None?
    requires BillFromTable(table, units, season, timeOfDay, month).Ok?
    ensures var b := BillFromTable(table, units, season, timeOfDay, month).value;
            b.totalAmount == b.baseAmount + b.fixedCharge
  {
  }

  /** The flat rate is used only when no slab was parsed: a table with a
      bounded slab row ignores its flat rate. */
  lemma FlatRateOnlyWithoutSlabs(table: TariffTable, units: real, month: int, upto: real, rate: real)
    requires table.slabs == Some([SlabRow(false, Some(upto), Some(rate))])
    ensures BillFromTable(table, units, None, None, month).Ok?
    ensures BillFromTable(table, units, None, None, month).value.baseAmount == SlabAmount(units, [SlabLine(Some(upto), rate)])
  {
    var row := SlabRow(false, Some(upto), Some(rate));
    ParseSnoc([], row);
    assert [] + [row] == [row];
    assert ParseRows([]) == Ok(ParseState([], []));
    var line := SlabLine(Some(upto), rate);
    assert ParseRow(ParseState([], []), row) == Ok(ParseState([] + [line], [] + [upto]));
    assert [] + [line] == [line];
    assert ParseRows([row]).value.parsed == [line];
  }

  /** The slab rows of the worked example parse to its three tiers. */
  lemma ExampleRowsParse(a: SlabRow, b: SlabRow, c: SlabRow)
    requires a == SlabRow(false, Some(100.0), Some(0.0)) && b == SlabRow(false, Some(200.0), Some(2.35))
    requires c == SlabRow(true, None, Some(4.70))
    ensures ParseRows([a, b, c])
            == Ok(ParseState([SlabLine(Some(100.0), 0.0), SlabLine(Some(200.0), 2.35), SlabLine(None, 4.70)],
                             [100.0, 200.0]))
  {
    var la := SlabLine(Some(100.0), 0.0);
    var lb := SlabLine(Some(200.0), 2.35);
    assert ParseRows([]) == Ok(ParseState([], []));
    FreshBoundAppended([], a);
    assert [] + [a] == [a];
    assert [] + [la] == [la] && [] + [100.0] == [100.0];
    assert ParseRows([a]) == Ok(ParseState([la], [100.0]));
    FreshBoundAppended([a], b);
    assert [a] + [b] == [a, b];
    assert [la] + [lb] == [la, lb] && [100.0] + [200.0] == [100.0, 200.0];
    assert ParseRows([a, b]) == Ok(ParseState([la, lb], [100.0, 200.0]));
    ParseAboveAndKeyless([a, b], c);
    assert [a, b] + [c] == [a, b, c];
    assert [la, lb] + [SlabLine(None, 4.70)] == [la, lb, SlabLine(None, 4.70)];
  }

  /** The worked example end to end: 150 units on the three-tier table with no
      multipliers and no fixed charge cost 117.5. */
  lemma BillExample(month: int)
    ensures BillFromTable(
              TariffTable(Some([SlabRow(false, Some(100.0), Some(0.0)), SlabRow(false, Some(200.0), Some(2.35)),
                                SlabRow(true, None, Some(4.70))]), None, None, None, None, false),
              150.0, None, None, month)
            == Ok(Bill(150.0, 117.5, 1.0, 1.0, 0.0, 117.5))
  {
    ExampleRowsParse(SlabRow(false, Some(100.0), Some(0.0)), SlabRow(false, Some(200.0), Some(2.35)),
                     SlabRow(true, None, Some(4.70)));
    SlabExample();
  }

  // ---------- Resolving the table (get_tariff_table) ----------

  predicate StateTruthy(d: map<string, TariffTable>) { |d| > 0 }
  predicate TableTruthy(t: TariffTable) { !IsEmptyObject(t) }

  /** `m.get(k1) or m.get(k2) or m.get(k3)`: the first variant present with a
      value Python treats as true. */
  function FirstTruthy<T>(m: map<string, T>, keys: seq<string>, truthy: T -> bool): (r: Option<T>)
    ensures r.Some? ==> truthy(r.value)
    ensures r.Some? ==>
              exists i :: 0 <= i < |keys| && keys[i] in m && m[keys[i]] == r.value &&
                (forall j :: 0 <= j < i ==> !(keys[j] in m && truthy(m[keys[j]])))
    ensures r.None? <==> forall i :: 0 <= i < |keys| ==> !(keys[i] in m && truthy(m[keys[i]]))
    decreases |keys|
  {
    if |keys| == 0 then None
    else if keys[0] in m && truthy(m[keys[0]]) then Some(m[keys[0]])
    else
      var r := FirstTruthy(m, keys[1..], truthy);
      if r.Some? then FirstTruthyShift(m, keys, truthy, r.value); r
      else r
  }

  /** A first truthy variant after a falsy first key is the first truthy one
      of the whole list, one position further on. */
  lemma FirstTruthyShift<T>(m: map<string, T>, keys: seq<string>, truthy: T -> bool, v: T)
    requires |keys| > 0 && !(keys[0] in m && truthy(m[keys[0]]))
    requires exists i :: 0 <= i < |keys[1..]| && keys[1..][i] in m && m[keys[1..][i]] == v &&
               (forall j :: 0 <= j < i ==> !(keys[1..][j] in m && truthy(m[keys[1..][j]])))
    ensures exists i :: 0 <= i < |keys| && keys[i] in m && m[keys[i]] == v &&
              (forall j :: 0 <= j < i ==> !(keys[j] in m && truthy(m[keys[j]])))
  {
    var i :| 0 <= i < |keys[1..]| && keys[1..][i] in m && m[keys[1..][i]] == v &&
             (forall j :: 0 <= j < i ==> !(keys[1..][j] in m && truthy(m[keys[1..][j]])));
    assert keys[i + 1] == keys[1..][i];
    forall j | 0 < j < i + 1
      ensures !(keys[j] in m && truthy(m[keys[j]]))
    {
      assert keys[j] == keys[1..][j - 1];
    }
  }

  /** Loading on a miss: the state tried exact, title-case, upper-case; the
      category exact, title-case, lower-case; `ValueError` when either is
      missing. */
  function ResolveTable(data: TariffData, state: string, category: string): (r: Result<TariffTable>)
    ensures r.Ok? ==> !IsEmptyObject(r.value)
    ensures r.Err? ==> r.error == ValueError
    ensures FirstTruthy(data, [state, Title(state), Upper(state)], StateTruthy).None? ==> r.Err?
    ensures (state in data && StateTruthy(data[state]) && category in data[state] &&
             TableTruthy(data[state][category])) ==> r == Ok(data[state][category])
    ensures var s := FirstTruthy(data, [state, Title(state), Upper(state)], StateTruthy);
            r.Ok? <==> s.Some? && FirstTruthy(s.value, [category, Title(category), Lower(category)], TableTruthy).Some?
    ensures r.Ok? ==>
              r.value == FirstTruthy(FirstTruthy(data, [state, Title(state), Upper(state)], StateTruthy).value,
                                     [category, Title(category), Lower(category)], TableTruthy).value
  {
    match FirstTruthy(data, [state, Title(state), Upper(state)], StateTruthy)
    case None => Err(ValueError)
    case Some(stateData) =>
      match FirstTruthy(stateData, [category, Title(category), Lower(category)], TableTruthy)
      case None => Err(ValueError)
      case Some(table) => Ok(table)
  }

  /** `tariff_table::<path>::<state lower>::<category lower>`. */
  function CacheKey(path: string, state: string, category: string): string {
    "tariff_table::" + path + "::" + Lower(state) + "::" + Lower(category)
  }

  /** Two requests that differ only in letter case share a cache entry. */
  lemma CacheKeyIgnoresCase(path: string, s1: string, s2: string, c1: string, c2: string)
    requires Lower(s1) == Lower(s2) && Lower(c1) == Lower(c2)
    ensures CacheKey(path, s1, c1) == CacheKey(path, s2, c2)
  {
  }

  /** The table `get_tariff_table` returns against a given cache state. */
  function TableFor(store: map<string, TariffCache.Entry<TariffTable>>, now: real, path: string,
                    data: TariffData, state: string, category: string): Result<TariffTable> {
    match TariffCache.Lookup(store, CacheKey(path, state, category), now)
    case Some(t) => Ok(t)
    case None => ResolveTable(data, state, category)
  }

  /** The cache state `get_tariff_table` leaves behind. */
  function StoreAfterResolve(store: map<string, TariffCache.Entry<TariffTable>>, now: real, path: string,
                             data: TariffData, state: string, category: string)
    : map<string, TariffCache.Entry<TariffTable>> {
    var key := CacheKey(path, state, category);
    var afterGet := TariffCache.AfterGet(store, key, now);
    if TariffCache.Lookup(store, key, now).Some? then store
    else
      match ResolveTable(data, state, category)
      case Err(_) => afterGet
      case Ok(t) => TariffCache.AfterSet(afterGet, key, t, TableTtlSeconds, now)
  }

  /** After a successful load at `loadedAt`, a request within the hour is a
      cache hit answering the same table; from the hour on it is a miss and the
      file is read again. */
  lemma CachedForAnHour(store: map<string, TariffCache.Entry<TariffTable>>, path: string, data: TariffData,
                        state: string, category: string, loadedAt: real, later: real)
    requires TariffCache.Lookup(store, CacheKey(path, state, category), loadedAt).None?
    requires ResolveTable(data, state, category).Ok?
    requires loadedAt <= later
    ensures var store' := StoreAfterResolve(store, loadedAt, path, data, state, category);
            later < loadedAt + 3600.0 ==>
              TariffCache.Lookup(store', CacheKey(path, state, category), later) == Some(ResolveTable(data, state, category).value)
              && TableFor(store', later, path, data, state, category) == ResolveTable(data, state, category)
    ensures var store' := StoreAfterResolve(store, loadedAt, path, data, state, category);
            later >= loadedAt + 3600.0 ==> TariffCache.Lookup(store', CacheKey(path, state, category), later).None?
  {
  }

  /** The engine: the path and contents of the tariff file, and its cache. */
  class Engine {
    /** `os.path.abspath(self.json_path)`. */
    const path: string
    /** What `_load_tariff_json(self.json_path)` yields. */
    const data: TariffData
    const cache: TariffCache.InMemoryTTLCache<TariffTable>

    constructor (path: string, data: TariffData, cache: TariffCache.InMemoryTTLCache<TariffTable>)
      ensures this.path == path && this.data == data && this.cache == cache
    {
      this.path := path;
      this.data := data;
      this.cache := cache;
    }

    /** `get_tariff_table`: a cache hit returns the cached table and changes
        nothing; a miss resolves the table from the file and, on success,
        caches it under the lower-cased key for 3600 seconds. */
    method GetTariffTable(state: string, category: string, now: real) returns (r: Result<TariffTable>)
      modifies cache
      ensures var key := CacheKey(path, state, category);
              TariffCache.Lookup(old(cache.store), key, now).Some? ==>
                r == Ok(old(cache.store)[key].value) && cache.store == old(cache.store)
      ensures var key := CacheKey(path, state, category);
              TariffCache.Lookup(old(cache.store), key, now).None? ==>
                r == ResolveTable(data, state, category)
                && cache.store == if r.Ok?
                                  then TariffCache.AfterGet(old(cache.store), key, now)[key := TariffCache.Entry(now + 3600.0, r.value)]
                                  else TariffCache.AfterGet(old(cache.store), key, now)
      ensures r == TableFor(old(cache.store), now, path, data, state, category)
      ensures cache.store == StoreAfterResolve(old(cache.store), now, path, data, state, category)
    {
      var key := CacheKey(path, state, category);
      var cached := cache.Get(key, now);
      if cached.Some? {
        return Ok(cached.value);
      }
      r := ResolveTable(data, state, category);
      if r.Ok? {
        cache.Set(key, r.value, TableTtlSeconds, now);
      }
    }

    /** `compute_bill`: resolve the table, then price the units on it. */
    method ComputeBill(units: real, context: TariffContext, now: real, month: int) returns (r: Result<Bill>)
      modifies cache
      ensures r == match TableFor(old(cache.store), now, path, data, context.state, context.category)
                   case Err(e) => Err(e)
                   case Ok(t) => BillFromTable(t, units, context.season, context.timeOfDay, month)
      ensures cache.store == StoreAfterResolve(old(cache.store), now, path, data, context.state, context.category)
    {
      var found := GetTariffTable(context.state, context.category, now);
      if found.Err? {
        return Err(found.error);
      }
      var table := found.value;
      var seasonFactor := ResolveSeasonFactor(table, context.season, month);
      var todFactor := ResolveTodFactor(table, context.timeOfDay);
      var parsed := ParseSlabs(SlabRowsOf(table));
      if parsed.Err? {
        return Err(parsed.error);
      }
      var slabs := parsed.value;
      var baseAmount: real;
      if |slabs| == 0 && table.flatRate.Some? {
        baseAmount := Charge(units, table.flatRate.value);
      } else {
        baseAmount := ComputeSlabAmount(units, slabs);
      }
      assert baseAmount == BaseAmount(table, units, ParseRows(SlabRowsOf(table)).value.parsed);
      var fixedCharge := if table.fixedCharge.Some? then table.fixedCharge.value else 0.0;
      var totalAmount := Total(baseAmount, seasonFactor, todFactor, fixedCharge);
      assert BillFor(table, units, context.season, context.timeOfDay, month, slabs)
             == Bill(units, baseAmount, seasonFactor, todFactor, fixedCharge, totalAmount);
      return Ok(Bill(units, baseAmount, seasonFactor, todFactor, fixedCharge, totalAmount));
    }
  }
}

=== FILE: text.dfy ===
/** String helpers standing in for the Python `str` methods the core uses.
    Case mapping is ASCII-only: Python's `lower`, `upper` and `title` also map
    non-ASCII letters. */
module Text {

  predicate IsUpperAscii(c: char) { 'A' <= c <= 'Z' }
  predicate IsLowerAscii(c: char) { 'a' <= c <= 'z' }
  /** A "cased" character in the sense of `str.title`. */
  predicate IsCased(c: char) { IsUpperAscii(c) || IsLowerAscii(c) }

  function LowerChar(c: char): char {
    if IsUpperAscii(c) then (c as int + 32) as char else c
  }

  function UpperChar(c: char): char {
    if IsLowerAscii(c) then (c as int - 32) as char else c
  }

  /** `s.lower()` */
  function Lower(s: string): (r: string)
    ensures |r| == |s|
    ensures forall i :: 0 <= i < |s| ==> r[i] == LowerChar(s[i])
  {
    seq(|s|, i requires 0 <= i < |s| => LowerChar(s[i]))
  }

  /** `s.upper()` */
  function Upper(s: string): (r: string)
    ensures |r| == |s|
    ensures forall i :: 0 <= i < |s| ==> r[i] == UpperChar(s[i])
  {
    seq(|s|, i requires 0 <= i < |s| => UpperChar(s[i]))
  }

  /** `s.title()`: a letter is upper-cased when the character before it is
      not cased, and lower-cased otherwise. */
  function Title(s: string): (r: string)
    ensures |r| == |s|
  {
    seq(|s|, i requires 0 <= i < |s| =>
      if i > 0 && IsCased(s[i - 1]) then LowerChar(s[i]) else UpperChar(s[i]))
  }

  /** Lower-casing is idempotent, so two keys that agree ignoring case keep
      agreeing after either is lower-cased again. */
  lemma LowerIdempotent(s: string)
    ensures Lower(Lower(s)) == Lower(s)
  {
  }

  /** `w in s` for strings: `w` occurs as a contiguous substring of `s`. */
  predicate Contains(s: string, w: string) {
    exists i :: 0 <= i <= |s| && w <= s[i..]
  }

  /** Python's `a <= b` on strings: lexicographic by code point. */
  predicate LexLe(a: string, b: string)
    decreases |a|
  {
    if |a| == 0 then true
    else if |b| == 0 then false
    else if a[0] != b[0] then a[0] < b[0]
    else LexLe(a[1..], b[1..])
  }

  predicate IsDigit(c: char) { '0' <= c <= '9' }

  /** `s.isdigit()` for ASCII digits: non-empty and all digits. */
  predicate IsDigits(s: string) {
    |s| > 0 && forall i :: 0 <= i < |s| ==> IsDigit(s[i])
  }

  /** `int(s)` for a string of ASCII digits. */
  function DigitsValue(s: string): (n: nat)
    requires forall i :: 0 <= i < |s| ==> IsDigit(s[i])
    decreases |s|
  {
    if |s| == 0 then 0
    else
      assert IsDigit(s[|s| - 1]);
      DigitsValue(s[..|s| - 1]) * 10 + (s[|s| - 1] as int - '0' as int)
  }

  function Pow10(k: nat): nat { if k == 0 then 1 else 10 * Pow10(k - 1) }

  /** `int(s[:3])` of a digit string lies in [0, 999]. */
  lemma {:induction false} DigitsValueBound(s: string)
    requires forall i :: 0 <= i < |s| ==> IsDigit(s[i])
    ensures DigitsValue(s) < Pow10(|s|)
  {
    if |s| > 0 {
      DigitsValueBound(s[..|s| - 1]);
    }
  }
}

=== FILE: wrappers.dfy ===
/** Option and Result types shared by every module of the model.
    A `Result` carries either a value or the kind of exception the Python
    code raises on that path. */
module Wrappers {

  datatype Option<+T> = None | Some(value: T)

  /** The Python exception kinds the modelled code can raise. */
  datatype Error =
    | KeyError          // dict lookup of a missing key
    | ValueError        // raised by the code ("not found") or by a library it calls
    | TypeError         // an operator applied to a value of the wrong type
    | ZeroDivisionError // division by zero

  datatype Result<+T> = Ok(value: T) | Err(error: Error)

  function MaxReal(a: real, b: real): real { if a >= b then a else b }
  function MinReal(a: real, b: real): real { if a <= b then a else b }
  function AbsReal(a: real): real { if a >= 0.0 then a else -a }

  /** The one-item list `[a]` when `b` holds, else the empty list: one
      conditional `append` of a list that is built line by line. */
  function When<T(!new)>(b: bool, a: T): (r: seq<T>)
    ensures forall x :: x in r <==> b && x == a
  {
    if b then [a] else []
  }
}
